=== FILE: README.md ===
# sumo-wrapper-python in Dafny

This project models the decision logic of `sumo.wrapper`, the Python client
of the Sumo API. The modelled logic covers:

- the classification of HTTP error statuses into transient, authentication
  and permanent errors;
- the environment registry;
- how the two `SumoClient` classes, `CallSumoApi`/`CallAzureApi` and
  `SumoAggregationClient` turn a call into a request (url, headers, payload
  checks) and turn a response into a result;
- the authentication layer: the choice of an auth provider, the `NewAuth`
  and `Auth` token flows, expiry arithmetic, and the token cache on disk
  with its umask and file-mode discipline;
- the retry and unpacking decorators.

Everything outside the program is a parameter:

- **Identity provider.** msal and azure.identity are an oracle
  (`Identity.IdentityProvider`) whose answers the model reads. Every request
  made to it is recorded in a trace.
- **File system.** A map from path to entry (mode, contents) plus a umask,
  held by a `World.Host` object together with the platform, the home
  directory, the environment variables and the `atexit` hooks.
- **Network.** One `Http.Exchange` per request: a response, or a transport
  exception.
- **Clock.** An integer `now`, in whole seconds.
- **`jwt.decode`.** A partial function from a token to its claims.

Python's exceptions are values (`Exceptions.PyError`). A method that can
raise returns a `Result`. Methods that send a request also return the
request they sent, or `None` when they raise before sending.

Objects whose fields the source updates are classes:

- `Auth` (`result`, `accounts`, `expiring_date`, `cache`);
- `NewAuth`;
- the msal token cache;
- `CallAzureApi` (`bearer`);
- both `SumoClient`s;
- the host.

Each method is proved against a function of the old state. The properties
the source promises are proved as lemmas about those functions.

Where the source says one thing in prose and does another, the model
follows the code:

- `SumoClient.__init__` in `sumo_client.py` passes `refresh_token=` and
  `verbosity=` to `NewAuth`, which accepts neither. A client without a
  token therefore cannot be built, and the constructor raises `TypeError`.
- The aggregation client passes `verbosity=` in the same way, so it can
  never be built.
- A non-JWT token is stored as a refresh token, but no `auth` is created.
  Such a client raises `AttributeError` on every request.
- `NewAuth.get_token`'s interactive branch refers to an undefined `flow`.
- `Content-Length` is the number of entries of the json dict.
- `CallAzureApi` passes `writeback` into `Auth`'s `authority` position, so
  its `Auth` never writes back.
- `http_retry` does not apply its stop and retry settings. See Findings.

## Model

| member | source | states |
|---|---|---|
| RequestErrors.Classify | src/sumo/wrapper/_request_error.py:52-57 | the kind is Transient iff the code is 404, 500, 503 or 504, Authentication iff 401 <= code <= 403, Permanent iff neither |
| RequestErrors.RaiseRequestErrorException | src/sumo/wrapper/_request_error.py:46-57 | the raised error keeps code and message unchanged and has exactly one kind, with the three iff conditions above |
| RequestErrors.ClassifyExamples | src/sumo/wrapper/_request_error.py:52-57 | 404, 500, 503, 504 are transient; 401, 403 authentication; 400, 405, 501, 502, 505 permanent |
| RequestErrors.Render | src/sumo/wrapper/_request_error.py:13-44 | the text of a subclass error starts with its kind's prefix and ends with a full stop |
| RequestErrors.RenderParses | src/sumo/wrapper/_request_error.py:13-44 | the kind and the code can be read back from the rendered text |
| RequestErrors.RenderDistinguishes | src/sumo/wrapper/_request_error.py:13-44 | two errors that render alike agree on kind and code |
| RequestErrors.RenderBaseIsNoKind | src/sumo/wrapper/_request_error.py:6-11 | the base class text parses as none of the three kinds |
| AzureApi.RaiseRequestErrorException | src/sumo/wrapper/_call_azure_api.py:10-23 | the copy keeps code and message |
| AzureApi.ClassificationAgrees | src/sumo/wrapper/_call_azure_api.py:10-23 | the copy raises the same error as `raise_request_error_exception` for every code and message |
| LegacyClient.RaiseRequestErrorException | src/sumo/wrapper/_sumo_client.py:147-157 | the method keeps code and message |
| LegacyClient.ClassificationAgrees | src/sumo/wrapper/_sumo_client.py:147-157 | the method raises the same error as `raise_request_error_exception` for every code and message |
| Config.RegistryKeys | src/sumo/wrapper/config.py:1-49 | both registries have exactly prod, test, dev, preview and localhost as keys, so the two environment checks agree |
| Config.AppRegistrationSharing | src/sumo/wrapper/config.py:1-22 | prod and test share one registration; dev, preview and localhost share another, with different ids |
| Config.AggRegistrationSharing | src/sumo/wrapper/config.py:28-49 | one aggregation client id everywhere; prod/test and dev/preview/localhost share the resource ids, which differ |
| Http.NamesIndex | src/sumo/wrapper/sumo_client.py:195-198 | the names of a header list are its headers' names, in order |
| Http.HeaderValue | src/sumo/wrapper/sumo_client.py:195-198 | None iff the name is absent from the header list |
| Http.HeaderValueFound | src/sumo/wrapper/sumo_client.py:195-198 | a value found under a name is the value of a header with that name |
| Http.ResponseHeader | src/sumo/wrapper/_decorators.py:32 | a case-insensitive lookup: None iff no header name matches without regard to case |
| Http.Bearer | src/sumo/wrapper/sumo_client.py:197 | the credential is "Bearer " followed by the token (section 2.1 of RFC 6750) |
| Http.ContentLength | src/sumo/wrapper/_sumo_client.py:79-82 | raises `TypeError` iff json is falsy and there is no blob; otherwise a decimal numeral |
| Http.ContentLengthCounts | src/sumo/wrapper/_call_azure_api.py:248 | the header reads back as the number of json entries when json is truthy, else as the blob length |
| Http.ExchangeError | src/sumo/wrapper/sumo_client.py:277-290 | no error iff a response with a non-error status came back; an error status is classified; a proxy failure becomes a transient 503 where it is caught; other transport errors propagate |
| Http.Unpack | src/sumo/wrapper/sumo_client.py:211-214 | the reply is raw content, decoded JSON, the response or None, as the shape says |
| Http.Finish | src/sumo/wrapper/sumo_client.py:200-214 | raises exactly the exchange's error; otherwise the response unpacked |
| Paths.DirNameOfJoin | src/sumo/wrapper/_auth.py:191-192 | `dirname(join(d, name))` is `d` when `d` has no trailing '/' and `name` no '/' |
| Paths.TokenDirectory | src/sumo/wrapper/_auth_provider.py:69-72 | the token file of any resource lies in `~/.sumo` |
| FileSystem.Umask | src/sumo/wrapper/_auth.py:190 | installs the mask, returns the previous one, keeps every entry |
| FileSystem.MkdirExistOk | src/sumo/wrapper/_auth.py:193 | the umask is unchanged |
| FileSystem.MakeDirs | src/sumo/wrapper/_auth.py:193 | the umask is unchanged |
| FileSystem.MkdirExistOkEnsures | src/sumo/wrapper/_auth.py:193 | `mkdir` only adds the path, and adds it as a directory |
| FileSystem.MakeDirsEnsures | src/sumo/wrapper/_auth.py:193 | after a successful `makedirs` the path is a directory and no existing entry changed |
| FileSystem.OpenWrite | src/sumo/wrapper/_auth.py:195-197 | the umask is unchanged |
| FileSystem.OpenCreateWriteEnsures | src/sumo/wrapper/_auth_provider.py:85-86 | a write completes iff the path is not a directory and a new file's parent can hold it; then the file holds the contents, keeping its old mode or taking the asked mode less the umask, and nothing else changes; a failed write changes nothing |
| FileSystem.Chmod | src/sumo/wrapper/_auth.py:199-201 | succeeds iff the path exists, and then changes that entry's mode only |
| FileSystem.FileMode | src/sumo/wrapper/_auth_provider.py:113-119 | `stat.filemode` gives ten characters |
| FileSystem.FileModeOwnerReadWrite | src/sumo/wrapper/_auth_provider.py:113-115 | "-rw-------" iff a regular file with mode 0o600 |
| FileSystem.FileModeOwnerAllDir | src/sumo/wrapper/_auth_provider.py:117-119 | "drwx------" iff a directory with mode 0o700 |
| World.Host.constructor | src/sumo/wrapper/_auth.py:188-203 | the host starts with the given file system, no exit hooks and no calls |
| World.Host.SetUmask | src/sumo/wrapper/_auth.py:190 | the new state is `Umask` of the old one |
| World.Host.MakeDirectories | src/sumo/wrapper/_auth.py:193 | the new state is `MakeDirs` of the old one |
| World.Host.WriteFile | src/sumo/wrapper/_auth.py:195-197 | the new state is `OpenWrite` of the old one |
| World.Host.OpenFile | src/sumo/wrapper/_auth_provider.py:85-86 | the new state is `OpenCreateWrite` of the old one |
| World.Host.ChangeMode | src/sumo/wrapper/_auth.py:199-201 | the new state is `Chmod` of the old one |
| World.Host.RegisterAtExit | src/sumo/wrapper/_new_auth.py:36 | appends the hook and changes nothing else |
| World.Host.Record | src/sumo/wrapper/_new_auth.py:38-64 | appends the call to the trace and changes nothing else |
| TokenCacheStore.TokenCache.constructor | src/sumo/wrapper/_new_auth.py:68 | a new cache is empty and unchanged |
| TokenCacheStore.TokenCache.Deserialize | src/sumo/wrapper/_new_auth.py:72-73 | the state becomes the text and counts as unchanged |
| TokenCacheStore.TokenCache.Store | src/sumo/wrapper/_new_auth.py:43-62 | an acquisition that stores tokens makes the state its serialization and marks it changed; one that stores nothing leaves state and flag alone |
| TokenCacheStore.CacheAfterAppend | src/sumo/wrapper/_new_auth.py:38-64 | one more request stores on top of what the earlier ones left |
| TokenCacheStore.CacheAfterConcat | src/sumo/wrapper/_new_auth.py:38-64 | requests made in two runs leave the cache as if made in one |
| TokenCacheStore.CacheAfterNothingStored | src/sumo/wrapper/_new_auth.py:38-64 | requests that store nothing leave the cache, flag included, as loaded |
| TokenCacheStore.CacheAfterLastStore | src/sumo/wrapper/_new_auth.py:38-64 | a last request that stores decides the cache: exactly its state, marked changed |
| TokenCacheStore.LoadCache | src/sumo/wrapper/_new_auth.py:67-74 | a fresh cache holding the file's contents when the token file exists, the empty state otherwise |
| TokenCacheStore.WriteCache | src/sumo/wrapper/_auth.py:188-203 | the new file system and the exception equal `WriteCacheFile` of the old one |
| TokenCacheStore.WriteCacheFileUmask | src/sumo/wrapper/_auth.py:188-203 | a save that completes restores the caller's umask; one that raises leaves it at 0o077 |
| TokenCacheStore.WriteCacheFileModes | src/sumo/wrapper/_auth.py:188-203 | after a save that completes the file holds the contents; off Windows the file has mode 0o600 and its directory 0o700 |
| TokenCacheStore.SaveThenLoad | src/sumo/wrapper/_new_auth.py:67-91 | loading after a completed save gives back the saved state |
| TokenCacheStore.WriteCacheFileSucceeds | src/sumo/wrapper/_auth.py:188-203 | the save completes whenever the directory exists and the token path is not a directory |
| AuthProviders.ScopeForResourceShape | src/sumo/wrapper/_auth_provider.py:17-18 | the scope is the resource id followed by "/.default offline_access", and distinct resources get distinct scopes |
| AuthProviders.SelectStrategy | src/sumo/wrapper/_auth_provider.py:214-238 | Managed iff all four variables are set and non-empty; else RefreshToken iff a refresh token is truthy; else AccessToken iff an access token is truthy; else Interactive iff `interactive`; else DeviceCode |
| AuthProviders.ManagedNeedsEveryVariable | src/sumo/wrapper/_auth_provider.py:214-225 | one missing or empty variable rules out Managed |
| AuthProviders.ManagedWins | src/sumo/wrapper/_auth_provider.py:214-225 | with all four variables set the managed provider is built, whatever tokens are given |
| AuthProviders.AccessTokenGetToken | src/sumo/wrapper/_auth_provider.py:47-51 | raises `ValueError` iff now >= exp; otherwise returns the supplied token and asks nobody |
| AuthProviders.SilentGetTokenCases | src/sumo/wrapper/_auth_provider.py:27-35 | None iff there are no accounts or the silent acquisition gives None; otherwise its "access_token" |
| AuthProviders.ProtectTokenCache | src/sumo/wrapper/_auth_provider.py:108-121 | the new file system and the exception equal `ProtectTokenCacheSpec` of the old ones |
| AuthProviders.ProtectTokenCacheModes | src/sumo/wrapper/_auth_provider.py:108-121 | off Linux nothing changes; on Linux a file already "-rw-------" is left alone with its directory; any other file becomes 0o600, and its directory becomes 0o700 unless it already is |
| AuthProviders.DeviceCodeLoginOrder | src/sumo/wrapper/_auth_provider.py:168-188 | an error in the flow raises before any acquisition and touches no file; after the acquisition the persisted cache is saved first, a failed save raises, an error in the result raises after the save, and success runs `protect_token_cache` on the saved file |
| AuthProviders.DeviceCodeLoginPersists | src/sumo/wrapper/_auth_provider.py:168-188 | on Linux a device code login that stores tokens succeeds whether or not the token file existed, leaving it 0o600 holding those tokens |
| AuthProviders.OpenPersistence | src/sumo/wrapper/_auth_provider.py:84-86 | the new state is `OpenPersistenceStep` of the old one: on Linux the token directory is made |
| AuthProviders.Persist | src/sumo/wrapper/_auth_provider.py:84-86 | the new state is `PersistStep` of the old one |
| AuthProviders.PersistStepEffect | src/sumo/wrapper/_auth_provider.py:84-86 | off Linux or with nothing stored nothing changes; otherwise the save completes iff the path is not a directory and a new file's parent can hold it, and then the file holds what was stored, a new one at 0o600 less the umask, every other entry unchanged |
| AuthProviders.PersistedGetTokenSaves | src/sumo/wrapper/_auth_provider.py:27-35 | the persisted `get_token` makes the same calls as the plain one; it writes the file only on Linux after a silent acquisition that stored tokens, and a failed write raises |
| AuthProviders.Login | src/sumo/wrapper/_auth_provider.py:140-188 | the new state, the calls and the exception are those of the provider's login function |
| AuthProviders.GetToken | src/sumo/wrapper/_auth_provider.py:27-51 | the result, the new file system and the calls are those of `GetTokenSpec` |
| AuthProviders.MsalGetToken | src/sumo/wrapper/_auth_provider.py:27-35 | the result, file system and calls of `PersistedGetToken` for a persisted cache, of `SilentGetToken` with no file change for an in-memory one |
| AuthProviders.AccessTokenProviderFor | src/sumo/wrapper/_auth_provider.py:41-45 | succeeds iff the token decodes with an `exp` claim (section 4.1.4 of RFC 7519), which becomes the expiry |
| AuthProviders.LoginStarts | src/sumo/wrapper/_auth_provider.py:140-178 | a login starts with the interactive acquisition or with the device flow |
| AuthProviders.ConstructorLogsInIffNoToken | src/sumo/wrapper/_auth_provider.py:126-137 | the Interactive and DeviceCode constructors log in exactly when `get_token()` is None |
| AuthProviders.TokenPathParents | src/sumo/wrapper/_auth_provider.py:69-72 | the token file lies directly in `~/.sumo`, which lies directly in the home directory |
| AuthProviders.PersistenceMakesTokenDirectory | src/sumo/wrapper/_auth_provider.py:84-85 | on Linux with the home directory in place, building the persistence makes `~/.sumo` a directory and adds no other entry |
| AuthProviders.DeviceCodeFirstConstruction | src/sumo/wrapper/_auth_provider.py:154-188 | on Linux with no account and no token file, the device code constructor builds the provider and leaves a new token file at 0o600 holding the acquired tokens |
| AuthProviders.FirstDeviceCodeLogin | src/sumo/wrapper/_auth_provider.py:154-238 | the same first login reached through `get_auth_provider` with no managed identity and no tokens |
| AuthProviders.Construct | src/sumo/wrapper/_auth_provider.py:125-166 | the provider, the new file system and the calls are those of `WithLogin` |
| AuthProviders.GetAuthProvider | src/sumo/wrapper/_auth_provider.py:206-238 | the provider, the new file system and the calls are those of `GetAuthProviderSpec` |
| NewAuthSession.BindKeywords | src/sumo/wrapper/_new_auth.py:11-17 | binding succeeds iff every keyword is a parameter and the three required ones are given; a failure is a `TypeError` |
| NewAuthSession.SumoClientKeywordsRefused | src/sumo/wrapper/sumo_client.py:63-70 | the keywords `SumoClient` passes raise `TypeError("refresh_token")` |
| NewAuthSession.GetTokenFlowFallback | src/sumo/wrapper/_new_auth.py:38-62 | silent acquisition is tried iff there are accounts, with the first account; the fallback runs iff it gave nothing, interactive or device flow as `interactive` says |
| NewAuthSession.DeviceFlowChecks | src/sumo/wrapper/_new_auth.py:54-61 | a flow without "user_code" raises before any acquisition, and the instructions are printed only for a good flow |
| NewAuthSession.InteractiveErrorRaises | src/sumo/wrapper/_new_auth.py:49-52 | an interactive result with "error" raises `UnboundLocalError` for `flow` |
| NewAuthSession.SaveCacheEffect | src/sumo/wrapper/_new_auth.py:77-90 | an unchanged cache touches nothing; a completed save restores the umask and leaves the file 0o600 and the directory 0o700 off Windows |
| NewAuthSession.NewAuth.constructor | src/sumo/wrapper/_new_auth.py:11-36 | the scope is the resource id followed by "/.default"; the authority is the host URI, "/" and the tenant; the cache is loaded; the save hook is registered once |
| NewAuthSession.NewAuth.GetToken | src/sumo/wrapper/_new_auth.py:38-64 | the result and the calls are those of `GetTokenFlow`; the cache is what those calls store on top of the loaded one; the file system is unchanged |
| NewAuthSession.NewAuth.Login | src/sumo/wrapper/_new_auth.py:45-62 | the result and the calls are those of `LoginFlow`, and the cache is what they store |
| NewAuthSession.NewAuth.Request | src/sumo/wrapper/_new_auth.py:39-62 | one request is appended to the trace and its stored tokens reach the cache |
| NewAuthSession.GetTokenCache | src/sumo/wrapper/_new_auth.py:38-64 | when `get_token` logs in and the login stores tokens, the cache holds exactly those, marked changed; when no acquisition stores anything, the cache is as loaded |
| NewAuthSession.LoginThenSave | src/sumo/wrapper/_new_auth.py:38-91 | a login that stores tokens is what `__save_cache` writes: a save that completes leaves the file holding them, at 0o600 in a directory at 0o700 off Windows, and it completes whenever the directory exists |
| NewAuthSession.NewAuth.SaveCache | src/sumo/wrapper/_new_auth.py:77-90 | the new file system is `SaveCacheStep` of the old one |
| LegacyAuth.ExpiryWindow | src/sumo/wrapper/_auth.py:100-107 | a token got at `obtained` with `expires_in` is unexpired iff now <= obtained + expires_in - 60 |
| LegacyAuth.TokenSecurity | src/sumo/wrapper/_auth.py:162-168 | always safe on Windows; elsewhere safe iff the mode has no group or other bits, and a missing file raises |
| LegacyAuth.SavedCacheIsSafe | src/sumo/wrapper/_auth.py:162-203 | a file written by `_write_cache` passes `_check_token_security` |
| LegacyAuth.SilentChecksSecurityFirst | src/sumo/wrapper/_auth.py:116-117 | an unsafe token file raises `SystemError` before the provider is asked anything |
| LegacyAuth.SilentResult | src/sumo/wrapper/_auth.py:119-140 | True and a new expiry iff the result has "access_token", else False; the cache then holds what the silent acquisition stored, and it is written only on success with `writeback` |
| LegacyAuth.DeviceCodeAlwaysSaves | src/sumo/wrapper/_auth.py:170-186 | a flow without "user_code" raises `ValueError` before acquiring; otherwise the cache, holding what the acquisition stored, is written even when "expires_in" is missing |
| LegacyAuth.DeviceCodeSavesAcquired | src/sumo/wrapper/_auth.py:162-203 | after a completed device code login the file holds exactly the acquired tokens, passes the next security check, and off Windows is 0o600 in a directory at 0o700 |
| LegacyAuth.AuthenticateDecisionTree | src/sumo/wrapper/_auth.py:57-82 | no cache file gives device code; a cache without accounts gives device code with `writeback`, else `RuntimeError`; with accounts, silent, then device code only if that fails and `writeback` is set |
| LegacyAuth.GetTokenRefreshesOnlyWhenExpired | src/sumo/wrapper/_auth.py:84-98 | before the expiring date nobody is asked and the stored token is returned |
| LegacyAuth.FreshTokenReused | src/sumo/wrapper/_auth.py:84-98 | a token got silently is handed out again, with no call, until its window closes |
| LegacyAuth.Auth.constructor | src/sumo/wrapper/_auth.py:20-56 | the scope is resource + "/.default"; the cache is loaded from `~/.sumo/{resource}.token`; the accounts are fetched; the expiry is unset |
| LegacyAuth.Auth.IsTokenExpired | src/sumo/wrapper/_auth.py:100-107 | `AttributeError` while the expiry is unset; otherwise strictly now > expiring date |
| LegacyAuth.Auth.SetExpiringDate | src/sumo/wrapper/_auth.py:142-153 | the expiring date becomes now + time_left - 60 and nothing else changes |
| LegacyAuth.Auth.CheckTokenSecurity | src/sumo/wrapper/_auth.py:162-168 | the result is `TokenSecurity` of the host |
| LegacyAuth.Auth.GetTokenSilent | src/sumo/wrapper/_auth.py:109-140 | the result, fields, file system and calls are those of `Silent` |
| LegacyAuth.Auth.DeviceCodeLogin | src/sumo/wrapper/_auth.py:170-186 | the result, fields, file system and calls are those of `DeviceCode` |
| LegacyAuth.Auth.Authenticate | src/sumo/wrapper/_auth.py:57-82 | the result, fields, file system and calls are those of `AuthenticateFlow` |
| LegacyAuth.Auth.GetToken | src/sumo/wrapper/_auth.py:84-98 | the result, fields, file system and calls are those of `GetTokenFlow` |
| LegacyAuth.Create | src/sumo/wrapper/_auth.py:20-82 | construction followed by the decision tree, from the initial settings and fields |
| Client.BaseUrl | src/sumo/wrapper/sumo_client.py:72-75 | "http://localhost:8084/api/v1" for localhost, else "https://main-sumo-{env}.radix.equinor.com/api/v1" |
| Client.BaseUrlScheme | src/sumo/wrapper/sumo_client.py:72-75 | the fifth character tells the local url (http) from the others (https) |
| Client.BaseUrlInjective | src/sumo/wrapper/sumo_client.py:72-75 | distinct environments have distinct base urls |
| Client.ClassifyToken | src/sumo/wrapper/sumo_client.py:48-61 | a non-empty decoded payload with `exp` makes an access token expiring then; one without `exp` raises `KeyError`; anything else is a refresh token |
| Client.InitErrorCases | src/sumo/wrapper/sumo_client.py:40-70 | an unknown environment raises `ValueError` first; no token gives the `NewAuth` `TypeError`; a given token raises only what its classification raises |
| Client.PrefixedKeys | src/sumo/wrapper/sumo_client.py:158-161 | the keys are exactly "$" followed by an input key |
| Client.PrefixingStep | src/sumo/wrapper/sumo_client.py:158-161 | one more loop step adds one "$"-prefixed entry with the value unchanged |
| Client.PrefixingSize | src/sumo/wrapper/sumo_client.py:158-161 | the prefixed dict has one entry per key done |
| Client.PrefixedParamsShape | src/sumo/wrapper/sumo_client.py:148-163 | None iff the input is empty; otherwise the same number of entries, each key k as "$k" with its value |
| Client.ProcessParams | src/sumo/wrapper/sumo_client.py:148-163 | the loop builds `PrefixedParams` of the input |
| Client.PlanGet | src/sumo/wrapper/sumo_client.py:193-209 | GET of base + path with the prefixed params, a json Content-Type and the Bearer credential |
| Client.GetShape | src/sumo/wrapper/sumo_client.py:211-214 | raw bytes iff "/blob" occurs in the path, decoded JSON otherwise |
| Client.PlanPost | src/sumo/wrapper/sumo_client.py:263-284 | `ValueError` iff both blob and json are truthy; otherwise POST with octet-stream iff the blob is truthy, and the Bearer credential |
| Client.PlanPut | src/sumo/wrapper/sumo_client.py:311-333 | `ValueError` iff both are truthy; otherwise PUT with a json Content-Type iff json is not None |
| Client.PlanDelete | src/sumo/wrapper/sumo_client.py:361-377 | DELETE of base + path with the credential under "Authorization" and none under "authorization" |
| Client.PayloadRules | src/sumo/wrapper/sumo_client.py:263-320 | the refusal does not depend on the token, and a blob with an empty dict is not refused |
| Client.SumoClient.constructor | src/sumo/wrapper/sumo_client.py:48-75 | the base url, and the access token with its expiry or the refresh token, from the classification |
| Client.SumoClient.RetrieveToken | src/sumo/wrapper/sumo_client.py:128-146 | with an access token: `ValueError` iff its expiry <= now, else that token; without one, `AttributeError` for `auth` |
| Client.SumoClient.Get | src/sumo/wrapper/sumo_client.py:165-214 | the token error, or the `PlanGet` request sent and the result `Finish` gives for the path's shape |
| Client.SumoClient.Post | src/sumo/wrapper/sumo_client.py:216-292 | the token is retrieved before the payloads are checked; then `PlanPost`'s error, or its request and `Finish` with the proxy caught |
| Client.SumoClient.Put | src/sumo/wrapper/sumo_client.py:294-341 | the same for `PlanPut` |
| Client.SumoClient.Delete | src/sumo/wrapper/sumo_client.py:343-377 | the token error, or the `PlanDelete` request and the decoded body; a proxy failure propagates |
| Client.Create | src/sumo/wrapper/sumo_client.py:21-75 | raises exactly `InitError`; a client is built only from a truthy token that classifies |
| Client.RefreshTokenClientCannotRequest | src/sumo/wrapper/sumo_client.py:56-61 | a client built from a refresh token raises `AttributeError` on every request |
| LegacyClient.PlanUpload | src/sumo/wrapper/_sumo_client.py:69-129 | `ValueError` iff blob and json are both truthy, else `Content-Length`'s error or the request with Content-Type json iff json is not None |
| LegacyClient.UploadLengthQuirks | src/sumo/wrapper/_sumo_client.py:79-82 | an empty dict without a blob raises `TypeError`; with json truthy the length is the number of entries |
| LegacyClient.LegacySumoClient.constructor | src/sumo/wrapper/_sumo_client.py:8-29 | the `NewAuth` of the environment's registration and the tenant, with its cache loaded and its hook registered; the base url |
| LegacyClient.LegacySumoClient.RetrieveToken | src/sumo/wrapper/_sumo_client.py:31-35 | a truthy supplied token unchanged with no expiry check, else `NewAuth.get_token` |
| LegacyClient.LegacySumoClient.Get | src/sumo/wrapper/_sumo_client.py:46-67 | the token's error, or the GET with "$"-prefixed params and raw content iff "/blob" is in the path |
| LegacyClient.LegacySumoClient.Upload | src/sumo/wrapper/_sumo_client.py:69-129 | the token first, then `PlanUpload`'s error, or its request and `Finish` with the proxy caught |
| LegacyClient.LegacySumoClient.Delete | src/sumo/wrapper/_sumo_client.py:131-145 | the token's error, or the DELETE and the decoded body |
| LegacyClient.Create | src/sumo/wrapper/_sumo_client.py:8-29 | `ValueError` iff the environment is unknown; otherwise a client with the given token and base url |
| AzureApi.ProcessTokenCases | src/sumo/wrapper/_call_azure_api.py:122-134 | a truthy bearer argument gives "Bearer " + it with no expiry check; otherwise the stored bearer, regenerated iff expired |
| AzureApi.ProcessTokenKeepsBearerForm | src/sumo/wrapper/_call_azure_api.py:94-106 | the stored bearer always keeps the form "Bearer " + token |
| AzureApi.PlanPost | src/sumo/wrapper/_call_azure_api.py:236-249 | `ValueError` for two truthy payloads; otherwise `Content-Length`'s error or a POST with Content-Type, Authorization and Content-Length |
| AzureApi.PutHeaders | src/sumo/wrapper/_call_azure_api.py:284-293 | Content-Type, Content-Length and `x-ms-blob-type: BlockBlob`, plus Authorization iff the url is not signed |
| AzureApi.PlanPut | src/sumo/wrapper/_call_azure_api.py:277-293 | as post, with Authorization left out iff the url contains "sig=" |
| AzureApi.OperationContracts | src/sumo/wrapper/_call_azure_api.py:136-329 | gets and deletes always plan; every request but a signed put carries Authorization; `get_image` returns None, `get_content` bytes, `get_json` decoded JSON |
| AzureApi.CredentialFirst | src/sumo/wrapper/_call_azure_api.py:220-303 | a credential error comes first; a request is sent iff the credential and the plan succeed |
| AzureApi.SendOutcomeCarries | src/sumo/wrapper/_call_azure_api.py:136-329 | a call that sends nothing raises; a sent request carries the operation's url and payload |
| AzureApi.CallAzureApi.constructor | src/sumo/wrapper/_call_azure_api.py:36-62 | the fields as given |
| AzureApi.CallAzureApi.ProcessToken | src/sumo/wrapper/_call_azure_api.py:108-134 | the result, the stored bearer, the fields and the calls are those of `ProcessTokenFlow` |
| AzureApi.CallAzureApi.Send | src/sumo/wrapper/_call_azure_api.py:136-329 | the credential as `ProcessToken`, then the result and the request of `SendOutcome` |
| AzureApi.Create | src/sumo/wrapper/_call_azure_api.py:36-62 | with `outside_token` no `Auth` and no bearer; otherwise an `Auth` built without writeback, authenticated, and the bearer from its first token |
| SumoApi.AddFieldJoins | src/sumo/wrapper/_call_sumo_api.py:109-120 | appending "&name=value" joins one more field |
| SumoApi.SearchUrl | src/sumo/wrapper/_call_sumo_api.py:109-120 | "{base}/search?" then $query, $from, $size, $search_after (each when not None), $select, $buckets (each when truthy), joined by '&' in that order |
| SumoApi.SearchRootUrl | src/sumo/wrapper/_call_sumo_api.py:136-149 | "{base}/searchroot?" then $query, $select and $buckets when truthy, and $from and $size always, defaulting to 0 and 100; never $search_after |
| SumoApi.PlainFields | src/sumo/wrapper/_call_sumo_api.py:109-149 | fields built from parameters without '&' contain no '&' |
| SumoApi.QueryRoundTrip | src/sumo/wrapper/_call_sumo_api.py:109-149 | a joined query splits back into its fields |
| SumoApi.SearchUrlRoundTrip | src/sumo/wrapper/_call_sumo_api.py:109-120 | splitting a `search` query on '&' gives back its fields |
| SumoApi.SearchRootUrlRoundTrip | src/sumo/wrapper/_call_sumo_api.py:136-149 | the same for `searchroot` |
| SumoApi.ObjectUrlRoundTrip | src/sumo/wrapper/_call_sumo_api.py:167-321 | "objects('{id}')" with no suffix, "/blob" or "/blob/authuri" gives back the id and the target |
| SumoApi.ObjectsUrl | src/sumo/wrapper/_call_sumo_api.py:384-391 | "{base}/objects", then "('{id}')" for a truthy id, then "/blob" for a truthy blob |
| SumoApi.ObjectsUrlChoice | src/sumo/wrapper/_call_sumo_api.py:384-418 | a truthy url passes both builders unchanged; post rebuilds an empty url, put keeps it |
| SumoApi.AggregateJson | src/sumo/wrapper/_call_sumo_api.py:361-365 | exactly the keys operation, object_ids and nan_as_zero, with the given values |
| SumoApi.OperationTargets | src/sumo/wrapper/_call_sumo_api.py:153-366 | raises iff an update has neither object id nor url, and then `ValueError`; each call's url and verb |
| SumoApi.SaveOperations | src/sumo/wrapper/_call_sumo_api.py:323-341 | the two operations of `save_blob_and_json` |
| SumoApi.Ids | src/sumo/wrapper/_call_sumo_api.py:32-39 | each truthy id as given, else the registry's; `KeyError(env)` iff a default is needed for an unknown environment |
| SumoApi.IdsDefaults | src/sumo/wrapper/_call_sumo_api.py:32-39 | an unknown environment is accepted when both ids are given; a known one fills missing ids |
| SumoApi.CallSumoApi.constructor | src/sumo/wrapper/_call_sumo_api.py:14-43 | the base url and the `CallAzureApi` as given |
| SumoApi.CallSumoApi.Call | src/sumo/wrapper/_call_sumo_api.py:55-366 | a validation error sends nothing; otherwise the result and the request of the `CallAzureApi` operation |
| SumoApi.BlobUrlOf | src/sumo/wrapper/_call_sumo_api.py:339 | raises iff the body did not decode or is not a JSON object (then `AttributeError`); None iff `blob_url` is absent or null; any other value is returned unchanged, whatever its JSON type |
| SumoApi.PutBlobOutcome | src/sumo/wrapper/_call_azure_api.py:277-292 | `save_blob(url=u)`: a string or absent url is sent as `put` sends it; any other JSON value raises with nothing sent: the credential's exception, else `TypeError` for a missing blob, else `AttributeError` from `url.find` |
| SumoApi.SaveBlobAndJsonSteps | src/sumo/wrapper/_call_sumo_api.py:323-341 | the metadata is posted under the parent iff the first credential passes and the metadata is a non-empty dict (else `TypeError`); the blob is put only after that response came back and its `blob_url` was a string or absent, and to that url; a body without a usable `get` raises before any PUT, and so does a `blob_url` that is neither a string nor null; a PUT that raises decides the result, otherwise it is the first response |
| SumoApi.CallSumoApi.SaveBlobAndJson | src/sumo/wrapper/_call_sumo_api.py:323-341 | the result, both requests, the bearer, the `Auth` fields, the file system and the calls are those of `SaveBlobAndJsonFlow`: two credential steps, each from the state the previous one left, and a `blob_url` of another JSON type failing at `url.find` after the second one with nothing put |
| SumoApi.Create | src/sumo/wrapper/_call_sumo_api.py:14-43 | `KeyError` from the ids before anything else; with `outside_token` a `CallAzureApi` with no `Auth` and nothing touched; otherwise the `Auth` built for the resulting resource id authenticates and generates the bearer, and the result, file system and calls are those of the decision tree then `get_token`, a raise of either ending construction |
| AggregationClient.AggBaseUrl | src/sumo/wrapper/_sumo_aggregation_client.py:41-50 | the preview service for localhost, else "https://main-sumo-surface-aggregation-service-{env}.radix.equinor.com" |
| AggregationClient.AggBaseUrlShared | src/sumo/wrapper/_sumo_aggregation_client.py:41-50 | two environments share a service iff equal or localhost and preview |
| AggregationClient.InitError | src/sumo/wrapper/_sumo_aggregation_client.py:30-39 | `ValueError` outside the aggregation registry, else `TypeError` for `verbosity` |
| AggregationClient.PlanGetAggregate | src/sumo/wrapper/_sumo_aggregation_client.py:62-73 | POST to "{base}/fastaggregation" with a json Content-Type, the Bearer credential and `Content-Length` the number of json entries; `TypeError` iff json is None |
| AggregationClient.GetAggregateOutcome | src/sumo/wrapper/_sumo_aggregation_client.py:74-80 | the response itself unless its status is an error, which is classified; a proxy failure is a transient 503 |
| Decorators.RaiseForStatus | src/sumo/wrapper/_decorators.py:5-14 | an exception propagates; a 2xx response is returned unchanged; any other raises `HTTPStatusError` |
| Decorators.HttpUnpack | src/sumo/wrapper/_decorators.py:29-40 | `KeyError` iff there is no Content-Type; bytes iff it starts with "application/octet-stream", JSON iff with "application/json", text otherwise |
| Decorators.UnpackPrefixesDisjoint | src/sumo/wrapper/_decorators.py:33-36 | no content type starts with both media types |
| Decorators.RetrySetDiffersFromTransient | src/sumo/wrapper/_decorators.py:49-50 | 502 is retried but permanent; 404 and 500 are transient but not retried; exactly 503 and 504 are both |
| Decorators.RetriedStopsAtFirstFinalOutcome | src/sumo/wrapper/_decorators.py:53-62 | between one and six calls; every call before the last was to be retried; the last outcome is the result unless it too is to be retried, which raises `RetryError` after six |
| Decorators.RetriedOutcomes | src/sumo/wrapper/_decorators.py:53-62 | a returned response never has a retryable status; a first non-retryable exception is raised after one call; `RetryError` when all six calls are to be retried |
| Decorators.HttpRetry | src/sumo/wrapper/_decorators.py:53-62 | the loop's result and the number of calls are those of `Retried` |
| Decorators.HttpRetryAsWritten | src/sumo/wrapper/_decorators.py:53-62 | as written, a result is always a returned response |
| Decorators.HttpRetryAsWrittenCounterexamples | src/sumo/wrapper/_decorators.py:53-62 | a 503 is returned after one call as written, but six calls and `RetryError` as intended; a repeated `ValueError` is still retried after six calls as written, but raised at once as intended |

## Left out

- Network I/O is left out. The `*_async` variants of every method are left out; they repeat the planning of the synchronous ones.
- msal and azure.identity are an oracle of answers. What an acquisition stores is given by the oracle as the serialized cache it leaves (`silentStores`, `interactiveStores`, `byDeviceFlowStores`); the token format inside it is left out, and so are device-flow polling (section 3 of RFC 8628) and the refresh-token exchange (section 6 of RFC 6749).
- AuthProviders.OpenPersistenceStep, AuthProviders.PersistStep: msal_extensions is not part of this model. On Linux `FilePersistence` is taken to create the token directory when built and to write the whole serialized cache after each acquisition that stores tokens, creating the file with mode 0o600 less the umask. Its lock file, the reload of the cache before each read and the encrypted persistence and migration used off Linux (src/sumo/wrapper/_auth_provider.py:87-104) are left out; off Linux the model touches no file.
- The construction of the managed and refresh-token providers is left out; it is configuration of azure.identity and msal. Their `get_token` is modelled through the oracle.
- `jwt.decode` is a partial function returning claims with integer values. Signatures are not checked, as in the source.
- Time is an integer number of seconds. `time.time()`'s fraction is gone, so `int(time.time())` and `datetime.now()` are the same `now`.
- `wait_exponential_jitter` and every wait between retries are left out; they are random and use floating point.
- Windows ACLs are left out. On Windows only the branch structure is kept: no chmod, always "secure".
- JSON decoding of response bodies is abstract: a decoded body is the raw content, tagged.
- `logging` is left out. This includes `logger.setLevel(verbosity)`, which can raise for an invalid level name.
- `__str__`/`__repr__` of the client objects are left out, as is `getLogger`.
- `CallAzureApi.get_bearer_token`/`CallSumoApi.get_bearer_token` are left out. They read the stored bearer, which the model keeps as a field.
- `SumoClient.authenticate` is `_retrieve_token`, which is modelled. `SumoClient.blob_client` is left out.
- src/sumo/wrapper/_blob_client.py, src/sumo/wrapper/_logging.py and src/sumo/wrapper/login.py are not part of this model.
- Decorators.RaiseForStatus: httpx's `raise_for_status` is modelled as raising for every status outside 2xx. The redirect statuses, which httpx also refuses, are in that set.
- SumoApi.SearchUrl: the search parameters are given as the text Python's f-string renders. Rendering an int or a list is not modelled.
- AggregationClient.GetAggregateOutcome: no aggregation client can be built, so `get_aggregate` is modelled as a function of the token `auth.get_token()` would give.
- Client.SumoClient.constructor: `interactive` only reaches `NewAuth`, whose call always raises, so it has no effect in the model.
- The legacy `_sumo_client.py:_process_params` is the same loop as `sumo_client.py`'s and is modelled by Client.ProcessParams.
- The legacy and azure clients use the shared `Http.Finish` step. Their classifier copies equal the shared one (the two `ClassificationAgrees` lemmas).

## Findings

| source | as written | input that shows it | evidently intended | confidence | as-written member | corrected member |
|---|---|---|---|---|---|---|
| src/sumo/wrapper/_decorators.py:53-62 | `tn.retry(func, stop=..., retry=..., wait=...)` passes `func` as the only positional argument, so tenacity returns `retry()(func)` and drops the keyword arguments: any exception is retried without a stop, and no response is ever retried | a first response with status 503; a call that keeps raising `ValueError` | at most six calls, retrying only timeouts, connection errors and statuses 502, 503 and 504, then `RetryError` | not executed; follows tenacity's dispatch on `retry(*dargs, **dkw)` | Decorators.HttpRetryAsWrittenCounterexamples | Decorators.HttpRetry |

=== FILE: aggregation_client.dfy ===
/**
 * `SumoAggregationClient` (src/sumo/wrapper/_sumo_aggregation_client.py):
 * the client of the surface aggregation service. It checks the
 * environment against the aggregation registry, builds a `NewAuth` with
 * the keywords it is given, and posts an aggregation request to
 * "{base}/fastaggregation".
 */
module AggregationClient {
  import opened Wrappers
  import opened Text
  import opened Exceptions
  import opened Http
  import NewAuthSession
  import Client
  import Config

  const AggPrefix := "https://main-sumo-surface-aggregation-service-"
  const AggSuffix := ".radix.equinor.com"

  /** The base url of an environment's aggregation service; "localhost"
      has no service of its own and uses preview's. */
  function AggBaseUrl(env: string): (u: string)
    ensures env == "localhost" ==> u == AggPrefix + "preview" + AggSuffix
    ensures env != "localhost" ==> u == AggPrefix + env + AggSuffix
  {
    if env == "localhost" then AggPrefix + "preview" + AggSuffix
    else AggPrefix + env + AggSuffix
  }

  /** Two environments share a service exactly when they are equal or are
      "localhost" and "preview". */
  lemma {:induction false} AggBaseUrlShared(env1: string, env2: string)
    ensures AggBaseUrl(env1) == AggBaseUrl(env2) <==>
              env1 == env2 || {env1, env2} == {"localhost", "preview"}
  {
    var n1 := if env1 == "localhost" then "preview" else env1;
    var n2 := if env2 == "localhost" then "preview" else env2;
    if AggBaseUrl(env1) == AggBaseUrl(env2) {
      assert |n1| == |n2|;
      assert n1 == AggBaseUrl(env1)[|AggPrefix|..|AggPrefix| + |n1|];
      assert n2 == AggBaseUrl(env2)[|AggPrefix|..|AggPrefix| + |n2|];
      if env1 != env2 {
        assert {env1, env2} == {"localhost", "preview"};
      }
    }
  }

  /** The keywords `__init__` passes to `NewAuth`. */
  const NewAuthKeywords: seq<string> := ["client_id", "resource_id", "tenant_id", "interactive", "verbosity"]

  /** `SumoAggregationClient(env, interactive, verbosity)`: `ValueError` for
      an environment outside the aggregation registry; otherwise the
      `TypeError` of `NewAuth`, which takes no `verbosity` keyword. No
      environment yields a client. */
  function InitError(env: string): (e: PyError)
    ensures !Config.IsAggEnvironment(env) ==> e == ValueError("Invalid environment: " + env)
    ensures Config.IsAggEnvironment(env) ==> e == TypeError("verbosity")
  {
    if !Config.IsAggEnvironment(env) then ValueError("Invalid environment: " + env)
    else
      var k := NewAuthKeywords;
      assert k[4] !in NewAuthSession.Parameters;
      assert NewAuthSession.FirstUnexpected(k, 4) == Some(TypeError("verbosity"));
      NewAuthSession.BindKeywords(k).value
  }

  /** The request `get_aggregate` posts with `token`: json headers, the
      Bearer credential, and `Content-Length` the number of entries of the
      json dict, even when it is empty. */
  function PlanGetAggregate(baseUrl: string, json: Option<JsonObject>, token: string): (r: Result<Request>)
    ensures r.Raise? <==> json.None?
    ensures r.Raise? ==> r.error.TypeError?
    ensures r.Ok? ==> r.value.verb == POST && r.value.url == baseUrl + "/fastaggregation"
                      && r.value.json == json && r.value.blob.None? && r.value.params.None?
    ensures r.Ok? ==> Names(r.value.headers) == ["Content-Type", "authorization", "Content-Length"]
                      && HeaderValue(r.value.headers, "Content-Type") == Some(Client.JsonType)
                      && HeaderValue(r.value.headers, "authorization") == Some(Bearer(token))
                      && LeadingInt(HeaderValue(r.value.headers, "Content-Length").value) == |json.value|
  {
    if json.None? then Raise(TypeError("object of type 'NoneType' has no len()"))
    else
      var length := NatToString(|json.value|);
      assert LeadingInt(length) == |json.value| by {
        IntToStringLeadingInt(|json.value|, []);
        assert IntToString(|json.value|) + [] == length;
      }
      var headers := [("Content-Type", Client.JsonType), ("authorization", Bearer(token)), ("Content-Length", length)];
      DistinctHeaders3(headers);
      Ok(Request(POST, baseUrl + "/fastaggregation", None, headers, None, json))
  }

  /** `get_aggregate` once `auth.get_token()` has given `token`: the
      request it sends, and the response, a proxy failure classified as
      503 or an error status classified by `raise_request_error_exception`. */
  function GetAggregate(baseUrl: string, token: Result<string>, json: Option<JsonObject>, x: Exchange)
    : (Result<Reply>, Option<Request>)
  {
    match token
    case Raise(e) => (Raise(e), None)
    case Ok(t) =>
      match PlanGetAggregate(baseUrl, json, t)
      case Raise(e) => (Raise(e), None)
      case Ok(q) => (Finish(x, true, AsResponse), Some(q))
  }

  /** A sent aggregation request returns the response itself unless the
      status is an error or the proxy failed, which raise a classified
      error; a proxy failure is transient. */
  lemma {:induction false} GetAggregateOutcome(baseUrl: string, t: string, json: JsonObject, x: Exchange)
    ensures var (r, sent) := GetAggregate(baseUrl, Ok(t), Some(json), x);
            sent.Some? && sent.value.url == baseUrl + "/fastaggregation"
            && (x.Delivered? && !IsError(x.response.status) ==> r == Ok(WholeResponse(x.response)))
            && (x.Delivered? && IsError(x.response.status) ==>
                  r == Raise(ApiError(RequestErrors.RaiseRequestErrorException(x.response.status, x.response.text))))
            && (x.Failed? && x.failure.ProxyError? ==>
                  r.Raise? && r.error.ApiError? && r.error.err.kind == RequestErrors.Transient && r.error.err.code == 503)
  {
  }
}

=== FILE: auth.dfy ===
/**
 * The older `Auth` class (src/sumo/wrapper/_auth.py): an msal public
 * client whose constructor authenticates at once, silently from the cache
 * file or by device code, and which keeps the last token response and the
 * moment, 60 seconds before the token's end, from which it counts as
 * expired. Each method of the class is specified by a function from the
 * fields it reads to the fields it writes, the file system and the requests
 * it makes.
 */
module LegacyAuth {
  import opened Wrappers
  import opened Exceptions
  import opened Paths
  import opened FileSystem
  import opened Identity
  import opened World
  import opened TokenCacheStore

  /** An attribute that may not have been assigned yet: reading an unset
      one raises `AttributeError`. */
  datatype Slot<T> = Unset | Set(value: T)

  /** The fields the methods update, and the token cache msal fills. */
  datatype AuthFields = AuthFields(
    accounts: seq<Account>,
    result: Slot<Option<TokenResponse>>,
    expiringDate: Slot<int>,
    cache: CacheState)

  /** What the methods read but never change: the scope, the token path,
      `writeback` and the platform. */
  datatype Settings = Settings(scope: string, tokenPath: string, writeback: bool, platform: string)

  /** A method's result, the fields after it, the file system after it,
      and the requests it made. */
  datatype Outcome<T> = Outcome(result: Result<T>, fields: AuthFields, fs: FsState, calls: seq<Call>)

  /** Seconds before the token's end from which it counts as expired. */
  const Threshold := 60

  /** `_set_expiring_date(time_left)` at time `now`. */
  function ExpiringDate(now: int, timeLeft: int): int {
    now + (timeLeft - Threshold)
  }

  /** `is_token_expired`: strictly after the expiring date. */
  predicate Expired(now: int, expiringDate: int) {
    now > expiringDate
  }

  /** A token obtained at `obtained` with `expires_in` seconds of life
      counts as fresh up to and including 60 seconds before its end, and as
      expired from then on. */
  lemma {:induction false} ExpiryWindow(obtained: int, expiresIn: int, now: int)
    ensures !Expired(now, ExpiringDate(obtained, expiresIn)) <==> now <= obtained + expiresIn - Threshold
  {
  }

  /** `_check_token_security`: always safe on Windows; elsewhere `os.stat`
      of the token file, which must have no group or other bits. */
  function TokenSecurity(fs: FsState, platform: string, path: string): (r: Result<bool>)
    ensures IsWindows(platform) ==> r == Ok(true)
    ensures !IsWindows(platform) && path in fs.entries ==>
              (r == Ok(true) <==> fs.entries[path].mode & GroupOtherAll == 0)
  {
    if IsWindows(platform) then Ok(true)
    else if path !in fs.entries then Raise(FileNotFoundError(path))
    else Ok(fs.entries[path].mode & GroupOtherAll == 0)
  }

  /** A cache file the client itself saved passes the security check. */
  lemma {:induction false} SavedCacheIsSafe(fs: FsState, path: string, contents: string, platform: string)
    requires WriteCacheFile(fs, path, contents, platform).error.None?
    ensures TokenSecurity(WriteCacheFile(fs, path, contents, platform).fs, platform, path) == Ok(true)
  {
    WriteCacheFileModes(fs, path, contents, platform);
  }

  /** `_write_cache`: the cache as it is now. */
  function WriteStep(s: Settings, f: AuthFields, fs: FsState): Step {
    WriteCacheFile(fs, s.tokenPath, f.cache.state, s.platform)
  }

  function ResultOf(w: Step): Result<()> {
    if w.error.Some? then Raise(w.error.value) else Ok(())
  }

  /** `_oauth_get_token_silent`. */
  function Silent(s: Settings, f: AuthFields, idp: IdentityProvider, fs: FsState, now: int): Outcome<bool> {
    var refetch := |f.accounts| == 0;
    var f1 := if refetch then f.(accounts := idp.accounts) else f;
    var calls1 := if refetch then [GetAccounts] else [];
    match TokenSecurity(fs, s.platform, s.tokenPath)
    case Raise(e) => Outcome(Raise(e), f1, fs, calls1)
    case Ok(safe) =>
      if !safe then Outcome(Raise(SystemError("The token is not stored safely.")), f1, fs, calls1)
      else if |f1.accounts| == 0 then Outcome(Raise(IndexError("list index out of range")), f1, fs, calls1)
      else
        var calls2 := calls1 + [AcquireSilent([s.scope], f1.accounts[0])];
        var f2 := f1.(result := Set(idp.silent), cache := AfterStore(f1.cache, idp.silentStores));
        match idp.silent
        case None => Outcome(Raise(TypeError("argument of type 'NoneType' is not iterable")), f2, fs, calls2)
        case Some(resp) =>
          if resp.accessToken.None? then Outcome(Ok(false), f2, fs, calls2)
          else
            match resp.expiresIn
            case None => Outcome(Raise(KeyError("expires_in")), f2, fs, calls2)
            case Some(t) =>
              var f3 := f2.(expiringDate := Set(ExpiringDate(now, t)));
              if !s.writeback then Outcome(Ok(true), f3, fs, calls2)
              else
                var w := WriteStep(s, f3, fs);
                Outcome(if w.error.Some? then Raise(w.error.value) else Ok(true), f3, w.fs, calls2)
  }

  /** An unsafe or missing token file stops the silent acquisition before
      the provider is asked for a token, and changes no file. */
  lemma {:induction false} SilentChecksSecurityFirst(s: Settings, f: AuthFields, idp: IdentityProvider, fs: FsState, now: int)
    requires TokenSecurity(fs, s.platform, s.tokenPath) != Ok(true)
    ensures var o := Silent(s, f, idp, fs, now);
            o.result.Raise? && o.fs == fs && (forall c :: c in o.calls ==> !IsAcquisition(c))
            && (TokenSecurity(fs, s.platform, s.tokenPath) == Ok(false) ==>
                  o.result == Raise(SystemError("The token is not stored safely.")))
  {
  }

  /** With a safe token file and an account, the silent acquisition returns
      True exactly when the response has an access token and an expiry
      (and, with `writeback`, the cache was saved), and then sets the
      expiring date from it; it returns False exactly when the response
      has no access token. The cache takes what the acquisition stored,
      and only a successful acquisition with `writeback` touches the file
      system, writing that cache. */
  lemma {:induction false} SilentResult(s: Settings, f: AuthFields, idp: IdentityProvider, fs: FsState, now: int)
    requires TokenSecurity(fs, s.platform, s.tokenPath) == Ok(true)
    requires |f.accounts| > 0 || |idp.accounts| > 0
    ensures var o := Silent(s, f, idp, fs, now);
            var token := idp.silent.Some? && idp.silent.value.accessToken.Some?;
            var expiry := token && idp.silent.value.expiresIn.Some?;
            var w := WriteCacheFile(fs, s.tokenPath, AfterStore(f.cache, idp.silentStores).state, s.platform);
            (o.result == Ok(true) <==> expiry && (s.writeback ==> w.error.None?))
            && (o.result == Ok(false) <==> idp.silent.Some? && idp.silent.value.accessToken.None?)
            && (expiry ==> o.fields.expiringDate == Set(ExpiringDate(now, idp.silent.value.expiresIn.value)))
            && (!(expiry && s.writeback) ==> o.fs == fs)
            && (expiry && s.writeback ==> o.fs == w.fs)
            && o.fields.result == Set(idp.silent)
            && o.fields.cache == AfterStore(f.cache, idp.silentStores)
  {
  }

  /** `_oauth_device_code`. */
  function DeviceCode(s: Settings, f: AuthFields, idp: IdentityProvider, fs: FsState, now: int): Outcome<()> {
    var flow := idp.deviceFlow;
    var calls1 := [InitiateDeviceFlow([s.scope])];
    if flow.userCode.None? then Outcome(Raise(ValueError("Fail to create device flow.")), f, fs, calls1)
    else if flow.message.None? then Outcome(Raise(KeyError("message")), f, fs, calls1)
    else
      var calls2 := calls1 + [Printed(flow.message.value), AcquireByDeviceFlow(flow)];
      var resp := idp.byDeviceFlow;
      var f1 := f.(result := Set(Some(resp)), cache := AfterStore(f.cache, idp.byDeviceFlowStores));
      var f2 := if resp.expiresIn.Some? then f1.(expiringDate := Set(ExpiringDate(now, resp.expiresIn.value)))
                else f1;
      var w := WriteStep(s, f2, fs);
      Outcome(ResultOf(w), f2, w.fs, calls2)
  }

  /** A flow without "user_code" raises before any acquisition and changes
      nothing; a flow with a user code and a message always ends in saving
      the cache, holding what the acquisition stored, whether or not the
      response has an expiry, and sets the expiring date only when it has
      one. */
  lemma {:induction false} DeviceCodeAlwaysSaves(s: Settings, f: AuthFields, idp: IdentityProvider, fs: FsState, now: int)
    ensures var o := DeviceCode(s, f, idp, fs, now);
            var w := WriteCacheFile(fs, s.tokenPath, AfterStore(f.cache, idp.byDeviceFlowStores).state, s.platform);
            (idp.deviceFlow.userCode.None? ==>
               o.result.Raise? && o.fields == f && o.fs == fs && o.calls == [InitiateDeviceFlow([s.scope])])
            && (idp.deviceFlow.userCode.Some? && idp.deviceFlow.message.Some? ==>
                  o.fs == w.fs
                  && (o.result.Ok? <==> w.error.None?)
                  && o.fields.cache == AfterStore(f.cache, idp.byDeviceFlowStores)
                  && o.fields.result == Set(Some(idp.byDeviceFlow))
                  && (idp.byDeviceFlow.expiresIn.Some? ==>
                        o.fields.expiringDate == Set(ExpiringDate(now, idp.byDeviceFlow.expiresIn.value)))
                  && (idp.byDeviceFlow.expiresIn.None? ==> o.fields.expiringDate == f.expiringDate))
  {
  }

  /** A device code login whose acquisition stored tokens and that
      completed leaves the file holding exactly those tokens, so a new
      `Auth` loads them, and the file passes the next security check; off
      Windows it is at 0o600 in a directory at 0o700. */
  lemma {:induction false} DeviceCodeSavesAcquired(s: Settings, f: AuthFields, idp: IdentityProvider, fs: FsState, now: int)
    requires idp.deviceFlow.userCode.Some? && idp.deviceFlow.message.Some?
    requires idp.byDeviceFlowStores.Some?
    requires DeviceCode(s, f, idp, fs, now).result.Ok?
    ensures var o := DeviceCode(s, f, idp, fs, now);
            var stored := idp.byDeviceFlowStores.value;
            LoadedState(o.fs, s.tokenPath) == stored
            && TokenSecurity(o.fs, s.platform, s.tokenPath) == Ok(true)
            && (!IsWindows(s.platform) ==>
                  o.fs.entries[s.tokenPath] == File(OwnerReadWrite, stored)
                  && o.fs.entries[DirName(s.tokenPath)] == Dir(OwnerAll))
  {
    DeviceCodeAlwaysSaves(s, f, idp, fs, now);
    var stored := idp.byDeviceFlowStores.value;
    SaveThenLoad(fs, s.tokenPath, stored, s.platform);
    WriteCacheFileModes(fs, s.tokenPath, stored, s.platform);
    SavedCacheIsSafe(fs, s.tokenPath, stored, s.platform);
  }

  function Then<T, U>(first: Outcome<T>, second: Outcome<U>): Outcome<U> {
    Outcome(second.result, second.fields, second.fs, first.calls + second.calls)
  }

  /** Requests recorded in two stages are the first stage's followed by
      the second's. */
  lemma {:induction false} CallsRegrouped(before: seq<Call>, first: seq<Call>, second: seq<Call>)
    ensures before + first + second == before + (first + second)
  {
  }

  /** The first stage's requests are a prefix of both stages', and the
      second stage's first request follows them. */
  lemma {:induction false} CallsSplit(first: seq<Call>, second: seq<Call>)
    requires |second| > 0
    ensures (first + second)[..|first|] == first && (first + second)[|first|] == second[0]
  {
    assert (first + second)[..|first|] == first;
  }

  /** The decision tree at the end of `__init__` (after the accounts are
      fetched). */
  function AuthenticateFlow(s: Settings, f: AuthFields, idp: IdentityProvider, fs: FsState, now: int): Outcome<()> {
    if IsFile(fs, s.tokenPath) then
      if |f.accounts| == 0 then
        if s.writeback then DeviceCode(s, f, idp, fs, now)
        else Outcome(Raise(RuntimeError("The locally stored token has no accounts.")), f, fs, [])
      else
        var o := Silent(s, f, idp, fs, now);
        if o.result == Ok(false) && s.writeback then Then(o, DeviceCode(s, o.fields, idp, o.fs, now))
        else Outcome(if o.result.Raise? then Raise(o.result.error) else Ok(()), o.fields, o.fs, o.calls)
    else DeviceCode(s, f, idp, fs, now)
  }

  /** No cache file: device code. A cache file without accounts: device
      code with `writeback`, `RuntimeError` without it. Accounts: silent
      acquisition first, and device code only when it returned False and
      `writeback` is set. */
  lemma {:induction false} AuthenticateDecisionTree(s: Settings, f: AuthFields, idp: IdentityProvider, fs: FsState, now: int)
    ensures var o := AuthenticateFlow(s, f, idp, fs, now);
            (!IsFile(fs, s.tokenPath) ==> o == DeviceCode(s, f, idp, fs, now))
            && (IsFile(fs, s.tokenPath) && |f.accounts| == 0 && s.writeback ==> o == DeviceCode(s, f, idp, fs, now))
            && (IsFile(fs, s.tokenPath) && |f.accounts| == 0 && !s.writeback ==>
                  o.result.Raise? && o.result.error.RuntimeError? && o.calls == [] && o.fs == fs)
            && (IsFile(fs, s.tokenPath) && |f.accounts| > 0 ==>
                  var silent := Silent(s, f, idp, fs, now);
                  o.calls[..|silent.calls|] == silent.calls
                  && (InitiateDeviceFlow([s.scope]) in o.calls <==> silent.result == Ok(false) && s.writeback))
  {
    if IsFile(fs, s.tokenPath) && |f.accounts| > 0 {
      var silent := Silent(s, f, idp, fs, now);
      assert forall c :: c in silent.calls ==> c.GetAccounts? || c.AcquireSilent?;
      if silent.result == Ok(false) && s.writeback {
        var dc := DeviceCode(s, silent.fields, idp, silent.fs, now);
        assert dc.calls[0] == InitiateDeviceFlow([s.scope]);
        CallsSplit(silent.calls, dc.calls);
      }
    }
  }

  /** `self.result["access_token"]`. */
  function AccessTokenOf(result: Slot<Option<TokenResponse>>): Result<string> {
    match result
    case Unset => Raise(AttributeError("result"))
    case Set(None) => Raise(TypeError("'NoneType' object is not subscriptable"))
    case Set(Some(resp)) => if resp.accessToken.Some? then Ok(resp.accessToken.value) else Raise(KeyError("access_token"))
  }

  /** `get_token`: a silent acquisition when expired (its True or False is
      ignored), then the stored response's access token. */
  function GetTokenFlow(s: Settings, f: AuthFields, idp: IdentityProvider, fs: FsState, now: int): Outcome<string> {
    match f.expiringDate
    case Unset => Outcome(Raise(AttributeError("expiring_date")), f, fs, [])
    case Set(d) =>
      if Expired(now, d) then
        var o := Silent(s, f, idp, fs, now);
        if o.result.Raise? then Outcome(Raise(o.result.error), o.fields, o.fs, o.calls)
        else Outcome(AccessTokenOf(o.fields.result), o.fields, o.fs, o.calls)
      else Outcome(AccessTokenOf(f.result), f, fs, [])
  }

  /** Before the expiring date, `get_token` asks nobody and returns the
      stored access token; after it, it starts with a silent acquisition. */
  lemma {:induction false} GetTokenRefreshesOnlyWhenExpired(s: Settings, f: AuthFields, idp: IdentityProvider, fs: FsState, now: int)
    requires f.expiringDate.Set?
    ensures var o := GetTokenFlow(s, f, idp, fs, now);
            (!Expired(now, f.expiringDate.value) ==> o == Outcome(AccessTokenOf(f.result), f, fs, []))
            && (Expired(now, f.expiringDate.value) ==> o.calls == Silent(s, f, idp, fs, now).calls)
  {
  }

  /** A token got silently at `obtained` is handed out again, with no
      request to the provider, until 60 seconds before its end. */
  lemma {:induction false} FreshTokenReused(s: Settings, f: AuthFields, idp: IdentityProvider, fs: FsState, obtained: int, now: int)
    requires Silent(s, f, idp, fs, obtained).result == Ok(true)
    requires obtained <= now <= obtained + idp.silent.value.expiresIn.value - Threshold
    ensures var o := Silent(s, f, idp, fs, obtained);
            GetTokenFlow(s, o.fields, idp, o.fs, now) == Outcome(Ok(idp.silent.value.accessToken.value), o.fields, o.fs, [])
  {
    var o := Silent(s, f, idp, fs, obtained);
    SilentResult(s, f, idp, fs, obtained);
    assert o.fields.expiringDate == Set(ExpiringDate(obtained, idp.silent.value.expiresIn.value));
  }

  class Auth {
    const resourceId: string
    const scope: string
    const writeback: bool
    const tokenPath: string
    const cache: TokenCache
    var accounts: seq<Account>
    var result: Slot<Option<TokenResponse>>
    var expiringDate: Slot<int>

    function State(): AuthFields
      reads this, cache
    {
      AuthFields(accounts, result, expiringDate, cache.Value())
    }

    function SettingsOn(host: Host): Settings {
      Settings(scope, tokenPath, writeback, host.platform)
    }

    /** `__init__` up to the decision tree: the cache is loaded and the
        accounts fetched. The client id and authority only configure the
        identity provider, which answers as `idp` says. */
    constructor (host: Host, idp: IdentityProvider, resourceId: string, writeback: bool)
      modifies host
      ensures this.resourceId == resourceId && this.writeback == writeback
      ensures scope == resourceId + "/.default"
      ensures tokenPath == Join3(host.home, ".sumo", resourceId + ".token")
      ensures fresh(cache)
      ensures State() == AuthFields(idp.accounts, Unset, Unset, CacheState(LoadedState(host.fs, tokenPath), false))
      ensures host.calls == old(host.calls) + [GetAccounts]
      ensures host.fs == old(host.fs) && host.exitHooks == old(host.exitHooks)
    {
      this.resourceId := resourceId;
      this.writeback := writeback;
      scope := resourceId + "/.default";
      var path := Join3(host.home, ".sumo", resourceId + ".token");
      tokenPath := path;
      var loaded := LoadCache(host, path);
      cache := loaded;
      result := Unset;
      expiringDate := Unset;
      accounts := idp.accounts;
      new;
      host.Record(GetAccounts);
    }

    /** `is_token_expired`. */
    method IsTokenExpired(now: int) returns (r: Result<bool>)
      ensures expiringDate.Unset? ==> r == Raise(AttributeError("expiring_date"))
      ensures expiringDate.Set? ==> r == Ok(Expired(now, expiringDate.value))
    {
      if expiringDate.Unset? {
        return Raise(AttributeError("expiring_date"));
      }
      r := Ok(now > expiringDate.value);
    }

    /** `_set_expiring_date(time_left)` with the default threshold. */
    method SetExpiringDate(now: int, timeLeft: int)
      modifies this
      ensures State() == old(State()).(expiringDate := Set(ExpiringDate(now, timeLeft)))
    {
      expiringDate := Set(now + (timeLeft - Threshold));
    }

    /** `_check_token_security`. */
    method CheckTokenSecurity(host: Host) returns (r: Result<bool>)
      ensures r == TokenSecurity(host.fs, host.platform, tokenPath)
    {
      if IsWindows(host.platform) {
        return Ok(true);
      }
      if tokenPath !in host.fs.entries {
        return Raise(FileNotFoundError(tokenPath));
      }
      r := Ok(host.fs.entries[tokenPath].mode & GroupOtherAll == 0);
    }

    /** `_oauth_get_token_silent`. */
    method GetTokenSilent(host: Host, idp: IdentityProvider, now: int) returns (r: Result<bool>)
      modifies this, host, cache
      ensures var o := Silent(SettingsOn(host), old(State()), idp, old(host.fs), now);
              r == o.result && State() == o.fields && host.fs == o.fs && host.calls == old(host.calls) + o.calls
      ensures host.exitHooks == old(host.exitHooks)
    {
      ghost var o := Silent(SettingsOn(host), State(), idp, host.fs, now);
      if |accounts| == 0 {
        host.Record(GetAccounts);
        accounts := idp.accounts;
      }
      ghost var calls1 := host.calls;
      var safe := CheckTokenSecurity(host);
      if safe.Raise? {
        return Raise(safe.error);
      }
      if !safe.value {
        return Raise(SystemError("The token is not stored safely."));
      }
      if |accounts| == 0 {
        return Raise(IndexError("list index out of range"));
      }
      host.Record(AcquireSilent([scope], accounts[0]));
      assert host.calls == old(host.calls) + o.calls by {
        assert host.calls == calls1 + [AcquireSilent([scope], accounts[0])];
      }
      result := Set(idp.silent);
      cache.Store(idp.silentStores);
      if idp.silent.None? {
        return Raise(TypeError("argument of type 'NoneType' is not iterable"));
      }
      var resp := idp.silent.value;
      if resp.accessToken.None? {
        return Ok(false);
      }
      if resp.expiresIn.None? {
        return Raise(KeyError("expires_in"));
      }
      SetExpiringDate(now, resp.expiresIn.value);
      if writeback {
        var error := WriteCache(host, tokenPath, cache.Serialize());
        if error.Some? {
          return Raise(error.value);
        }
      }
      r := Ok(true);
    }

    /** `_oauth_device_code`; a missing "expires_in" is logged and
        ignored. */
    method DeviceCodeLogin(host: Host, idp: IdentityProvider, now: int) returns (r: Result<()>)
      modifies this, host, cache
      ensures var o := DeviceCode(SettingsOn(host), old(State()), idp, old(host.fs), now);
              r == o.result && State() == o.fields && host.fs == o.fs && host.calls == old(host.calls) + o.calls
      ensures host.exitHooks == old(host.exitHooks)
    {
      ghost var o := DeviceCode(SettingsOn(host), State(), idp, host.fs, now);
      ghost var calls0 := host.calls;
      var flow := idp.deviceFlow;
      host.Record(InitiateDeviceFlow([scope]));
      if flow.userCode.None? {
        return Raise(ValueError("Fail to create device flow."));
      }
      if flow.message.None? {
        return Raise(KeyError("message"));
      }
      host.Record(Printed(flow.message.value));
      host.Record(AcquireByDeviceFlow(flow));
      assert host.calls == calls0 + o.calls;
      result := Set(Some(idp.byDeviceFlow));
      cache.Store(idp.byDeviceFlowStores);
      if idp.byDeviceFlow.expiresIn.Some? {
        SetExpiringDate(now, idp.byDeviceFlow.expiresIn.value);
      }
      assert State() == o.fields;
      var error := WriteCache(host, tokenPath, cache.Serialize());
      r := if error.Some? then Raise(error.value) else Ok(());
    }

    /** The decision tree of `__init__`. */
    method Authenticate(host: Host, idp: IdentityProvider, now: int) returns (r: Result<()>)
      modifies this, host, cache
      ensures var o := AuthenticateFlow(SettingsOn(host), old(State()), idp, old(host.fs), now);
              r == o.result && State() == o.fields && host.fs == o.fs && host.calls == old(host.calls) + o.calls
      ensures host.exitHooks == old(host.exitHooks)
    {
      ghost var settings, fields, fs, calls := SettingsOn(host), State(), host.fs, host.calls;
      if IsFile(host.fs, tokenPath) {
        if |accounts| == 0 {
          if writeback {
            r := DeviceCodeLogin(host, idp, now);
          } else {
            r := Raise(RuntimeError("The locally stored token has no accounts."));
          }
        } else {
          var ok := GetTokenSilent(host, idp, now);
          ghost var silent := Silent(settings, fields, idp, fs, now);
          assert host.calls == calls + silent.calls;
          if ok == Ok(false) && writeback {
            r := DeviceCodeLogin(host, idp, now);
            ghost var device := DeviceCode(settings, silent.fields, idp, silent.fs, now);
            assert host.calls == calls + silent.calls + device.calls;
            CallsRegrouped(calls, silent.calls, device.calls);
          } else {
            r := if ok.Raise? then Raise(ok.error) else Ok(());
          }
        }
      } else {
        r := DeviceCodeLogin(host, idp, now);
      }
    }

    /** `get_token`. */
    method GetToken(host: Host, idp: IdentityProvider, now: int) returns (r: Result<string>)
      modifies this, host, cache
      ensures var o := GetTokenFlow(SettingsOn(host), old(State()), idp, old(host.fs), now);
              r == o.result && State() == o.fields && host.fs == o.fs && host.calls == old(host.calls) + o.calls
      ensures host.exitHooks == old(host.exitHooks)
    {
      var expired := IsTokenExpired(now);
      if expired.Raise? {
        return Raise(expired.error);
      }
      if expired.value {
        var ok := GetTokenSilent(host, idp, now);
        if ok.Raise? {
          return Raise(ok.error);
        }
      }
      r := AccessTokenOf(result);
    }
  }

  /** The settings of a freshly built `Auth`: its scope and its token path
      under the home directory. */
  function InitialSettings(home: string, platform: string, resourceId: string, writeback: bool): Settings {
    Settings(resourceId + "/.default", Join3(home, ".sumo", resourceId + ".token"), writeback, platform)
  }

  /** The fields of a freshly built `Auth`: the accounts fetched, nothing
      else assigned yet, and the cache as loaded from the token path. */
  function InitialFields(s: Settings, accounts: seq<Account>, fs: FsState): AuthFields {
    AuthFields(accounts, Unset, Unset, CacheState(LoadedState(fs, s.tokenPath), false))
  }

  /** `Auth(client_id, resource_id, writeback=...)`: construction and the
      authentication it runs. */
  method Create(host: Host, idp: IdentityProvider, now: int, resourceId: string, writeback: bool)
    returns (auth: Auth, r: Result<()>)
    modifies host
    ensures fresh(auth) && fresh(auth.cache)
    ensures auth.resourceId == resourceId && auth.writeback == writeback
    ensures auth.SettingsOn(host) == InitialSettings(host.home, host.platform, resourceId, writeback)
    ensures var s := auth.SettingsOn(host);
            var o := AuthenticateFlow(s, InitialFields(s, idp.accounts, old(host.fs)), idp, old(host.fs), now);
            r == o.result && auth.State() == o.fields && host.fs == o.fs
            && host.calls == old(host.calls) + [GetAccounts] + o.calls
    ensures host.exitHooks == old(host.exitHooks)
  {
    auth := new Auth(host, idp, resourceId, writeback);
    r := auth.Authenticate(host, idp, now);
  }
}

=== FILE: auth_provider.dfy ===
/**
 * The authentication providers of src/sumo/wrapper/_auth_provider.py: the
 * ordered choice among managed identity, refresh token, access token,
 * interactive and device code login; what each provider's `get_token`
 * does; when the constructors log in; and how the token file and its
 * directory are made private after a device code login on Linux.
 */
module AuthProviders {
  import opened Wrappers
  import opened Exceptions
  import opened Text
  import opened Paths
  import opened FileSystem
  import opened Identity
  import opened World

  /** `scope_for_resource`. */
  function ScopeForResource(resourceId: string): string {
    resourceId + "/.default offline_access"
  }

  /** `get_token_path`: `~/.sumo/{resource_id}.token`. */
  function GetTokenPath(home: string, resourceId: string): string {
    TokenPath(home, resourceId)
  }

  /** Distinct resources get distinct scopes, and the scope always ends in
      the same suffix. */
  lemma {:induction false} ScopeForResourceShape(r1: string, r2: string)
    ensures ScopeForResource(r1)[..|r1|] == r1
    ensures ScopeForResource(r1)[|r1|..] == "/.default offline_access"
    ensures ScopeForResource(r1) == ScopeForResource(r2) <==> r1 == r2
  {
    var s1, s2 := ScopeForResource(r1), ScopeForResource(r2);
    assert s1[|r1|..] == "/.default offline_access";
    if s1 == s2 {
      assert |r1| == |r2|;
      assert r1 == s1[..|r1|] == s2[..|r2|] == r2;
    }
  }

  /** The variables a workload identity needs; all must be set and
      non-empty for the managed identity to be used. */
  const ManagedIdentityVariables: seq<string> :=
    ["AZURE_FEDERATED_TOKEN_FILE", "AZURE_TENANT_ID", "AZURE_CLIENT_ID", "AZURE_AUTHORITY_HOST"]

  /** `all([os.getenv(x) for x in ...])`. */
  predicate ManagedIdentityAvailable(env: map<string, string>) {
    forall i :: 0 <= i < |ManagedIdentityVariables| ==>
      ManagedIdentityVariables[i] in env && env[ManagedIdentityVariables[i]] != ""
  }

  datatype Strategy = Managed | RefreshToken | AccessToken | Interactive | DeviceCode

  /** The order of the tests in `get_auth_provider`. */
  function SelectStrategy(env: map<string, string>, interactive: bool,
                          accessToken: Option<string>, refreshToken: Option<string>): (s: Strategy)
    ensures s == Managed <==> ManagedIdentityAvailable(env)
    ensures s == RefreshToken <==> !ManagedIdentityAvailable(env) && Truthy(refreshToken)
    ensures s == AccessToken <==>
              !ManagedIdentityAvailable(env) && !Truthy(refreshToken) && Truthy(accessToken)
    ensures s == Interactive <==>
              !ManagedIdentityAvailable(env) && !Truthy(refreshToken) && !Truthy(accessToken) && interactive
    ensures s == DeviceCode <==>
              !ManagedIdentityAvailable(env) && !Truthy(refreshToken) && !Truthy(accessToken) && !interactive
  {
    if ManagedIdentityAvailable(env) then Managed
    else if Truthy(refreshToken) then RefreshToken
    else if Truthy(accessToken) then AccessToken
    else if interactive then Interactive
    else DeviceCode
  }

  /** Leaving out any one of the four variables, or setting it empty,
      rules the managed identity out, whatever tokens are given. */
  lemma {:induction false} ManagedNeedsEveryVariable(env: map<string, string>, i: nat, interactive: bool,
                                  accessToken: Option<string>, refreshToken: Option<string>)
    requires i < |ManagedIdentityVariables|
    requires ManagedIdentityVariables[i] !in env || env[ManagedIdentityVariables[i]] == ""
    ensures SelectStrategy(env, interactive, accessToken, refreshToken) != Managed
  {
  }

  /** A constructed provider and the state it keeps. */
  datatype Provider =
    | ManagedProvider(scope: string)
    | RefreshTokenProvider(scope: string)
    | AccessTokenProvider(accessToken: string, expires: int)
    | InteractiveProvider(scope: string, resourceId: string)
    | DeviceCodeProvider(scope: string, resourceId: string)
  {
    /** Does the provider's msal client keep its token cache in the token
        file of its resource (`get_token_cache`)? */
    predicate Persisted() {
      InteractiveProvider? || DeviceCodeProvider?
    }
  }

  /** `FilePersistence(token_path)`, which `get_token_cache` builds on
      Linux: the token file's directory is created when missing. */
  function OpenPersistenceStep(fs: FsState, platform: string, path: string): Step {
    if StartsWith(platform, "linux") then MakeDirs(fs, DirName(path)) else Step(fs, None)
  }

  /** The persisted cache saving itself once msal has stored `stored` in
      it: on Linux the token file receives the serialized cache, and is
      created with mode 0o600 less the umask when missing. */
  function PersistStep(fs: FsState, platform: string, path: string, stored: Option<string>): Step {
    if StartsWith(platform, "linux") && stored.Some? then OpenCreateWrite(fs, path, stored.value, OwnerReadWrite)
    else Step(fs, None)
  }

  method OpenPersistence(host: Host, path: string) returns (error: Option<PyError>)
    modifies host
    ensures Step(host.fs, error) == OpenPersistenceStep(old(host.fs), host.platform, path)
    ensures host.calls == old(host.calls) && host.exitHooks == old(host.exitHooks)
  {
    error := None;
    if StartsWith(host.platform, "linux") {
      error := host.MakeDirectories(DirName(path));
    }
  }

  method Persist(host: Host, path: string, stored: Option<string>) returns (error: Option<PyError>)
    modifies host
    ensures Step(host.fs, error) == PersistStep(old(host.fs), host.platform, path, stored)
    ensures host.calls == old(host.calls) && host.exitHooks == old(host.exitHooks)
  {
    error := None;
    if StartsWith(host.platform, "linux") && stored.Some? {
      error := host.OpenFile(path, stored.value, OwnerReadWrite);
    }
  }

  /** Off Linux, or with nothing stored, the token file is not touched. A
      save that completes leaves the file holding the stored state, with
      its old mode if it existed and 0o600 less the umask if not, and
      every other entry as it was; it completes exactly when the token
      path is not a directory and, for a new file, its parent can hold
      it. */
  lemma {:induction false} PersistStepEffect(fs: FsState, platform: string, path: string, stored: Option<string>)
    ensures !StartsWith(platform, "linux") || stored.None? ==> PersistStep(fs, platform, path, stored) == Step(fs, None)
    ensures StartsWith(platform, "linux") && stored.Some? ==>
              var r := PersistStep(fs, platform, path, stored);
              (r.error.None? <==> if path in fs.entries then fs.entries[path].File? else ParentError(fs, path).None?)
              && (r.error.None? ==>
                    r.fs.entries == fs.entries[path := File(if path in fs.entries then fs.entries[path].mode
                                                            else OwnerReadWrite & !fs.umask, stored.value)])
              && (r.error.Some? ==> r.fs == fs)
  {
    if StartsWith(platform, "linux") && stored.Some? {
      OpenCreateWriteEnsures(fs, path, stored.value, OwnerReadWrite);
    }
  }

  /** `AuthProvider.get_token`: the msal-backed providers look for an
      account and try a silent acquisition with the first one. */
  function SilentGetToken(idp: IdentityProvider, scope: string): Traced<Option<string>> {
    if |idp.accounts| == 0 then Traced(Ok(None), [GetAccounts])
    else
      var calls := [GetAccounts, AcquireSilent([scope], idp.accounts[0])];
      match idp.silent
      case None => Traced(Ok(None), calls)
      case Some(resp) =>
        match resp.accessToken
        case Some(t) => Traced(Ok(Some(t)), calls)
        case None => Traced(Raise(KeyError("access_token")), calls)
  }

  /** `AuthProvider.get_token` with the cache persisted at `path`: what
      the silent acquisition stores is saved to the file, and an exception
      from that save ends `get_token`. */
  function PersistedGetToken(idp: IdentityProvider, fs: FsState, platform: string, path: string,
                             scope: string): Effect<Option<string>> {
    var t := SilentGetToken(idp, scope);
    var saved := if |idp.accounts| == 0 then Step(fs, None) else PersistStep(fs, platform, path, idp.silentStores);
    Effect(if saved.error.Some? then Raise(saved.error.value) else t.result, saved.fs, t.calls)
  }

  /** `get_token` of each provider; `now` is the current time in whole
      seconds, which compares with the integer `exp` exactly as the
      fractional `time.time()` does. The refresh-token provider's msal
      client keeps its cache in memory only. */
  function GetTokenSpec(p: Provider, idp: IdentityProvider, fs: FsState, platform: string, home: string,
                        now: int): Effect<Option<string>> {
    match p
    case ManagedProvider(scope) =>
      Effect(match idp.managed
             case Ok(t) => Ok(Some(t))
             case Raise(e) => Raise(e),
             fs, [ManagedGetToken(scope)])
    case AccessTokenProvider(token, expires) =>
      Effect(if now >= expires then Raise(ValueError("Access token has expired.")) else Ok(Some(token)), fs, [])
    case RefreshTokenProvider(scope) =>
      var t := SilentGetToken(idp, scope);
      Effect(t.result, fs, t.calls)
    case InteractiveProvider(scope, resourceId) =>
      PersistedGetToken(idp, fs, platform, GetTokenPath(home, resourceId), scope)
    case DeviceCodeProvider(scope, resourceId) =>
      PersistedGetToken(idp, fs, platform, GetTokenPath(home, resourceId), scope)
  }

  /** An access token provider raises exactly when `now >= exp`, returns
      the very token it was given otherwise, and asks nobody and touches
      no file. */
  lemma {:induction false} AccessTokenGetToken(token: string, expires: int, idp: IdentityProvider, fs: FsState,
                                              platform: string, home: string, now: int)
    ensures var t := GetTokenSpec(AccessTokenProvider(token, expires), idp, fs, platform, home, now);
            t.calls == [] && t.fs == fs
            && (t.result.Raise? <==> now >= expires)
            && (t.result.Ok? ==> t.result.value == Some(token))
  {
  }

  /** The msal-backed `get_token` returns None exactly when there is no
      account or the silent acquisition finds nothing; it tries the silent
      acquisition only with an account, and then with the first one;
      otherwise it returns the response's access token or fails on it. */
  lemma {:induction false} SilentGetTokenCases(idp: IdentityProvider, scope: string)
    ensures var t := SilentGetToken(idp, scope);
            (t.result == Ok(None) <==> |idp.accounts| == 0 || idp.silent.None?)
            && (|idp.accounts| == 0 ==> t.calls == [GetAccounts])
            && (|idp.accounts| > 0 ==> t.calls == [GetAccounts, AcquireSilent([scope], idp.accounts[0])])
            && (forall tok :: t.result == Ok(Some(tok)) <==>
                  |idp.accounts| > 0 && idp.silent.Some? && idp.silent.value.accessToken == Some(tok))
  {
  }

  /** With a persisted cache, `get_token` makes the same requests; it
      touches the token file only after a silent acquisition that stored
      tokens, on Linux, and then gives the silent answer exactly when that
      save completes, leaving the file holding what was stored. */
  lemma {:induction false} PersistedGetTokenSaves(idp: IdentityProvider, fs: FsState, platform: string, path: string,
                                                 scope: string)
    ensures var e := PersistedGetToken(idp, fs, platform, path, scope);
            var t := SilentGetToken(idp, scope);
            var saves := |idp.accounts| > 0 && StartsWith(platform, "linux") && idp.silentStores.Some?;
            e.calls == t.calls
            && (!saves ==> e.fs == fs && e.result == t.result)
            && (saves ==>
                  var w := OpenCreateWrite(fs, path, idp.silentStores.value, OwnerReadWrite);
                  e.fs == w.fs
                  && (w.error.None? ==> e.result == t.result && IsFile(e.fs, path)
                                        && e.fs.entries[path].contents == idp.silentStores.value)
                  && (w.error.Some? ==> e.result == Raise(w.error.value)))
  {
    if |idp.accounts| > 0 && StartsWith(platform, "linux") && idp.silentStores.Some? {
      OpenCreateWriteEnsures(fs, path, idp.silentStores.value, OwnerReadWrite);
    }
  }

  /** `protect_token_cache` on the file system: on Linux, a token file not
      shown as `-rw-------` is set to 0o600, and then its directory, unless
      shown as `drwx------`, to 0o700. `os.stat` of a missing path raises. */
  function ProtectTokenCacheSpec(fs: FsState, platform: string, path: string): Step {
    if !StartsWith(platform, "linux") then Step(fs, None)
    else if path !in fs.entries then Step(fs, Some(FileNotFoundError(path)))
    else if FileMode(fs.entries[path]) == "-rw-------" then Step(fs, None)
    else
      var fileDone := Chmod(fs, path, OwnerReadWrite);
      var folder := DirName(path);
      if folder !in fileDone.fs.entries then Step(fileDone.fs, Some(FileNotFoundError(folder)))
      else if FileMode(fileDone.fs.entries[folder]) == "drwx------" then fileDone
      else Chmod(fileDone.fs, folder, OwnerAll)
  }

  method ProtectTokenCache(host: Host, resourceId: string) returns (error: Option<PyError>)
    modifies host
    ensures Step(host.fs, error) ==
            ProtectTokenCacheSpec(old(host.fs), host.platform, GetTokenPath(host.home, resourceId))
    ensures host.calls == old(host.calls) && host.exitHooks == old(host.exitHooks)
  {
    error := None;
    var tokenPath := GetTokenPath(host.home, resourceId);
    if StartsWith(host.platform, "linux") {
      if tokenPath !in host.fs.entries {
        return Some(FileNotFoundError(tokenPath));
      }
      if FileMode(host.fs.entries[tokenPath]) != "-rw-------" {
        error := host.ChangeMode(tokenPath, OwnerReadWrite);
        var folder := DirName(tokenPath);
        if folder !in host.fs.entries {
          return Some(FileNotFoundError(folder));
        }
        if FileMode(host.fs.entries[folder]) != "drwx------" {
          error := host.ChangeMode(folder, OwnerAll);
        }
      }
    }
  }

  /** Off Linux nothing changes. On Linux, a token file that is already
      0o600 is left alone together with its directory; any other file
      becomes 0o600 with its contents kept, and its directory ends with
      mode 0o700. */
  lemma {:induction false} ProtectTokenCacheModes(fs: FsState, platform: string, path: string)
    ensures !StartsWith(platform, "linux") ==> ProtectTokenCacheSpec(fs, platform, path) == Step(fs, None)
    ensures StartsWith(platform, "linux") && IsFile(fs, path) && fs.entries[path].mode == OwnerReadWrite ==>
              ProtectTokenCacheSpec(fs, platform, path) == Step(fs, None)
    ensures StartsWith(platform, "linux") && IsFile(fs, path) && fs.entries[path].mode != OwnerReadWrite
            && DirName(path) != path && IsDir(fs, DirName(path)) ==>
              var r := ProtectTokenCacheSpec(fs, platform, path);
              r.error.None?
              && r.fs.entries[path] == File(OwnerReadWrite, fs.entries[path].contents)
              && r.fs.entries[DirName(path)] == Dir(OwnerAll)
              && r.fs.umask == fs.umask
  {
    if path in fs.entries {
      FileModeOwnerReadWrite(fs.entries[path]);
      var fileDone := Chmod(fs, path, OwnerReadWrite);
      var folder := DirName(path);
      if folder in fileDone.fs.entries {
        FileModeOwnerAllDir(fileDone.fs.entries[folder]);
      }
    }
  }

  /** `AuthProviderInteractive.login`: what the acquisition stores is
      saved to the persisted cache; a response with "error" raises. */
  function InteractiveLogin(idp: IdentityProvider, fs: FsState, platform: string, path: string,
                            scope: string): Effect<()> {
    var saved := PersistStep(fs, platform, path, idp.interactiveStores);
    Effect(if saved.error.Some? then Raise(saved.error.value)
           else if idp.interactive.error.Some? then Raise(ValueError("Failed to acquire token interactively."))
           else Ok(()),
           saved.fs, [AcquireInteractive([scope])])
  }

  /** `AuthProviderDeviceCode.login`, with its effect on the file system:
      what the acquisition stores is saved to the persisted cache before
      the response is looked at, and `protect_token_cache` runs last. */
  function DeviceCodeLogin(idp: IdentityProvider, fs: FsState, platform: string, path: string,
                           scope: string): Effect<()> {
    var flow := idp.deviceFlow;
    var started := [InitiateDeviceFlow([scope])];
    if flow.error.Some? then Effect(Raise(ValueError("Failed to create device flow.")), fs, started)
    else if flow.message.None? then Effect(Raise(KeyError("message")), fs, started)
    else
      var calls := started + [Printed(flow.message.value), AcquireByDeviceFlow(flow)];
      var saved := PersistStep(fs, platform, path, idp.byDeviceFlowStores);
      if saved.error.Some? then Effect(Raise(saved.error.value), saved.fs, calls)
      else if idp.byDeviceFlow.error.Some? then
        Effect(Raise(ValueError("Failed to acquire token by device flow.")), saved.fs, calls)
      else
        var protected := ProtectTokenCacheSpec(saved.fs, platform, path);
        Effect(if protected.error.Some? then Raise(protected.error.value) else Ok(()), protected.fs, calls)
  }

  /** A device flow with "error" raises before any acquisition and
      touches no file; after the acquisition, the persisted save comes
      first, a failed acquisition then raises without protecting the file,
      and a successful one always runs `protect_token_cache` on the saved
      file. */
  lemma {:induction false} DeviceCodeLoginOrder(idp: IdentityProvider, fs: FsState, platform: string, path: string,
                             scope: string)
    ensures var e := DeviceCodeLogin(idp, fs, platform, path, scope);
            var saved := PersistStep(fs, platform, path, idp.byDeviceFlowStores);
            var acquired := idp.deviceFlow.error.None? && idp.deviceFlow.message.Some?;
            (idp.deviceFlow.error.Some? ==>
               e.result.Raise? && e.fs == fs && forall i :: 0 <= i < |e.calls| ==> !IsAcquisition(e.calls[i]))
            && (acquired ==> AcquireByDeviceFlow(idp.deviceFlow) in e.calls)
            && (acquired && saved.error.Some? ==> e.result == Raise(saved.error.value) && e.fs == saved.fs)
            && (acquired && saved.error.None? && idp.byDeviceFlow.error.Some? ==>
                  e.result.Raise? && e.fs == saved.fs)
            && (acquired && saved.error.None? && idp.byDeviceFlow.error.None? ==>
                  e.fs == ProtectTokenCacheSpec(saved.fs, platform, path).fs
                  && (e.result.Ok? <==> ProtectTokenCacheSpec(saved.fs, platform, path).error.None?))
  {
  }

  /** On Linux a device code login whose acquisition stores tokens
      succeeds whether or not the token file existed: the persisted cache
      writes it (creating it if need be) and `protect_token_cache` then
      finds it, so the login leaves the file holding the stored tokens at
      mode 0o600, in a directory that is still there. */
  lemma {:induction false} DeviceCodeLoginPersists(idp: IdentityProvider, fs: FsState, platform: string, path: string,
                                                  scope: string)
    requires StartsWith(platform, "linux")
    requires idp.deviceFlow.error.None? && idp.deviceFlow.message.Some?
    requires idp.byDeviceFlow.error.None? && idp.byDeviceFlowStores.Some?
    requires path != "" && DirName(path) != path && IsDir(fs, DirName(path)) && !IsDir(fs, path)
    ensures var e := DeviceCodeLogin(idp, fs, platform, path, scope);
            e.result == Ok(())
            && e.fs.entries[path] == File(OwnerReadWrite, idp.byDeviceFlowStores.value)
            && IsDir(e.fs, DirName(path))
  {
    var stored := idp.byDeviceFlowStores.value;
    PersistStepEffect(fs, platform, path, idp.byDeviceFlowStores);
    var saved := PersistStep(fs, platform, path, idp.byDeviceFlowStores);
    assert saved.error.None?;
    assert IsFile(saved.fs, path) && saved.fs.entries[path].contents == stored;
    assert IsDir(saved.fs, DirName(path));
    ProtectTokenCacheModes(saved.fs, platform, path);
  }

  /** A login, as the provider's constructor runs it. */
  function LoginSpec(p: Provider, idp: IdentityProvider, fs: FsState, platform: string, home: string): Effect<()>
    requires p.Persisted()
  {
    var path := GetTokenPath(home, p.resourceId);
    if p.InteractiveProvider? then InteractiveLogin(idp, fs, platform, path, p.scope)
    else DeviceCodeLogin(idp, fs, platform, path, p.scope)
  }

  method Login(host: Host, idp: IdentityProvider, p: Provider) returns (error: Option<PyError>)
    requires p.Persisted()
    modifies host
    ensures var e := LoginSpec(p, idp, old(host.fs), host.platform, host.home);
            (error.None? <==> e.result.Ok?) && (error.Some? ==> e.result == Raise(error.value))
            && host.fs == e.fs
            && host.calls == old(host.calls) + e.calls
    ensures host.exitHooks == old(host.exitHooks)
  {
    var path := GetTokenPath(host.home, p.resourceId);
    if p.InteractiveProvider? {
      host.Record(AcquireInteractive([p.scope]));
      error := Persist(host, path, idp.interactiveStores);
      if error.Some? {
        return;
      }
      error := if idp.interactive.error.Some? then Some(ValueError("Failed to acquire token interactively."))
               else None;
      return;
    }
    var flow := idp.deviceFlow;
    host.Record(InitiateDeviceFlow([p.scope]));
    if flow.error.Some? {
      return Some(ValueError("Failed to create device flow."));
    }
    if flow.message.None? {
      return Some(KeyError("message"));
    }
    host.Record(Printed(flow.message.value));
    host.Record(AcquireByDeviceFlow(flow));
    error := Persist(host, path, idp.byDeviceFlowStores);
    if error.Some? {
      return;
    }
    if idp.byDeviceFlow.error.Some? {
      return Some(ValueError("Failed to acquire token by device flow."));
    }
    error := ProtectTokenCache(host, p.resourceId);
  }

  method GetToken(host: Host, idp: IdentityProvider, p: Provider, now: int) returns (r: Result<Option<string>>)
    modifies host
    ensures var e := GetTokenSpec(p, idp, old(host.fs), host.platform, host.home, now);
            r == e.result && host.fs == e.fs && host.calls == old(host.calls) + e.calls
    ensures host.exitHooks == old(host.exitHooks)
  {
    match p
    case ManagedProvider(scope) =>
      host.Record(ManagedGetToken(scope));
      r := match idp.managed
           case Ok(t) => Ok(Some(t))
           case Raise(e) => Raise(e);
    case AccessTokenProvider(token, expires) =>
      if now >= expires {
        r := Raise(ValueError("Access token has expired."));
      } else {
        r := Ok(Some(token));
      }
    case RefreshTokenProvider(scope) =>
      r := MsalGetToken(host, idp, scope, None);
    case InteractiveProvider(scope, resourceId) =>
      r := MsalGetToken(host, idp, scope, Some(GetTokenPath(host.home, resourceId)));
    case DeviceCodeProvider(scope, resourceId) =>
      r := MsalGetToken(host, idp, scope, Some(GetTokenPath(host.home, resourceId)));
  }

  /** `AuthProvider.get_token` of an msal client, whose cache is persisted
      at `persistedAt` or kept in memory only. */
  method MsalGetToken(host: Host, idp: IdentityProvider, scope: string, persistedAt: Option<string>)
    returns (r: Result<Option<string>>)
    modifies host
    ensures var e := if persistedAt.Some? then PersistedGetToken(idp, old(host.fs), host.platform, persistedAt.value, scope)
                     else var t := SilentGetToken(idp, scope); Effect(t.result, old(host.fs), t.calls);
            r == e.result && host.fs == e.fs && host.calls == old(host.calls) + e.calls
    ensures host.exitHooks == old(host.exitHooks)
  {
    host.Record(GetAccounts);
    if |idp.accounts| == 0 {
      return Ok(None);
    }
    host.Record(AcquireSilent([scope], idp.accounts[0]));
    if persistedAt.Some? {
      var error := Persist(host, persistedAt.value, idp.silentStores);
      if error.Some? {
        return Raise(error.value);
      }
    }
    if idp.silent.None? {
      return Ok(None);
    }
    var resp := idp.silent.value;
    r := if resp.accessToken.Some? then Ok(Some(resp.accessToken.value)) else Raise(KeyError("access_token"));
  }

  /** `AuthProviderAccessToken.__init__`: the token's `exp` claim. */
  function AccessTokenProviderFor(token: string, decode: JwtDecoder): (r: Result<Provider>)
    ensures r.Ok? <==> decode(token).Some? && "exp" in decode(token).value
    ensures r.Ok? ==> r.value == AccessTokenProvider(token, decode(token).value["exp"])
  {
    match decode(token)
    case None => Raise(InvalidTokenError)
    case Some(claims) => if "exp" in claims then Ok(AccessTokenProvider(token, claims["exp"])) else Raise(KeyError("exp"))
  }

  /** The whole of `get_auth_provider`, constructors included. */
  function GetAuthProviderSpec(idp: IdentityProvider, decode: JwtDecoder, fs: FsState, platform: string,
                               home: string, env: map<string, string>, now: int, resourceId: string,
                               interactive: bool, accessToken: Option<string>,
                               refreshToken: Option<string>): Effect<Provider> {
    var scope := ScopeForResource(resourceId);
    match SelectStrategy(env, interactive, accessToken, refreshToken)
    case Managed => Effect(Ok(ManagedProvider(scope)), fs, [])
    case RefreshToken =>
      Effect(Ok(RefreshTokenProvider(scope)), fs, [AcquireByRefreshToken(refreshToken.value, [scope])])
    case AccessToken => Effect(AccessTokenProviderFor(accessToken.value, decode), fs, [])
    case Interactive => WithLogin(InteractiveProvider(scope, resourceId), idp, fs, platform, home, now)
    case DeviceCode => WithLogin(DeviceCodeProvider(scope, resourceId), idp, fs, platform, home, now)
  }

  /** The Interactive and DeviceCode constructors: `get_token_cache`,
      then `get_token`, and a login when it finds no token. */
  function WithLogin(p: Provider, idp: IdentityProvider, fs: FsState, platform: string, home: string,
                     now: int): Effect<Provider>
    requires p.Persisted()
  {
    var built := OpenPersistenceStep(fs, platform, GetTokenPath(home, p.resourceId));
    if built.error.Some? then Effect(Raise(built.error.value), built.fs, [])
    else
      var t := GetTokenSpec(p, idp, built.fs, platform, home, now);
      match t.result
      case Raise(e) => Effect(Raise(e), t.fs, t.calls)
      case Ok(Some(_)) => Effect(Ok(p), t.fs, t.calls)
      case Ok(None) =>
        var l := LoginSpec(p, idp, t.fs, platform, home);
        Effect(if l.result.Raise? then Raise(l.result.error) else Ok(p), l.fs, t.calls + l.calls)
  }

  /** Once the cache's persistence is built, the Interactive and
      DeviceCode constructors log in exactly when `get_token` finds no
      token: the login's requests follow those of `get_token` in that
      case, and there are no others otherwise. A persistence that cannot
      be built raises before any request. */
  lemma {:induction false} ConstructorLogsInIffNoToken(p: Provider, idp: IdentityProvider, fs: FsState, platform: string,
                                    home: string, now: int)
    requires p.Persisted()
    ensures var e := WithLogin(p, idp, fs, platform, home, now);
            var built := OpenPersistenceStep(fs, platform, GetTokenPath(home, p.resourceId));
            var t := GetTokenSpec(p, idp, built.fs, platform, home, now);
            (built.error.Some? ==> e.result.Raise? && e.calls == [])
            && (built.error.None? && t.result == Ok(None) ==>
                  |e.calls| > |t.calls| && e.calls[..|t.calls|] == t.calls
                  && (p.InteractiveProvider? ==> e.calls[|t.calls|] == AcquireInteractive([p.scope]))
                  && (p.DeviceCodeProvider? ==> e.calls[|t.calls|] == InitiateDeviceFlow([p.scope])))
            && (built.error.None? && t.result != Ok(None) ==> e.calls == t.calls && e.fs == t.fs)
  {
    var built := OpenPersistenceStep(fs, platform, GetTokenPath(home, p.resourceId));
    var t := GetTokenSpec(p, idp, built.fs, platform, home, now);
    if built.error.None? && t.result == Ok(None) {
      var l := LoginSpec(p, idp, t.fs, platform, home);
      LoginStarts(p, idp, t.fs, platform, home);
      assert WithLogin(p, idp, fs, platform, home, now).calls == t.calls + l.calls;
      assert (t.calls + l.calls)[..|t.calls|] == t.calls;
      assert (t.calls + l.calls)[|t.calls|] == l.calls[0];
    }
  }

  /** A login starts with the interactive acquisition or with the device
      flow. */
  lemma {:induction false} LoginStarts(p: Provider, idp: IdentityProvider, fs: FsState, platform: string, home: string)
    requires p.Persisted()
    ensures var l := LoginSpec(p, idp, fs, platform, home);
            |l.calls| > 0
            && (p.InteractiveProvider? ==> l.calls[0] == AcquireInteractive([p.scope]))
            && (p.DeviceCodeProvider? ==> l.calls[0] == InitiateDeviceFlow([p.scope]))
  {
  }

  /** `~/.sumo/{resource_id}.token` lies directly in `~/.sumo`, which lies
      directly in the home directory. */
  lemma {:induction false} TokenPathParents(home: string, resourceId: string)
    requires home != [] && home[|home| - 1] != '/'
    requires forall j :: 0 <= j < |resourceId| ==> resourceId[j] != '/'
    ensures var dir := Paths.Join(home, ".sumo");
            var path := TokenPath(home, resourceId);
            DirName(path) == dir && DirName(dir) == home && |home| < |dir| < |path|
  {
    var dir := Paths.Join(home, ".sumo");
    var name := resourceId + ".token";
    TokenDirectory(home, resourceId);
    DirNameOfJoin(home, ".sumo");
    assert dir == home + "/" + ".sumo";
    assert |name| > 0 && name[0] != '/' by {
      if |resourceId| == 0 { assert name[0] == '.'; } else { assert name[0] == resourceId[0]; }
    }
    assert TokenPath(home, resourceId) == dir + "/" + name;
  }

  /** On Linux, with the home directory in place, building the persistence
      leaves `~/.sumo` a directory and adds no other entry. */
  lemma {:induction false} PersistenceMakesTokenDirectory(fs: FsState, platform: string, home: string, resourceId: string)
    requires StartsWith(platform, "linux")
    requires home != [] && home[|home| - 1] != '/' && IsDir(fs, home)
    requires forall j :: 0 <= j < |resourceId| ==> resourceId[j] != '/'
    requires Paths.Join(home, ".sumo") !in fs.entries || IsDir(fs, Paths.Join(home, ".sumo"))
    ensures var b := OpenPersistenceStep(fs, platform, TokenPath(home, resourceId));
            b.error.None? && IsDir(b.fs, Paths.Join(home, ".sumo"))
            && b.fs.entries == fs.entries[Paths.Join(home, ".sumo") := b.fs.entries[Paths.Join(home, ".sumo")]]
  {
    var dir := Paths.Join(home, ".sumo");
    TokenPathParents(home, resourceId);
    assert OpenPersistenceStep(fs, platform, TokenPath(home, resourceId)) == MakeDirs(fs, dir);
    assert MakeDirs(fs, dir) == MkdirExistOk(fs, dir);
  }

  /** The device code constructor on Linux with no account yet, a
      `~/.sumo` the persistence can build, and no token file: the login
      saves the stored tokens to a new token file that ends owner-only, and
      the provider is built. */
  lemma {:induction false} DeviceCodeFirstConstruction(idp: IdentityProvider, fs: FsState, platform: string,
                                                      home: string, now: int, resourceId: string)
    requires StartsWith(platform, "linux")
    requires |idp.accounts| == 0
    requires idp.deviceFlow.error.None? && idp.deviceFlow.message.Some?
    requires idp.byDeviceFlow.error.None? && idp.byDeviceFlowStores.Some?
    requires home != [] && home[|home| - 1] != '/' && IsDir(fs, home)
    requires forall j :: 0 <= j < |resourceId| ==> resourceId[j] != '/'
    requires Paths.Join(home, ".sumo") !in fs.entries || IsDir(fs, Paths.Join(home, ".sumo"))
    requires TokenPath(home, resourceId) !in fs.entries
    ensures var p := DeviceCodeProvider(ScopeForResource(resourceId), resourceId);
            var e := WithLogin(p, idp, fs, platform, home, now);
            e.result == Ok(p)
            && TokenPath(home, resourceId) in e.fs.entries
            && e.fs.entries[TokenPath(home, resourceId)] == File(OwnerReadWrite, idp.byDeviceFlowStores.value)
  {
    var p := DeviceCodeProvider(ScopeForResource(resourceId), resourceId);
    var path := TokenPath(home, resourceId);
    TokenPathParents(home, resourceId);
    PersistenceMakesTokenDirectory(fs, platform, home, resourceId);
    var built := OpenPersistenceStep(fs, platform, path);
    var t := GetTokenSpec(p, idp, built.fs, platform, home, now);
    assert t == Effect(Ok(None), built.fs, [GetAccounts]);
    var l := DeviceCodeLogin(idp, built.fs, platform, path, p.scope);
    DeviceCodeLoginPersists(idp, built.fs, platform, path, p.scope);
    assert LoginSpec(p, idp, t.fs, platform, home) == l;
  }

  /** A first device code login on Linux, through `get_auth_provider`:
      the home directory exists but holds no token file yet and no
      managed identity is configured. The provider is built, and the
      token file holds what the device flow acquisition stored, at mode
      0o600. */
  lemma {:induction false} FirstDeviceCodeLogin(idp: IdentityProvider, decode: JwtDecoder, fs: FsState, platform: string,
                                               home: string, env: map<string, string>, now: int, resourceId: string)
    requires StartsWith(platform, "linux") && !ManagedIdentityAvailable(env)
    requires |idp.accounts| == 0
    requires idp.deviceFlow.error.None? && idp.deviceFlow.message.Some?
    requires idp.byDeviceFlow.error.None? && idp.byDeviceFlowStores.Some?
    requires home != [] && home[|home| - 1] != '/' && IsDir(fs, home)
    requires forall j :: 0 <= j < |resourceId| ==> resourceId[j] != '/'
    requires Paths.Join(home, ".sumo") !in fs.entries || IsDir(fs, Paths.Join(home, ".sumo"))
    requires TokenPath(home, resourceId) !in fs.entries
    ensures var e := GetAuthProviderSpec(idp, decode, fs, platform, home, env, now, resourceId, false, None, None);
            e.result == Ok(DeviceCodeProvider(ScopeForResource(resourceId), resourceId))
            && TokenPath(home, resourceId) in e.fs.entries
            && e.fs.entries[TokenPath(home, resourceId)] == File(OwnerReadWrite, idp.byDeviceFlowStores.value)
  {
    assert SelectStrategy(env, false, None, None) == DeviceCode;
    DeviceCodeFirstConstruction(idp, fs, platform, home, now, resourceId);
  }

  /** With every managed-identity variable set, the managed identity wins
      over any supplied token, and building it asks nothing. */
  lemma {:induction false} ManagedWins(idp: IdentityProvider, decode: JwtDecoder, fs: FsState, platform: string, home: string,
                    env: map<string, string>, now: int, resourceId: string, interactive: bool,
                    accessToken: Option<string>, refreshToken: Option<string>)
    requires ManagedIdentityAvailable(env)
    ensures GetAuthProviderSpec(idp, decode, fs, platform, home, env, now, resourceId, interactive,
                                accessToken, refreshToken)
            == Effect(Ok(ManagedProvider(ScopeForResource(resourceId))), fs, [])
  {
  }

  /** `get_auth_provider`. The client id and authority only configure the
      identity provider, which answers as `idp` says. */
  method GetAuthProvider(host: Host, idp: IdentityProvider, decode: JwtDecoder, now: int, resourceId: string,
                         interactive: bool, accessToken: Option<string>, refreshToken: Option<string>)
    returns (r: Result<Provider>)
    modifies host
    ensures var e := GetAuthProviderSpec(idp, decode, old(host.fs), host.platform, host.home, host.env, now,
                                         resourceId, interactive, accessToken, refreshToken);
            r == e.result && host.fs == e.fs && host.calls == old(host.calls) + e.calls
    ensures host.exitHooks == old(host.exitHooks)
  {
    var scope := ScopeForResource(resourceId);
    var strategy := SelectStrategy(host.env, interactive, accessToken, refreshToken);
    var p: Provider;
    match strategy {
      case Managed =>
        return Ok(ManagedProvider(scope));
      case RefreshToken =>
        host.Record(AcquireByRefreshToken(refreshToken.value, [scope]));
        return Ok(RefreshTokenProvider(scope));
      case AccessToken =>
        return AccessTokenProviderFor(accessToken.value, decode);
      case Interactive =>
        p := InteractiveProvider(scope, resourceId);
      case DeviceCode =>
        p := DeviceCodeProvider(scope, resourceId);
    }
    r := Construct(host, idp, p, now);
  }

  /** The Interactive and DeviceCode constructors. */
  method Construct(host: Host, idp: IdentityProvider, p: Provider, now: int) returns (r: Result<Provider>)
    requires p.Persisted()
    modifies host
    ensures var e := WithLogin(p, idp, old(host.fs), host.platform, host.home, now);
            r == e.result && host.fs == e.fs && host.calls == old(host.calls) + e.calls
    ensures host.exitHooks == old(host.exitHooks)
  {
    var built := OpenPersistence(host, GetTokenPath(host.home, p.resourceId));
    if built.Some? {
      return Raise(built.value);
    }
    ghost var fs0, calls0 := host.fs, host.calls;
    var t := GetToken(host, idp, p, now);
    if t.Raise? {
      return Raise(t.error);
    }
    if t.value.Some? {
      return Ok(p);
    }
    ghost var calls1 := host.calls;
    var error := Login(host, idp, p);
    ghost var l := LoginSpec(p, idp, GetTokenSpec(p, idp, fs0, host.platform, host.home, now).fs, host.platform, host.home);
    assert host.calls == calls1 + l.calls;
    r := if error.Some? then Raise(error.value) else Ok(p);
  }
}

=== FILE: call_azure_api.dfy ===
/**
 * `CallAzureApi` (src/sumo/wrapper/_call_azure_api.py): sends requests to
 * Azure REST endpoints with a Bearer credential. The credential is either
 * one the caller passes with the request or the one the object keeps,
 * generated through the older `Auth` and regenerated once `Auth` says
 * the token expired. The module also has its own copy of the status
 * classification.
 */
module AzureApi {
  import opened Wrappers
  import opened Text
  import opened Exceptions
  import opened FileSystem
  import opened Identity
  import opened World
  import opened Http
  import opened LegacyAuth
  import opened TokenCacheStore
  import RequestErrors
  import Client

  /** `_raise_request_error_exception`, the module's copy of the rule. */
  function RaiseRequestErrorException(code: int, message: string): (e: RequestErrors.RequestError)
    ensures e.code == code && e.message == message
  {
    if 503 <= code <= 504 || code == 404 || code == 500 then
      RequestErrors.RequestError(RequestErrors.Transient, code, message)
    else if 401 <= code <= 403 then
      RequestErrors.RequestError(RequestErrors.Authentication, code, message)
    else
      RequestErrors.RequestError(RequestErrors.Permanent, code, message)
  }

  /** The copy raises the same error as `raise_request_error_exception`
      for every code and message, so the shared response step stands for
      both. */
  lemma {:induction false} ClassificationAgrees(code: int, message: string)
    ensures RaiseRequestErrorException(code, message) == RequestErrors.RaiseRequestErrorException(code, message)
  {
  }

  /** The credential `_process_token` returns, the stored bearer after it,
      and what it did to the `Auth` fields, the files and the provider. */
  datatype TokenStep = TokenStep(result: Result<string>, bearer: Option<string>, fields: AuthFields,
                                 fs: FsState, calls: seq<Call>)

  /** `_process_token(bearer)`. `auth` is the `Auth` object's settings and
      fields, None when the object was built with `outside_token`. */
  function ProcessTokenFlow(arg: Option<string>, auth: Option<(Settings, AuthFields)>, stored: Option<string>,
                            idp: IdentityProvider, fs: FsState, now: int): TokenStep
  {
    var f := if auth.Some? then auth.value.1 else AuthFields([], Unset, Unset, CacheState(EmptyState, false));
    if Truthy(arg) then TokenStep(Ok(Bearer(arg.value)), stored, f, fs, [])
    else if auth.None? then TokenStep(Raise(AttributeError("is_token_expired")), stored, f, fs, [])
    else
      match f.expiringDate
      case Unset => TokenStep(Raise(AttributeError("expiring_date")), stored, f, fs, [])
      case Set(d) =>
        if Expired(now, d) then
          var g := GetTokenFlow(auth.value.0, f, idp, fs, now);
          match g.result
          case Raise(e) => TokenStep(Raise(e), stored, g.fields, g.fs, g.calls)
          case Ok(t) => TokenStep(Ok(Bearer(t)), Some(Bearer(t)), g.fields, g.fs, g.calls)
        else
          match stored
          case None => TokenStep(Raise(TypeError("object of type 'NoneType' has no len()")), stored, f, fs, [])
          case Some(b) => TokenStep(Ok(b), stored, f, fs, [])
  }

  /** A bearer passed with the request is used as "Bearer " + bearer with
      no expiry check and nothing else touched. Without one, the stored
      bearer is returned unchanged while `Auth` says the token is fresh,
      and regenerated as "Bearer " + `auth.get_token()` once it says it
      expired; the regenerated bearer is both stored and returned. */
  lemma {:induction false} ProcessTokenCases(arg: Option<string>, s: Settings, f: AuthFields, stored: Option<string>,
                          idp: IdentityProvider, fs: FsState, now: int)
    ensures Truthy(arg) ==>
              ProcessTokenFlow(arg, Some((s, f)), stored, idp, fs, now) == TokenStep(Ok(Bearer(arg.value)), stored, f, fs, [])
    ensures Truthy(arg) ==> ProcessTokenFlow(arg, None, stored, idp, fs, now).result == Ok(Bearer(arg.value))
    ensures !Truthy(arg) ==> ProcessTokenFlow(arg, None, stored, idp, fs, now).result.Raise?
    ensures !Truthy(arg) && f.expiringDate.Set? && !Expired(now, f.expiringDate.value) && stored.Some? ==>
              ProcessTokenFlow(arg, Some((s, f)), stored, idp, fs, now) == TokenStep(Ok(stored.value), stored, f, fs, [])
    ensures !Truthy(arg) && f.expiringDate.Set? && Expired(now, f.expiringDate.value) ==>
              var t := ProcessTokenFlow(arg, Some((s, f)), stored, idp, fs, now);
              var g := GetTokenFlow(s, f, idp, fs, now);
              t.calls == g.calls && t.fields == g.fields && t.fs == g.fs
              && (t.result.Ok? <==> g.result.Ok?)
              && (g.result.Ok? ==> t.result == Ok(Bearer(g.result.value)) && t.bearer == Some(t.result.value))
              && (g.result.Raise? ==> t.bearer == stored)
  {
  }

  /** The stored bearer keeps the Bearer form of section 2.1 of RFC 6750:
      `_process_token` stores nothing else. */
  lemma {:induction false} ProcessTokenKeepsBearerForm(arg: Option<string>, auth: Option<(Settings, AuthFields)>, stored: Option<string>,
                                    idp: IdentityProvider, fs: FsState, now: int)
    requires stored.Some? ==> StartsWith(stored.value, "Bearer ")
    ensures var t := ProcessTokenFlow(arg, auth, stored, idp, fs, now);
            (t.bearer.Some? ==> StartsWith(t.bearer.value, "Bearer "))
            && (t.result.Ok? ==> StartsWith(t.result.value, "Bearer "))
            && (t.bearer.Some? <==> stored.Some? || (t.result.Ok? && t.bearer == Some(t.result.value)))
  {
  }

  /** A request the object can send, with the url it goes to. */
  datatype Operation =
    | GetJson(url: string)
    | GetImage(url: string)
    | GetContent(url: string)
    | PostObject(url: string, blob: Option<Bytes>, json: Option<JsonObject>)
    | PutObject(url: string, blob: Option<Bytes>, json: Option<JsonObject>)
    | DeleteObject(url: string)

  /** The headers of `post`: Content-Type, Authorization, Content-Length. */
  function PlanPost(url: string, blob: Option<Bytes>, json: Option<JsonObject>, bearer: string): (r: Result<Request>)
    ensures NonEmpty(blob) && Filled(json) ==> r.Raise? && r.error.ValueError?
    ensures !(NonEmpty(blob) && Filled(json)) ==> (r.Raise? <==> ContentLength(blob, json).Raise?)
    ensures r.Ok? ==> r.value.verb == POST && r.value.url == url && r.value.blob == blob && r.value.json == json
    ensures r.Ok? ==> Names(r.value.headers) == ["Content-Type", "Authorization", "Content-Length"]
                      && HeaderValue(r.value.headers, "Authorization") == Some(bearer)
                      && HeaderValue(r.value.headers, "Content-Length") == Some(ContentLength(blob, json).value)
                      && (HeaderValue(r.value.headers, "Content-Type") == Some(Client.JsonType) <==> json.Some?)
  {
    if NonEmpty(blob) && Filled(json) then
      Raise(ValueError("Both blob and json given to post - can only have one at the time."))
    else
      match ContentLength(blob, json)
      case Raise(e) => Raise(e)
      case Ok(length) =>
        var contentType := if json.Some? then Client.JsonType else Client.OctetStream;
        var headers := [("Content-Type", contentType), ("Authorization", bearer), ("Content-Length", length)];
        DistinctHeaders3(headers);
        Ok(Request(POST, url, None, headers, blob, json))
  }

  /** The header list of `put`; `signed` when the url carries a "sig="
      signature, which then stands in for the Authorization header. */
  function PutHeaders(contentType: string, length: string, bearer: string, signed: bool): (h: Headers)
    ensures |h| == if signed then 3 else 4
    ensures Names(h)[..3] == ["Content-Type", "Content-Length", "x-ms-blob-type"]
    ensures HeaderValue(h, "Content-Type") == Some(contentType)
    ensures HeaderValue(h, "Content-Length") == Some(length)
    ensures HeaderValue(h, "x-ms-blob-type") == Some("BlockBlob")
    ensures "Authorization" in Names(h) <==> !signed
    ensures !signed ==> HeaderValue(h, "Authorization") == Some(bearer)
  {
    var fixed := [("Content-Type", contentType), ("Content-Length", length), ("x-ms-blob-type", "BlockBlob")];
    if signed then
      DistinctHeaders3(fixed);
      assert Names(fixed)[..3] == Names(fixed);
      fixed
    else
      var h := fixed + [("Authorization", bearer)];
      DistinctHeaders4(h);
      assert Names(h)[..3] == ["Content-Type", "Content-Length", "x-ms-blob-type"];
      h
  }

  /** The request of `put`: Content-Type, Content-Length, the block blob
      type, and Authorization only for a url without a "sig=" signature. */
  function PlanPut(url: string, blob: Option<Bytes>, json: Option<JsonObject>, bearer: string): (r: Result<Request>)
    ensures NonEmpty(blob) && Filled(json) ==> r.Raise? && r.error.ValueError?
    ensures !(NonEmpty(blob) && Filled(json)) ==> (r.Raise? <==> ContentLength(blob, json).Raise?)
    ensures r.Ok? ==> r.value.verb == PUT && r.value.url == url && r.value.blob == blob && r.value.json == json
                      && r.value.headers == PutHeaders(if json.Some? then Client.JsonType else Client.OctetStream,
                                                       ContentLength(blob, json).value, bearer, Contains(url, "sig="))
  {
    if NonEmpty(blob) && Filled(json) then
      Raise(ValueError("Both blob and json given to put - can only have one at the time."))
    else
      match ContentLength(blob, json)
      case Raise(e) => Raise(e)
      case Ok(length) =>
        var contentType := if json.Some? then Client.JsonType else Client.OctetStream;
        Ok(Request(PUT, url, None, PutHeaders(contentType, length, bearer, Find(url, "sig=") >= 0), blob, json))
  }

  /** The request an operation sends with the credential `bearer`, or the
      exception raised before sending. */
  function Plan(op: Operation, bearer: string): Result<Request> {
    match op
    case GetJson(url) => Ok(Request(GET, url, None, [("Content-Type", Client.JsonType), ("Authorization", bearer)], None, None))
    case GetImage(url) => Ok(Request(GET, url, None, [("Content-Type", "html/text"), ("Authorization", bearer)], None, None))
    case GetContent(url) => Ok(Request(GET, url, None, [("Content-Type", Client.JsonType), ("Authorization", bearer)], None, None))
    case PostObject(url, blob, json) => PlanPost(url, blob, json, bearer)
    case PutObject(url, blob, json) => PlanPut(url, blob, json, bearer)
    case DeleteObject(url) => Ok(Request(DELETE, url, None, [("Content-Type", Client.JsonType), ("Authorization", bearer)], None, None))
  }

  /** What each operation returns on success: `get_json` and
      `delete_object` decoded JSON, `get_image` None, `get_content` the raw
      body, `post` and `put` the response. */
  function ShapeOf(op: Operation): Shape {
    match op
    case GetJson(_) => AsJson
    case GetImage(_) => AsNothing
    case GetContent(_) => AsBytes
    case PostObject(_, _, _) => AsResponse
    case PutObject(_, _, _) => AsResponse
    case DeleteObject(_) => AsJson
  }

  /** Only `post` and `put` catch a proxy failure. */
  predicate CatchesProxy(op: Operation) {
    op.PostObject? || op.PutObject?
  }

  /** Every operation but `put` to a signed url sends the credential in an
      Authorization header; the gets and the delete never fail before
      sending; on success `get_image` gives None, `get_content` the raw
      body and `get_json` the decoded body. */
  lemma {:induction false} OperationContracts(op: Operation, bearer: string, x: Exchange)
    ensures !op.PostObject? && !op.PutObject? ==> Plan(op, bearer).Ok?
    ensures Plan(op, bearer).Ok? ==> Plan(op, bearer).value.url == op.url
    ensures Plan(op, bearer).Ok? && !(op.PutObject? && Contains(op.url, "sig=")) ==>
              HeaderValue(Plan(op, bearer).value.headers, "Authorization") == Some(bearer)
    ensures Plan(op, bearer).Ok? && op.PutObject? && Contains(op.url, "sig=") ==>
              "Authorization" !in Names(Plan(op, bearer).value.headers)
    ensures op.GetImage? && Finish(x, false, ShapeOf(op)).Ok? ==> Finish(x, false, ShapeOf(op)).value == NoReply
    ensures op.GetContent? && Finish(x, false, ShapeOf(op)).Ok? ==>
              Finish(x, false, ShapeOf(op)).value == RawContent(x.response.content)
    ensures op.GetJson? && Finish(x, false, ShapeOf(op)).Ok? ==>
              Finish(x, false, ShapeOf(op)).value == DecodedJson(x.response.content)
  {
  }

  /** What a call returns and the request it sends, once the credential
      step has given `credential`: its exception, the exception raised
      while planning, or the request and the exchange's result. */
  function SendOutcome(credential: Result<string>, op: Operation, x: Exchange): (Result<Reply>, Option<Request>) {
    match credential
    case Raise(e) => (Raise(e), None)
    case Ok(b) =>
      match Plan(op, b)
      case Raise(e) => (Raise(e), None)
      case Ok(q) => (Finish(x, CatchesProxy(op), ShapeOf(op)), Some(q))
  }

  /** The credential is processed before the payloads are checked: when
      it fails, a post or put with two payloads raises the credential's
      exception, not `ValueError`. A request is sent exactly when both
      steps pass. */
  lemma {:induction false} CredentialFirst(credential: Result<string>, op: Operation, x: Exchange)
    ensures credential.Raise? ==> SendOutcome(credential, op, x) == (Raise(credential.error), None)
    ensures SendOutcome(credential, op, x).1.Some? <==> credential.Ok? && Plan(op, credential.value).Ok?
    ensures credential.Ok? && (op.PostObject? || op.PutObject?) && NonEmpty(op.blob) && Filled(op.json) ==>
              SendOutcome(credential, op, x).0.Raise? && SendOutcome(credential, op, x).0.error.ValueError?
  {
  }

  /** The request carries the operation's url, and for a post or put its
      verb and payloads. */
  predicate Carries(q: Request, op: Operation) {
    q.url == op.url
    && (op.PostObject? ==> q.verb == POST && q.blob == op.blob && q.json == op.json)
    && (op.PutObject? ==> q.verb == PUT && q.blob == op.blob && q.json == op.json)
  }

  /** A call that sends nothing raises; a sent request carries the
      operation, and the call then returns the exchange's result. */
  lemma {:induction false} SendOutcomeCarries(credential: Result<string>, op: Operation, x: Exchange)
    ensures SendOutcome(credential, op, x).1.None? ==> SendOutcome(credential, op, x).0.Raise?
    ensures SendOutcome(credential, op, x).1.Some? ==>
              Carries(SendOutcome(credential, op, x).1.value, op)
              && SendOutcome(credential, op, x).0 == Finish(x, CatchesProxy(op), ShapeOf(op))
  {
    if credential.Ok? && Plan(op, credential.value).Ok? {
      OperationContracts(op, credential.value, x);
    }
  }

  class CallAzureApi {
    const resourceId: string
    const clientId: string
    const writeback: bool
    const auth: Auth?
    var bearer: Option<string>

    /** Without `outside_token` the object has an `Auth` and a bearer in
        the Bearer form; with it, neither. */
    predicate Valid()
      reads this
    {
      (auth == null <==> bearer.None?)
      && (bearer.Some? ==> StartsWith(bearer.value, "Bearer "))
    }

    /** The `Auth` object's settings and fields, when there is one. */
    function AuthState(host: Host): Option<(Settings, AuthFields)>
      reads auth, if auth != null then {auth.cache} else {}
    {
      if auth == null then None else Some((auth.SettingsOn(host), auth.State()))
    }

    constructor (resourceId: string, clientId: string, writeback: bool, auth: Auth?, bearer: Option<string>)
      ensures this.resourceId == resourceId && this.clientId == clientId && this.writeback == writeback
      ensures this.auth == auth && this.bearer == bearer
    {
      this.resourceId := resourceId;
      this.clientId := clientId;
      this.writeback := writeback;
      this.auth := auth;
      this.bearer := bearer;
    }

    /** `_process_token(bearer)`, with `_is_token_expired` and
        `_generate_bearer_token`. */
    method ProcessToken(host: Host, idp: IdentityProvider, now: int, arg: Option<string>) returns (r: Result<string>)
      requires Valid()
      modifies this, host, auth, if auth != null then {auth.cache} else {}
      ensures var t := ProcessTokenFlow(arg, old(AuthState(host)), old(bearer), idp, old(host.fs), now);
              r == t.result && bearer == t.bearer && host.fs == t.fs && host.calls == old(host.calls) + t.calls
              && (auth != null ==> auth.State() == t.fields)
      ensures host.exitHooks == old(host.exitHooks)
      ensures Valid()
    {
      if Truthy(arg) {
        return Ok(Bearer(arg.value));
      }
      if auth == null {
        return Raise(AttributeError("is_token_expired"));
      }
      var expired := auth.IsTokenExpired(now);
      if expired.Raise? {
        return Raise(expired.error);
      }
      if expired.value {
        var token := auth.GetToken(host, idp, now);
        if token.Raise? {
          return Raise(token.error);
        }
        bearer := Some(Bearer(token.value));
      }
      if bearer.None? {
        return Raise(TypeError("object of type 'NoneType' has no len()"));
      }
      r := Ok(bearer.value);
    }

    /** `get_json`, `get_image`, `get_content`, `post`, `put` and
        `delete_object`: the credential first, then the request. */
    method Send(host: Host, idp: IdentityProvider, now: int, op: Operation, arg: Option<string>, x: Exchange)
      returns (r: Result<Reply>, sent: Option<Request>)
      requires Valid()
      modifies this, host, auth, if auth != null then {auth.cache} else {}
      ensures var t := ProcessTokenFlow(arg, old(AuthState(host)), old(bearer), idp, old(host.fs), now);
              bearer == t.bearer && host.fs == t.fs && host.calls == old(host.calls) + t.calls
              && (auth != null ==> auth.State() == t.fields)
              && (r, sent) == SendOutcome(t.result, op, x)
      ensures host.exitHooks == old(host.exitHooks)
      ensures Valid()
    {
      var credential := ProcessToken(host, idp, now, arg);
      if credential.Raise? {
        return Raise(credential.error), None;
      }
      var plan := Plan(op, credential.value);
      if plan.Raise? {
        return Raise(plan.error), None;
      }
      sent := Some(plan.value);
      r := Finish(x, CatchesProxy(op), ShapeOf(op));
    }
  }

  /** `CallAzureApi(resource_id, client_id, outside_token, writeback)`.
      Without `outside_token` it builds `Auth(client_id, resource_id,
      writeback)`, whose third positional parameter is `authority`: the
      `Auth` always has `writeback` False. It then generates the bearer. */
  method Create(host: Host, idp: IdentityProvider, now: int, resourceId: string, clientId: string,
                outsideToken: bool, writeback: bool) returns (r: Result<CallAzureApi>)
    modifies host
    ensures r.Ok? ==> fresh(r.value) && r.value.Valid()
                      && r.value.resourceId == resourceId && r.value.clientId == clientId
                      && r.value.writeback == writeback
    ensures outsideToken ==> r.Ok? && r.value.auth == null && r.value.bearer.None?
                             && host.fs == old(host.fs) && host.calls == old(host.calls)
    ensures !outsideToken ==>
              var s := InitialSettings(host.home, host.platform, resourceId, false);
              var a := AuthenticateFlow(s, InitialFields(s, idp.accounts, old(host.fs)), idp, old(host.fs), now);
              var g := GetTokenFlow(s, a.fields, idp, a.fs, now);
              (a.result.Raise? ==> r == Raise(a.result.error) && host.fs == a.fs
                                   && host.calls == old(host.calls) + [GetAccounts] + a.calls)
              && (a.result.Ok? ==>
                    host.fs == g.fs && host.calls == old(host.calls) + [GetAccounts] + a.calls + g.calls
                    && (g.result.Raise? ==> r == Raise(g.result.error))
                    && (g.result.Ok? ==> r.Ok? && r.value.auth != null && fresh(r.value.auth)
                                         && !r.value.auth.writeback
                                         && r.value.auth.State() == g.fields
                                         && r.value.bearer == Some(Bearer(g.result.value))))
    ensures host.exitHooks == old(host.exitHooks)
  {
    if outsideToken {
      var api := new CallAzureApi(resourceId, clientId, writeback, null, None);
      return Ok(api);
    }
    var auth, started := LegacyAuth.Create(host, idp, now, resourceId, false);
    if started.Raise? {
      return Raise(started.error);
    }
    var token := auth.GetToken(host, idp, now);
    if token.Raise? {
      return Raise(token.error);
    }
    var api := new CallAzureApi(resourceId, clientId, writeback, auth, Some(Bearer(token.value)));
    r := Ok(api);
  }
}

=== FILE: call_sumo_api.dfy ===
/**
 * `CallSumoApi` (src/sumo/wrapper/_call_sumo_api.py): the oldest Sumo
 * client. Each of its methods builds the url of one Sumo endpoint from
 * the base url of the environment and hands it, with the payload, to a
 * `CallAzureApi`. The model is the url and payload each method chooses;
 * the request itself is `AzureApi.CallAzureApi.Send`.
 */
module SumoApi {
  import opened Wrappers
  import opened Text
  import opened Exceptions
  import opened Identity
  import opened World
  import opened Http
  import AzureApi
  import LegacyAuth
  import FileSystem
  import Client
  import Config

  /** One `name=value` field of a query string. */
  function Field(name: string, value: string): string {
    name + "=" + value
  }

  /** `url + f"&{name}={value}"`, the step both search urls repeat. */
  function AddField(url: string, name: string, value: string): string {
    url + "&" + name + "=" + value
  }

  /** The field for a parameter that is sent when it is not None. */
  function Given(name: string, value: Option<string>): seq<string> {
    if value.Some? then [Field(name, value.value)] else []
  }

  /** The field for a parameter that is sent when it is truthy. */
  function IfTruthy(name: string, value: Option<string>): seq<string> {
    if Truthy(value) then [Field(name, value.value)] else []
  }

  /** The fields of a `search` query in the order the server reads them:
      the query; `$from`, `$size` and `$search_after` when not None;
      `$select` and `$buckets` when truthy. */
  function SearchFields(query: string, select: Option<string>, buckets: Option<string>, searchFrom: Option<string>,
                        searchSize: Option<string>, searchAfter: Option<string>): seq<string> {
    [Field("$query", query)] + Given("$from", searchFrom) + Given("$size", searchSize)
    + Given("$search_after", searchAfter) + IfTruthy("$select", select) + IfTruthy("$buckets", buckets)
  }

  /** The fields of a `searchroot` query: `$from` and `$size` always, with
      None read as 0 and 100, and never `$search_after`. */
  function SearchRootFields(query: string, select: Option<string>, buckets: Option<string>,
                            searchFrom: Option<string>, searchSize: Option<string>): seq<string> {
    [Field("$query", query)]
    + [Field("$from", if searchFrom.None? then "0" else searchFrom.value)]
    + [Field("$size", if searchSize.None? then "100" else searchSize.value)]
    + IfTruthy("$select", select) + IfTruthy("$buckets", buckets)
  }

  /** Adding a field to a url that ends in a joined query joins one more
      field. */
  lemma {:induction false} AddFieldJoins(prefix: string, fields: seq<string>, name: string, value: string)
    requires |fields| >= 1
    ensures AddField(prefix + Join(fields, '&'), name, value) == prefix + Join(fields + [Field(name, value)], '&')
  {
    JoinSnoc(fields, Field(name, value), '&');
    FieldAppend(prefix, Join(fields, '&'), name, value);
  }

  /** A field added only when its parameter is given, or only when it is
      truthy, joins the field list it is added to. */
  lemma {:induction false} MaybeAddFieldJoins(prefix: string, fields: seq<string>, name: string,
                                              value: Option<string>, truthy: bool)
    requires |fields| >= 1
    ensures var add := if truthy then Truthy(value) else value.Some?;
            var more := if truthy then IfTruthy(name, value) else Given(name, value);
            (if add then AddField(prefix + Join(fields, '&'), name, value.value) else prefix + Join(fields, '&'))
              == prefix + Join(fields + more, '&')
  {
    var add := if truthy then Truthy(value) else value.Some?;
    if add {
      AddFieldJoins(prefix, fields, name, value.value);
    } else {
      var more := if truthy then IfTruthy(name, value) else Given(name, value);
      assert fields + more == fields;
    }
  }

  /** The concatenation `AddField` writes, regrouped around the field. */
  lemma {:induction false} FieldAppend(prefix: string, joined: string, name: string, value: string)
    ensures AddField(prefix + joined, name, value) == prefix + (joined + ['&'] + Field(name, value))
  {
    assert "&" == ['&'];
  }

  /** `search`'s url, built step by step as the method builds it. The
      search parameters are the text Python renders for them, or None. */
  function SearchUrl(baseUrl: string, query: string, select: Option<string>, buckets: Option<string>,
                     searchFrom: Option<string>, searchSize: Option<string>, searchAfter: Option<string>): (url: string)
    ensures url == baseUrl + "/search?" + Join(SearchFields(query, select, buckets, searchFrom, searchSize, searchAfter), '&')
  {
    var prefix := baseUrl + "/search?";
    var url0 := prefix + "$query=" + query;
    var url1 := if searchFrom.Some? then AddField(url0, "$from", searchFrom.value) else url0;
    var url2 := if searchSize.Some? then AddField(url1, "$size", searchSize.value) else url1;
    var url3 := if searchAfter.Some? then AddField(url2, "$search_after", searchAfter.value) else url2;
    var url4 := if Truthy(select) then AddField(url3, "$select", select.value) else url3;
    var url5 := if Truthy(buckets) then AddField(url4, "$buckets", buckets.value) else url4;
    var f0 := [Field("$query", query)];
    var f1 := f0 + Given("$from", searchFrom);
    var f2 := f1 + Given("$size", searchSize);
    var f3 := f2 + Given("$search_after", searchAfter);
    var f4 := f3 + IfTruthy("$select", select);
    var f5 := f4 + IfTruthy("$buckets", buckets);
    assert url0 == prefix + Join(f0, '&');
    MaybeAddFieldJoins(prefix, f0, "$from", searchFrom, false);
    MaybeAddFieldJoins(prefix, f1, "$size", searchSize, false);
    MaybeAddFieldJoins(prefix, f2, "$search_after", searchAfter, false);
    MaybeAddFieldJoins(prefix, f3, "$select", select, true);
    MaybeAddFieldJoins(prefix, f4, "$buckets", buckets, true);
    url5
  }

  /** `searchroot`'s url, built step by step as the method builds it. */
  function SearchRootUrl(baseUrl: string, query: string, select: Option<string>, buckets: Option<string>,
                         searchFrom: Option<string>, searchSize: Option<string>): (url: string)
    ensures url == baseUrl + "/searchroot?" + Join(SearchRootFields(query, select, buckets, searchFrom, searchSize), '&')
  {
    var prefix := baseUrl + "/searchroot?";
    var from := if searchFrom.None? then "0" else searchFrom.value;
    var size := if searchSize.None? then "100" else searchSize.value;
    var url0 := prefix + "$query=" + query;
    var url1 := AddField(url0, "$from", from);
    var url2 := AddField(url1, "$size", size);
    var url3 := if Truthy(select) then AddField(url2, "$select", select.value) else url2;
    var url4 := if Truthy(buckets) then AddField(url3, "$buckets", buckets.value) else url3;
    var f0 := [Field("$query", query)];
    var f1 := f0 + [Field("$from", from)];
    var f2 := f1 + [Field("$size", size)];
    var f3 := f2 + IfTruthy("$select", select);
    var f4 := f3 + IfTruthy("$buckets", buckets);
    assert url0 == prefix + Join(f0, '&');
    assert url1 == prefix + Join(f1, '&') by { AddFieldJoins(prefix, f0, "$from", from); }
    assert url2 == prefix + Join(f2, '&') by { AddFieldJoins(prefix, f1, "$size", size); }
    MaybeAddFieldJoins(prefix, f2, "$select", select, true);
    MaybeAddFieldJoins(prefix, f3, "$buckets", buckets, true);
    assert f4 == SearchRootFields(query, select, buckets, searchFrom, searchSize);
    url4
  }

  /** No parameter text holds the '&' that separates the fields. */
  predicate Plain(value: Option<string>) {
    value.Some? ==> '&' !in value.value
  }

  /** A field list built from plain texts has no '&' in any field. */
  lemma {:induction false} PlainFields(fields: seq<string>, name: string, value: Option<string>, truthy: bool)
    requires forall i :: 0 <= i < |fields| ==> '&' !in fields[i]
    requires '&' !in name && Plain(value)
    ensures var more := if truthy then IfTruthy(name, value) else Given(name, value);
            forall i :: 0 <= i < |fields + more| ==> '&' !in (fields + more)[i]
  {
    var more := if truthy then IfTruthy(name, value) else Given(name, value);
    if |more| == 1 {
      assert more[0] == name + "=" + value.value;
    }
  }

  /** A query string splits back into its fields when none holds '&'. */
  lemma {:induction false} QueryRoundTrip(prefix: string, fields: seq<string>)
    requires |fields| >= 1 && forall i :: 0 <= i < |fields| ==> '&' !in fields[i]
    ensures StartsWith(prefix + Join(fields, '&'), prefix)
    ensures Split((prefix + Join(fields, '&'))[|prefix|..], '&') == fields
  {
    SplitJoin(fields, '&');
    StartsWithConcat(prefix, Join(fields, '&'));
  }

  /** No field of a `search` query holds '&' when no parameter does. */
  lemma {:induction false} SearchFieldsPlain(query: string, select: Option<string>, buckets: Option<string>,
                          searchFrom: Option<string>, searchSize: Option<string>, searchAfter: Option<string>)
    requires '&' !in query && Plain(select) && Plain(buckets) && Plain(searchFrom) && Plain(searchSize) && Plain(searchAfter)
    ensures var fields := SearchFields(query, select, buckets, searchFrom, searchSize, searchAfter);
            forall i :: 0 <= i < |fields| ==> '&' !in fields[i]
  {
    var f0 := [Field("$query", query)];
    assert Field("$query", query) == "$query=" + query;
    PlainFields(f0, "$from", searchFrom, false);
    var f1 := f0 + Given("$from", searchFrom);
    PlainFields(f1, "$size", searchSize, false);
    var f2 := f1 + Given("$size", searchSize);
    PlainFields(f2, "$search_after", searchAfter, false);
    var f3 := f2 + Given("$search_after", searchAfter);
    PlainFields(f3, "$select", select, true);
    var f4 := f3 + IfTruthy("$select", select);
    PlainFields(f4, "$buckets", buckets, true);
  }

  /** Splitting the query string of a `search` url on '&' gives back its
      fields, in order, when no parameter holds an '&'. */
  lemma {:induction false} SearchUrlRoundTrip(baseUrl: string, query: string, select: Option<string>, buckets: Option<string>,
                           searchFrom: Option<string>, searchSize: Option<string>, searchAfter: Option<string>)
    requires '&' !in query && Plain(select) && Plain(buckets) && Plain(searchFrom) && Plain(searchSize) && Plain(searchAfter)
    ensures var url := SearchUrl(baseUrl, query, select, buckets, searchFrom, searchSize, searchAfter);
            var prefix := baseUrl + "/search?";
            StartsWith(url, prefix)
            && Split(url[|prefix|..], '&') == SearchFields(query, select, buckets, searchFrom, searchSize, searchAfter)
  {
    SearchFieldsPlain(query, select, buckets, searchFrom, searchSize, searchAfter);
    QueryRoundTrip(baseUrl + "/search?", SearchFields(query, select, buckets, searchFrom, searchSize, searchAfter));
  }

  /** No field of a `searchroot` query holds '&' when no parameter does. */
  lemma {:induction false} SearchRootFieldsPlain(query: string, select: Option<string>, buckets: Option<string>,
                              searchFrom: Option<string>, searchSize: Option<string>)
    requires '&' !in query && Plain(select) && Plain(buckets) && Plain(searchFrom) && Plain(searchSize)
    ensures var fields := SearchRootFields(query, select, buckets, searchFrom, searchSize);
            forall i :: 0 <= i < |fields| ==> '&' !in fields[i]
  {
    var from := if searchFrom.None? then "0" else searchFrom.value;
    var size := if searchSize.None? then "100" else searchSize.value;
    var f0 := [Field("$query", query)];
    assert Field("$query", query) == "$query=" + query;
    PlainFields(f0, "$from", Some(from), false);
    var f1 := f0 + Given("$from", Some(from));
    PlainFields(f1, "$size", Some(size), false);
    var f2 := f1 + Given("$size", Some(size));
    PlainFields(f2, "$select", select, true);
    var f3 := f2 + IfTruthy("$select", select);
    PlainFields(f3, "$buckets", buckets, true);
    assert f3 + IfTruthy("$buckets", buckets) == SearchRootFields(query, select, buckets, searchFrom, searchSize);
  }

  /** The same for `searchroot`, whose query always holds `$from` and
      `$size` and never `$search_after`. */
  lemma {:induction false} SearchRootUrlRoundTrip(baseUrl: string, query: string, select: Option<string>, buckets: Option<string>,
                               searchFrom: Option<string>, searchSize: Option<string>)
    requires '&' !in query && Plain(select) && Plain(buckets) && Plain(searchFrom) && Plain(searchSize)
    ensures var url := SearchRootUrl(baseUrl, query, select, buckets, searchFrom, searchSize);
            var prefix := baseUrl + "/searchroot?";
            StartsWith(url, prefix)
            && Split(url[|prefix|..], '&') == SearchRootFields(query, select, buckets, searchFrom, searchSize)
  {
    SearchRootFieldsPlain(query, select, buckets, searchFrom, searchSize);
    QueryRoundTrip(baseUrl + "/searchroot?", SearchRootFields(query, select, buckets, searchFrom, searchSize));
  }

  /** What an object url points at: the JSON document, its blob, or the
      blob's upload uri. */
  datatype Target = Document | Blob | BlobUri

  function TargetSuffix(t: Target): string {
    match t
    case Document => ""
    case Blob => "/blob"
    case BlobUri => "/blob/authuri"
  }

  /** "{base}/objects('{id}')" followed by the target's suffix. */
  function ObjectUrl(baseUrl: string, objectId: string, target: Target): string {
    baseUrl + "/objects('" + objectId + "')" + TargetSuffix(target)
  }

  /** The object id and target an object url names, read back as the
      server would: the id runs to the first "')". */
  function ParseObjectUrl(baseUrl: string, url: string): Option<(string, Target)> {
    var prefix := baseUrl + "/objects('";
    if !StartsWith(url, prefix) then None
    else
      var rest := url[|prefix|..];
      var j := Find(rest, "')");
      if j < 0 then None
      else
        var suffix := rest[j + 2..];
        if suffix == "" then Some((rest[..j], Document))
        else if suffix == "/blob" then Some((rest[..j], Blob))
        else if suffix == "/blob/authuri" then Some((rest[..j], BlobUri))
        else None
  }

  /** An object url names the object and the target it was built for,
      for an id without a quote. */
  lemma {:induction false} ObjectUrlRoundTrip(baseUrl: string, objectId: string, target: Target)
    requires '\'' !in objectId
    ensures ParseObjectUrl(baseUrl, ObjectUrl(baseUrl, objectId, target)) == Some((objectId, target))
  {
    var prefix := baseUrl + "/objects('";
    var rest := objectId + "')" + TargetSuffix(target);
    ObjectUrlParts(baseUrl, objectId, target);
    StartsWithConcat(prefix, rest);
    ObjectTail(objectId, TargetSuffix(target));
  }

  /** An object url is its prefix followed by the id, the closing "')"
      and the suffix. */
  lemma {:induction false} ObjectUrlParts(baseUrl: string, objectId: string, target: Target)
    ensures ObjectUrl(baseUrl, objectId, target) == (baseUrl + "/objects('") + (objectId + "')" + TargetSuffix(target))
  {
  }

  /** After the prefix, the first "')" ends a quote-free id. */
  lemma {:induction false} ObjectTail(objectId: string, suffix: string)
    requires '\'' !in objectId
    ensures var rest := objectId + "')" + suffix;
            Find(rest, "')") == |objectId| && rest[..|objectId|] == objectId && rest[|objectId| + 2..] == suffix
  {
    FindAfter(objectId, "')", suffix);
    var rest := objectId + "')" + suffix;
    assert rest[..|objectId|] == objectId;
    assert rest[|objectId| + 2..] == suffix;
  }

  /** The url `_post_objects` and `_put_objects` build when they are not
      given one: "{base}/objects", then "('{id}')" for a truthy object
      id, then "/blob" for a truthy blob. */
  function ObjectsUrl(baseUrl: string, objectId: Option<string>, blob: Option<Bytes>): (url: string)
    ensures Truthy(objectId) ==> url == ObjectUrl(baseUrl, objectId.value, if NonEmpty(blob) then Blob else Document)
    ensures !Truthy(objectId) ==> url == baseUrl + "/objects" + (if NonEmpty(blob) then "/blob" else "")
  {
    var url := baseUrl + "/objects";
    var url := if Truthy(objectId) then url + "('" + objectId.value + "')" else url;
    if NonEmpty(blob) then url + "/blob" else url
  }

  /** `_post_objects`: a falsy url is replaced by the built one. */
  function PostObjectsUrl(baseUrl: string, url: Option<string>, objectId: Option<string>, blob: Option<Bytes>): string {
    if !Truthy(url) then ObjectsUrl(baseUrl, objectId, blob) else url.value
  }

  /** `_put_objects`: only a url that is None is replaced. */
  function PutObjectsUrl(baseUrl: string, url: Option<string>, objectId: Option<string>, blob: Option<Bytes>): string {
    if url.None? then ObjectsUrl(baseUrl, objectId, blob) else url.value
  }

  /** A given url passes through both builders unchanged, except that
      `_post_objects` treats an empty url as missing while `_put_objects`
      keeps it. */
  lemma {:induction false} ObjectsUrlChoice(baseUrl: string, url: Option<string>, objectId: Option<string>, blob: Option<Bytes>)
    ensures Truthy(url) ==> PostObjectsUrl(baseUrl, url, objectId, blob) == url.value
                            && PutObjectsUrl(baseUrl, url, objectId, blob) == url.value
    ensures url.None? ==> PostObjectsUrl(baseUrl, url, objectId, blob) == PutObjectsUrl(baseUrl, url, objectId, blob)
    ensures url.None? && !Truthy(objectId) && NonEmpty(blob) ==>
              PutObjectsUrl(baseUrl, url, objectId, blob) == baseUrl + "/objects/blob"
    ensures url == Some("") ==> PutObjectsUrl(baseUrl, url, objectId, blob) == ""
                                && StartsWith(PostObjectsUrl(baseUrl, url, objectId, blob), baseUrl + "/objects")
  {
    if url == Some("") {
      var built := ObjectsUrl(baseUrl, objectId, blob);
      var rest := if Truthy(objectId) then "('" + objectId.value + "')" + TargetSuffix(if NonEmpty(blob) then Blob else Document)
                  else if NonEmpty(blob) then "/blob" else "";
      assert built == baseUrl + "/objects" + rest;
      StartsWithConcat(baseUrl + "/objects", rest);
    }
  }

  /** The methods of `CallSumoApi` that send one request, with their
      arguments. */
  datatype ApiCall =
    | UserData
    | UserPhoto
    | UserProfile
    | Search(query: string, select: Option<string>, buckets: Option<string>, searchFrom: Option<string>,
             searchSize: Option<string>, searchAfter: Option<string>)
    | SearchRoot(query: string, select: Option<string>, buckets: Option<string>, searchFrom: Option<string>,
                 searchSize: Option<string>)
    | GetObjects
    | GetJson(objectId: string)
    | SaveTopLevelJson(json: Option<JsonObject>)
    | UpdateTopLevelJson(json: Option<JsonObject>, id: Option<string>, url: Option<string>)
    | SaveChildLevelJson(parentId: string, json: Option<JsonObject>)
    | UpdateChildLevelJson(json: Option<JsonObject>, id: Option<string>, url: Option<string>)
    | DeleteObject(objectId: string)
    | SaveBlob(blob: Option<Bytes>, id: Option<string>, url: Option<string>)
    | GetBlob(objectId: string)
    | DeleteBlob(objectId: string)
    | GetBlobUri(objectId: string)
    | AggregateSurfaces(operation: JsonValue, objectIds: JsonValue, nanAsZero: JsonValue)

  const MissingTarget := "Error: object ID and url cannot be both null."

  /** The default of `search`'s and `searchroot`'s paging parameters. */
  const DefaultFrom: Option<string> := Some("0")
  const DefaultSize: Option<string> := Some("100")

  /** The body `aggregate_surfaces` posts. */
  function AggregateJson(operation: JsonValue, objectIds: JsonValue, nanAsZero: JsonValue): (json: JsonObject)
    ensures json.Keys == {"operation", "object_ids", "nan_as_zero"}
    ensures json["operation"] == operation && json["object_ids"] == objectIds && json["nan_as_zero"] == nanAsZero
  {
    map["operation" := operation, "object_ids" := objectIds, "nan_as_zero" := nanAsZero]
  }

  /** The `CallAzureApi` operation a method hands over, or the
      `ValueError` an update without an object id or url raises first. */
  function OperationFor(baseUrl: string, call: ApiCall): Result<AzureApi.Operation> {
    match call
    case UserData => Ok(AzureApi.GetJson(baseUrl + "/userdata"))
    case UserPhoto => Ok(AzureApi.GetImage(baseUrl + "/userphoto"))
    case UserProfile => Ok(AzureApi.GetJson(baseUrl + "/userprofile"))
    case Search(query, select, buckets, searchFrom, searchSize, searchAfter) =>
      Ok(AzureApi.GetJson(SearchUrl(baseUrl, query, select, buckets, searchFrom, searchSize, searchAfter)))
    case SearchRoot(query, select, buckets, searchFrom, searchSize) =>
      Ok(AzureApi.GetJson(SearchRootUrl(baseUrl, query, select, buckets, searchFrom, searchSize)))
    case GetObjects => Ok(AzureApi.GetJson(baseUrl + "/Objects"))
    case GetJson(id) => Ok(AzureApi.GetJson(ObjectUrl(baseUrl, id, Document)))
    case SaveTopLevelJson(json) => Ok(AzureApi.PostObject(PostObjectsUrl(baseUrl, None, None, None), None, json))
    case UpdateTopLevelJson(json, id, url) =>
      if !Truthy(id) && !Truthy(url) then Raise(ValueError(MissingTarget))
      else Ok(AzureApi.PutObject(PutObjectsUrl(baseUrl, url, id, None), None, json))
    case SaveChildLevelJson(parentId, json) =>
      Ok(AzureApi.PostObject(PostObjectsUrl(baseUrl, None, Some(parentId), None), None, json))
    case UpdateChildLevelJson(json, id, url) =>
      if !Truthy(id) && !Truthy(url) then Raise(ValueError(MissingTarget))
      else Ok(AzureApi.PutObject(PutObjectsUrl(baseUrl, url, id, None), None, json))
    case DeleteObject(id) => Ok(AzureApi.DeleteObject(ObjectUrl(baseUrl, id, Document)))
    case SaveBlob(blob, id, url) => Ok(AzureApi.PutObject(PutObjectsUrl(baseUrl, url, id, blob), blob, None))
    case GetBlob(id) => Ok(AzureApi.GetContent(ObjectUrl(baseUrl, id, Blob)))
    case DeleteBlob(id) => Ok(AzureApi.DeleteObject(ObjectUrl(baseUrl, id, Blob)))
    case GetBlobUri(id) => Ok(AzureApi.GetContent(ObjectUrl(baseUrl, id, BlobUri)))
    case AggregateSurfaces(operation, objectIds, nanAsZero) =>
      Ok(AzureApi.PostObject(PostObjectsUrl(baseUrl, Some(baseUrl + "/aggregate"), None, None), None,
                             Some(AggregateJson(operation, objectIds, nanAsZero))))
  }

  /** Only an update with neither a truthy object id nor a truthy url
      fails before any request; the object and blob methods address the
      object they name (read back with `ParseObjectUrl`), a save with a
      parent id posts under the parent, and `aggregate_surfaces` posts
      its three keys to "{base}/aggregate". */
  lemma {:induction false} OperationTargets(baseUrl: string, call: ApiCall)
    ensures OperationFor(baseUrl, call).Raise? <==>
              (call.UpdateTopLevelJson? || call.UpdateChildLevelJson?) && !Truthy(call.id) && !Truthy(call.url)
    ensures OperationFor(baseUrl, call).Raise? ==> OperationFor(baseUrl, call).error == ValueError(MissingTarget)
    ensures (call.GetJson? || call.DeleteObject?) && '\'' !in call.objectId ==>
              ParseObjectUrl(baseUrl, OperationFor(baseUrl, call).value.url) == Some((call.objectId, Document))
    ensures (call.GetBlob? || call.DeleteBlob?) && '\'' !in call.objectId ==>
              ParseObjectUrl(baseUrl, OperationFor(baseUrl, call).value.url) == Some((call.objectId, Blob))
    ensures call.GetBlobUri? && '\'' !in call.objectId ==>
              ParseObjectUrl(baseUrl, OperationFor(baseUrl, call).value.url) == Some((call.objectId, BlobUri))
    ensures call.SaveChildLevelJson? && call.parentId != "" ==>
              OperationFor(baseUrl, call).value.url == ObjectUrl(baseUrl, call.parentId, Document)
    ensures call.SaveTopLevelJson? ==> OperationFor(baseUrl, call).value.url == baseUrl + "/objects"
    ensures call.AggregateSurfaces? ==>
              var op := OperationFor(baseUrl, call).value;
              op.PostObject? && op.url == baseUrl + "/aggregate" && op.blob.None? && op.json.Some?
              && op.json.value.Keys == {"operation", "object_ids", "nan_as_zero"}
  {
    match call
    case GetJson(id) => if '\'' !in id { ObjectUrlRoundTrip(baseUrl, id, Document); }
    case DeleteObject(id) => if '\'' !in id { ObjectUrlRoundTrip(baseUrl, id, Document); }
    case GetBlob(id) => if '\'' !in id { ObjectUrlRoundTrip(baseUrl, id, Blob); }
    case DeleteBlob(id) => if '\'' !in id { ObjectUrlRoundTrip(baseUrl, id, Blob); }
    case GetBlobUri(id) => if '\'' !in id { ObjectUrlRoundTrip(baseUrl, id, BlobUri); }
    case _ =>
  }

  /** The operations of the two saves `save_blob_and_json` makes. */
  lemma {:induction false} SaveOperations(baseUrl: string, parentId: string, metadata: Option<JsonObject>, blob: Option<Bytes>,
                       blobUrl: Option<string>)
    ensures OperationFor(baseUrl, SaveChildLevelJson(parentId, metadata))
            == Ok(AzureApi.PostObject(PostObjectsUrl(baseUrl, None, Some(parentId), None), None, metadata))
    ensures OperationFor(baseUrl, SaveBlob(blob, None, blobUrl))
            == Ok(AzureApi.PutObject(PutObjectsUrl(baseUrl, blobUrl, None, blob), blob, None))
  {
  }

  /** `.get("blob_url")` on the JSON of a response, whose `json()` gave
      `body`: a body that did not decode raises what the decoder raised,
      one that is not a JSON object has no `get` and raises
      `AttributeError`, and an absent key or a JSON null is None. Any
      other value is returned as it is, whatever its JSON type. */
  function BlobUrlOf(body: Result<JsonValue>): (r: Result<Option<JsonValue>>)
    ensures r.Raise? <==> body.Raise? || !body.value.JObject?
    ensures r.Raise? && body.Raise? ==> r.error == body.error
    ensures r.Raise? && body.Ok? ==> r.error.AttributeError?
    ensures r.Ok? ==> (r.value.None? <==> "blob_url" !in body.value.fields || body.value.fields["blob_url"].JNull?)
    ensures r.Ok? && r.value.Some? ==> r.value.value == body.value.fields["blob_url"]
  {
    match body
    case Raise(e) => Raise(e)
    case Ok(JObject(fields)) =>
      if "blob_url" !in fields || fields["blob_url"].JNull? then Ok(None) else Ok(Some(fields["blob_url"]))
    case Ok(_) => Raise(AttributeError("get"))
  }

  /** `save_blob(blob, url=u)` once `put`'s credential step gave
      `credential`: a string url, or None for "{base}/objects/blob", is
      sent as `put` sends it. Any other JSON value passes through
      `_put_objects` unchanged; `put` then processes the credential, checks
      the payloads and computes Content-Length, and raises
      `AttributeError` at `url.find("sig=")` before anything is sent. */
  function PutBlobOutcome(credential: Result<string>, baseUrl: string, url: Option<JsonValue>, blob: Option<Bytes>,
                          x: Exchange): (r: (Result<Reply>, Option<Request>))
    ensures url.None? ==>
              r == AzureApi.SendOutcome(credential, AzureApi.PutObject(PutObjectsUrl(baseUrl, None, None, blob), blob, None), x)
    ensures url.Some? && url.value.JStr? ==>
              r == AzureApi.SendOutcome(credential, AzureApi.PutObject(PutObjectsUrl(baseUrl, Some(url.value.s), None, blob), blob, None), x)
    ensures url.Some? && !url.value.JStr? ==> r.1.None? && r.0.Raise?
    ensures url.Some? && !url.value.JStr? && credential.Raise? ==> r.0 == Raise(credential.error)
    ensures url.Some? && !url.value.JStr? && credential.Ok? && blob.None? ==> r.0.error.TypeError?
    ensures url.Some? && !url.value.JStr? && credential.Ok? && blob.Some? ==> r.0 == Raise(AttributeError("find"))
  {
    match url
    case None => AzureApi.SendOutcome(credential, AzureApi.PutObject(PutObjectsUrl(baseUrl, None, None, blob), blob, None), x)
    case Some(JStr(s)) => AzureApi.SendOutcome(credential, AzureApi.PutObject(PutObjectsUrl(baseUrl, Some(s), None, blob), blob, None), x)
    case Some(_) =>
      if credential.Raise? then (Raise(credential.error), None)
      else
        match ContentLength(blob, None)
        case Raise(e) => (Raise(e), None)
        case Ok(_) => (Raise(AttributeError("find")), None)
  }

  /** What `save_blob_and_json` returns, the two requests it sends, and the
      state of the `CallAzureApi` (its bearer and `Auth` fields), the files
      and the provider's trace after it. */
  datatype SaveOutcome = SaveOutcome(result: Result<Reply>, posted: Option<Request>, put: Option<Request>,
                                     bearer: Option<string>, fields: LegacyAuth.AuthFields, fs: FileSystem.FsState,
                                     calls: seq<Call>)

  /** `save_blob_and_json` from the `CallAzureApi`'s state: the metadata
      call, with its own credential step; then, once it returned a
      response, `.json().get("blob_url")`; then the blob call, with a
      second credential step from the state the first one left. The first
      response is returned unless the blob call raises. */
  function SaveBlobAndJsonFlow(baseUrl: string, parentId: string, metadata: Option<JsonObject>, blob: Option<Bytes>,
                               arg: Option<string>, auth: Option<(LegacyAuth.Settings, LegacyAuth.AuthFields)>,
                               stored: Option<string>, idp: IdentityProvider, fs: FileSystem.FsState, now: int,
                               first: Exchange, second: Exchange, decode: Bytes -> Result<JsonValue>): SaveOutcome
  {
    var t1 := AzureApi.ProcessTokenFlow(arg, auth, stored, idp, fs, now);
    var post := AzureApi.SendOutcome(t1.result, AzureApi.PostObject(PostObjectsUrl(baseUrl, None, Some(parentId), None), None, metadata), first);
    if post.0.Raise? then SaveOutcome(post.0, post.1, None, t1.bearer, t1.fields, t1.fs, t1.calls)
    else
      match BlobUrlOf(decode(first.response.content))
      case Raise(e) => SaveOutcome(Raise(e), post.1, None, t1.bearer, t1.fields, t1.fs, t1.calls)
      case Ok(url) =>
        var auth2 := if auth.Some? then Some((auth.value.0, t1.fields)) else None;
        var t2 := AzureApi.ProcessTokenFlow(arg, auth2, t1.bearer, idp, t1.fs, now);
        var put := PutBlobOutcome(t2.result, baseUrl, url, blob, second);
        SaveOutcome(if put.0.Raise? then put.0 else post.0, post.1, put.1, t2.bearer, t2.fields, t2.fs, t1.calls + t2.calls)
  }

  /** The order of `save_blob_and_json`. The metadata is posted under the
      parent exactly when the first credential step passes and the
      metadata is a non-empty dict (an empty or missing one makes the
      Content-Length `len(None)` raise `TypeError`); the blob is put only
      after that response came back and its `blob_url` was a string or
      absent, and to that url; a body without a usable `get` raises before
      any put, and so does a `blob_url` of any other JSON type; a put that
      raises decides the result, and otherwise the result is the first
      response. */
  lemma {:induction false} SaveBlobAndJsonSteps(baseUrl: string, parentId: string, metadata: Option<JsonObject>,
                                              blob: Option<Bytes>, arg: Option<string>,
                                              auth: Option<(LegacyAuth.Settings, LegacyAuth.AuthFields)>,
                                              stored: Option<string>, idp: IdentityProvider, fs: FileSystem.FsState, now: int,
                                              first: Exchange, second: Exchange, decode: Bytes -> Result<JsonValue>)
    ensures var o := SaveBlobAndJsonFlow(baseUrl, parentId, metadata, blob, arg, auth, stored, idp, fs, now,
                                         first, second, decode);
            var c1 := AzureApi.ProcessTokenFlow(arg, auth, stored, idp, fs, now).result;
            (o.posted.Some? <==> c1.Ok? && Filled(metadata))
            && (c1.Raise? ==> o.result == Raise(c1.error))
            && (c1.Ok? && !Filled(metadata) ==> o.result.Raise? && o.result.error.TypeError?)
            && (o.posted.Some? ==> o.posted.value.verb == POST
                                   && o.posted.value.url == PostObjectsUrl(baseUrl, None, Some(parentId), None)
                                   && o.posted.value.json == metadata && o.posted.value.blob.None?)
            && (o.posted.None? ==> o.result.Raise? && o.put.None?)
            && (o.posted.Some? && Finish(first, true, AsResponse).Raise? ==>
                  o.result == Finish(first, true, AsResponse) && o.put.None?)
            && (o.put.Some? ==> o.posted.Some? && Finish(first, true, AsResponse).Ok? && first.Delivered?
                                && o.put.value.verb == PUT && o.put.value.blob == blob
                                && (Finish(second, true, AsResponse).Raise? ==> o.result == Finish(second, true, AsResponse))
                                && (Finish(second, true, AsResponse).Ok? ==> o.result == Finish(first, true, AsResponse)))
            && (o.result.Ok? ==> o.result == Finish(first, true, AsResponse) && o.put.Some?
                                 && Finish(second, true, AsResponse).Ok?)
    ensures var o := SaveBlobAndJsonFlow(baseUrl, parentId, metadata, blob, arg, auth, stored, idp, fs, now,
                                         first, second, decode);
            o.posted.Some? && Finish(first, true, AsResponse).Ok? && first.Delivered? ==>
              var lookup := BlobUrlOf(decode(first.response.content));
              (lookup.Raise? ==> o.result == Raise(lookup.error) && o.put.None?)
              && (lookup.Ok? && lookup.value.Some? && !lookup.value.value.JStr? ==> o.put.None? && o.result.Raise?)
              && (o.put.Some? ==> lookup.Ok? && (lookup.value.None? || lookup.value.value.JStr?)
                                  && o.put.value.url == PutObjectsUrl(baseUrl, if lookup.value.None? then None
                                                                             else Some(lookup.value.value.s), None, blob))
  {
    var t1 := AzureApi.ProcessTokenFlow(arg, auth, stored, idp, fs, now);
    var op1 := AzureApi.PostObject(PostObjectsUrl(baseUrl, None, Some(parentId), None), None, metadata);
    AzureApi.CredentialFirst(t1.result, op1, first);
    AzureApi.SendOutcomeCarries(t1.result, op1, first);
    if AzureApi.SendOutcome(t1.result, op1, first).0.Ok? && BlobUrlOf(decode(first.response.content)).Ok? {
      var url := BlobUrlOf(decode(first.response.content)).value;
      var auth2 := if auth.Some? then Some((auth.value.0, t1.fields)) else None;
      var t2 := AzureApi.ProcessTokenFlow(arg, auth2, t1.bearer, idp, t1.fs, now);
      if url.None? || url.value.JStr? {
        var text := if url.None? then None else Some(url.value.s);
        var op2 := AzureApi.PutObject(PutObjectsUrl(baseUrl, text, None, blob), blob, None);
        AzureApi.SendOutcomeCarries(t2.result, op2, second);
      }
    }
  }

  lemma {:induction false} SeqConcatAssoc<T>(a: seq<T>, b: seq<T>, c: seq<T>)
    ensures (a + b) + c == a + (b + c)
  {
  }

  /** The resource and client ids `__init__` uses: each given truthy id,
      else the environment's registration, whose lookup raises `KeyError`
      for an unknown environment only when a default is needed. */
  function Ids(env: string, resourceId: Option<string>, clientId: Option<string>): (r: Result<(string, string)>)
    ensures r.Raise? <==> (!Truthy(resourceId) || !Truthy(clientId)) && !Config.IsAppEnvironment(env)
    ensures r.Raise? ==> r.error == KeyError(env)
    ensures r.Ok? ==> r.value.0 == (if Truthy(resourceId) then resourceId.value else Config.AppRegistration[env].resourceId)
    ensures r.Ok? ==> r.value.1 == (if Truthy(clientId) then clientId.value else Config.AppRegistration[env].clientId)
  {
    if !Truthy(resourceId) && env !in Config.AppRegistration then Raise(KeyError(env))
    else
      var resource := if Truthy(resourceId) then resourceId.value else Config.AppRegistration[env].resourceId;
      if !Truthy(clientId) && env !in Config.AppRegistration then Raise(KeyError(env))
      else
        var client := if Truthy(clientId) then clientId.value else Config.AppRegistration[env].clientId;
        Ok((resource, client))
  }

  /** An unknown environment is accepted when both ids are given, and a
      known one with no ids gets its registration's pair. */
  lemma {:induction false} IdsDefaults(env: string, resourceId: string, clientId: string)
    ensures resourceId != "" && clientId != "" ==>
              Ids(env, Some(resourceId), Some(clientId)) == Ok((resourceId, clientId))
    ensures Config.IsAppEnvironment(env) ==>
              Ids(env, None, Some("")) == Ok((Config.AppRegistration[env].resourceId, Config.AppRegistration[env].clientId))
  {
  }

  class CallSumoApi {
    const baseUrl: string
    const azure: AzureApi.CallAzureApi

    constructor (baseUrl: string, azure: AzureApi.CallAzureApi)
      ensures this.baseUrl == baseUrl && this.azure == azure
    {
      this.baseUrl := baseUrl;
      this.azure := azure;
    }

    /** One of the methods in `ApiCall`, with its `bearer` argument: the
        update check first, then `CallAzureApi` with the operation. */
    method Call(host: Host, idp: IdentityProvider, now: int, call: ApiCall, bearer: Option<string>, x: Exchange)
      returns (r: Result<Reply>, sent: Option<Request>)
      requires azure.Valid()
      modifies azure, host, azure.auth, if azure.auth != null then {azure.auth.cache} else {}
      ensures OperationFor(baseUrl, call).Raise? ==>
                r == Raise(OperationFor(baseUrl, call).error) && sent.None?
                && unchanged(azure) && host.fs == old(host.fs) && host.calls == old(host.calls)
      ensures OperationFor(baseUrl, call).Ok? ==>
                var t := AzureApi.ProcessTokenFlow(bearer, old(azure.AuthState(host)), old(azure.bearer), idp, old(host.fs), now);
                azure.bearer == t.bearer && host.fs == t.fs && host.calls == old(host.calls) + t.calls
                && (azure.auth != null ==> azure.auth.State() == t.fields)
                && (r, sent) == AzureApi.SendOutcome(t.result, OperationFor(baseUrl, call).value, x)
      ensures sent.None? ==> r.Raise?
      ensures sent.Some? ==> OperationFor(baseUrl, call).Ok? && AzureApi.Carries(sent.value, OperationFor(baseUrl, call).value)
                             && r == Finish(x, AzureApi.CatchesProxy(OperationFor(baseUrl, call).value),
                                            AzureApi.ShapeOf(OperationFor(baseUrl, call).value))
      ensures host.exitHooks == old(host.exitHooks)
      ensures azure.Valid()
    {
      var op := OperationFor(baseUrl, call);
      if op.Raise? {
        return Raise(op.error), None;
      }
      ghost var t := AzureApi.ProcessTokenFlow(bearer, azure.AuthState(host), azure.bearer, idp, host.fs, now);
      r, sent := azure.Send(host, idp, now, op.value, bearer, x);
      AzureApi.SendOutcomeCarries(t.result, op.value, x);
    }

    /** `save_blob_and_json`: the metadata is posted under the parent;
        the blob is then put to the `blob_url` of the response's JSON
        (`decode` is the response's `json()`), whose result is discarded
        unless it raises. A response without `blob_url` sends the blob to
        "{base}/objects/blob"; one whose body is not a JSON object raises
        before anything is put, and so does one whose `blob_url` is
        neither a string nor null, once the second credential step ran. */
    method SaveBlobAndJson(host: Host, idp: IdentityProvider, now: int, parentId: string, metadata: Option<JsonObject>,
                           blob: Option<Bytes>, bearer: Option<string>, first: Exchange, second: Exchange,
                           decode: Bytes -> Result<JsonValue>)
      returns (r: Result<Reply>, posted: Option<Request>, put: Option<Request>)
      requires azure.Valid()
      modifies azure, host, azure.auth, if azure.auth != null then {azure.auth.cache} else {}
      ensures var o := SaveBlobAndJsonFlow(baseUrl, parentId, metadata, blob, bearer, old(azure.AuthState(host)),
                                           old(azure.bearer), idp, old(host.fs), now, first, second, decode);
              r == o.result && posted == o.posted && put == o.put
              && azure.bearer == o.bearer && host.fs == o.fs && host.calls == old(host.calls) + o.calls
              && (azure.auth != null ==> azure.auth.State() == o.fields)
      ensures host.exitHooks == old(host.exitHooks)
      ensures azure.Valid()
    {
      ghost var a0, b0, fs0, calls0 := azure.AuthState(host), azure.bearer, host.fs, host.calls;
      ghost var o := SaveBlobAndJsonFlow(baseUrl, parentId, metadata, blob, bearer, a0, b0, idp, fs0, now,
                                         first, second, decode);
      ghost var t1 := AzureApi.ProcessTokenFlow(bearer, a0, b0, idp, fs0, now);
      SaveOperations(baseUrl, parentId, metadata, blob, None);
      var metadataOp := OperationFor(baseUrl, SaveChildLevelJson(parentId, metadata)).value;
      r, posted := azure.Send(host, idp, now, metadataOp, bearer, first);
      put := None;
      if r.Raise? {
        assert o == SaveOutcome(r, posted, None, t1.bearer, t1.fields, t1.fs, t1.calls);
        return;
      }
      ghost var a1 := if a0.Some? then Some((a0.value.0, t1.fields)) else None;
      assert azure.AuthState(host) == a1;
      var lookup := BlobUrlOf(decode(first.response.content));
      if lookup.Raise? {
        assert o == SaveOutcome(Raise(lookup.error), posted, None, t1.bearer, t1.fields, t1.fs, t1.calls);
        return Raise(lookup.error), posted, put;
      }
      ghost var t2 := AzureApi.ProcessTokenFlow(bearer, a1, t1.bearer, idp, t1.fs, now);
      if lookup.value.Some? && !lookup.value.value.JStr? {
        // `put` gets the value unchanged and has no `find` to call on it.
        var credential := azure.ProcessToken(host, idp, now, bearer);
        assert host.calls == calls0 + (t1.calls + t2.calls) by {
          assert host.calls == (calls0 + t1.calls) + t2.calls;
          SeqConcatAssoc(calls0, t1.calls, t2.calls);
        }
        if credential.Raise? {
          r := Raise(credential.error);
        } else {
          var length := ContentLength(blob, None);
          r := if length.Raise? then Raise(length.error) else Raise(AttributeError("find"));
        }
        assert o == SaveOutcome(r, posted, None, t2.bearer, t2.fields, t2.fs, t1.calls + t2.calls);
        return;
      }
      var blobUrl := if lookup.value.None? then None else Some(lookup.value.value.s);
      SaveOperations(baseUrl, parentId, metadata, blob, blobUrl);
      var blobOp := OperationFor(baseUrl, SaveBlob(blob, None, blobUrl)).value;
      var stored, sent := azure.Send(host, idp, now, blobOp, bearer, second);
      put := sent;
      assert host.calls == calls0 + (t1.calls + t2.calls) by {
        assert host.calls == (calls0 + t1.calls) + t2.calls;
        SeqConcatAssoc(calls0, t1.calls, t2.calls);
      }
      if stored.Raise? {
        assert o == SaveOutcome(stored, posted, put, t2.bearer, t2.fields, t2.fs, t1.calls + t2.calls);
        return Raise(stored.error), posted, put;
      }
      assert o == SaveOutcome(r, posted, put, t2.bearer, t2.fields, t2.fs, t1.calls + t2.calls);
    }
  }

  /** `CallSumoApi(env, resource_id, client_id, outside_token, writeback)`:
      the base url of the environment, the ids, then the `CallAzureApi`. */
  method Create(host: Host, idp: IdentityProvider, now: int, env: string, resourceId: Option<string>,
                clientId: Option<string>, outsideToken: bool, writeback: bool) returns (r: Result<CallSumoApi>)
    modifies host
    ensures Ids(env, resourceId, clientId).Raise? ==>
              r == Raise(Ids(env, resourceId, clientId).error) && host.fs == old(host.fs) && host.calls == old(host.calls)
    ensures r.Ok? ==> fresh(r.value) && r.value.baseUrl == Client.BaseUrl(env) && r.value.azure.Valid()
                      && Ids(env, resourceId, clientId).Ok?
                      && r.value.azure.resourceId == Ids(env, resourceId, clientId).value.0
                      && r.value.azure.clientId == Ids(env, resourceId, clientId).value.1
                      && r.value.azure.writeback == writeback
    ensures r.Ok? ==> fresh(r.value.azure)
    ensures outsideToken && Ids(env, resourceId, clientId).Ok? ==>
              r.Ok? && r.value.azure.auth == null && r.value.azure.bearer.None?
              && host.fs == old(host.fs) && host.calls == old(host.calls)
    ensures !outsideToken && Ids(env, resourceId, clientId).Ok? ==>
              var s := LegacyAuth.InitialSettings(host.home, host.platform, Ids(env, resourceId, clientId).value.0, false);
              var a := LegacyAuth.AuthenticateFlow(s, LegacyAuth.InitialFields(s, idp.accounts, old(host.fs)), idp, old(host.fs), now);
              var g := LegacyAuth.GetTokenFlow(s, a.fields, idp, a.fs, now);
              (a.result.Raise? ==> r == Raise(a.result.error) && host.fs == a.fs
                                   && host.calls == old(host.calls) + [GetAccounts] + a.calls)
              && (a.result.Ok? ==>
                    host.fs == g.fs && host.calls == old(host.calls) + [GetAccounts] + a.calls + g.calls
                    && (g.result.Raise? ==> r == Raise(g.result.error))
                    && (g.result.Ok? ==> r.Ok? && r.value.azure.auth != null && fresh(r.value.azure.auth)
                                         && !r.value.azure.auth.writeback
                                         && r.value.azure.auth.State() == g.fields
                                         && r.value.azure.bearer == Some(Bearer(g.result.value))))
    ensures host.exitHooks == old(host.exitHooks)
  {
    var baseUrl := Client.BaseUrl(env);
    var ids := Ids(env, resourceId, clientId);
    if ids.Raise? {
      return Raise(ids.error);
    }
    var azure := AzureApi.Create(host, idp, now, ids.value.0, ids.value.1, outsideToken, writeback);
    if azure.Raise? {
      return Raise(azure.error);
    }
    var api := new CallSumoApi(baseUrl, azure.value);
    r := Ok(api);
  }
}

=== FILE: config.dfy ===
/**
 * The fixed environment registry (src/sumo/wrapper/config.py): the app
 * registrations of the Sumo API and of the surface aggregation service,
 * the tenant and the identity provider's host.
 */
module Config {

  /** One entry of a registry: the `CLIENT_ID` and `RESOURCE_ID` keys. */
  datatype Registration = Registration(clientId: string, resourceId: string)

  const ProdClientId := "d57a8f87-4e28-4391-84d6-34356d5876a2"
  const ProdResourceId := "9e5443dd-3431-4690-9617-31eed61cb55a"
  const DevClientId := "1826bd7c-582f-4838-880d-5b4da5c3eea2"
  const DevResourceId := "88d2b022-3539-4dda-9e66-853801334a86"

  const AppRegistration: map<string, Registration> := map[
    "prod" := Registration(ProdClientId, ProdResourceId),
    "test" := Registration(ProdClientId, ProdResourceId),
    "dev" := Registration(DevClientId, DevResourceId),
    "preview" := Registration(DevClientId, DevResourceId),
    "localhost" := Registration(DevClientId, DevResourceId)
  ]

  const TenantId := "3aa4a235-b6e2-48d5-9195-7fcf05b459b0"

  const AuthorityHostUri := "https://login.microsoftonline.com"

  const AggClientId := "6311fb13-81e5-4393-ab8b-13b369fab92d"
  const AggProdResourceId := "784f0baa-013f-4fbf-b28a-76d72b5e8d5c"
  const AggDevResourceId := "4d631410-6983-4fdb-b20c-2e2ba0c0d506"

  const AggAppRegistration: map<string, Registration> := map[
    "prod" := Registration(AggClientId, AggProdResourceId),
    "test" := Registration(AggClientId, AggProdResourceId),
    "dev" := Registration(AggClientId, AggDevResourceId),
    "preview" := Registration(AggClientId, AggDevResourceId),
    "localhost" := Registration(AggClientId, AggDevResourceId)
  ]

  /** The environment names the client knows. */
  const Environments: set<string> := {"prod", "test", "dev", "preview", "localhost"}

  /** `env in APP_REGISTRATION`, the check both Sumo clients make. */
  predicate IsAppEnvironment(env: string) {
    env in AppRegistration
  }

  /** `env in AGG_APP_REGISTRATION`, the aggregation client's check. */
  predicate IsAggEnvironment(env: string) {
    env in AggAppRegistration
  }

  /** Both registries have exactly the five environments as keys. */
  lemma {:induction false} RegistryKeys()
    ensures AppRegistration.Keys == Environments
    ensures AggAppRegistration.Keys == Environments
    ensures forall env :: IsAppEnvironment(env) <==> IsAggEnvironment(env)
  {
  }

  /** prod and test share one registration, dev, preview and localhost
      another, and the two differ. */
  lemma {:induction false} AppRegistrationSharing()
    ensures AppRegistration["prod"] == AppRegistration["test"]
    ensures AppRegistration["dev"] == AppRegistration["preview"] == AppRegistration["localhost"]
    ensures AppRegistration["prod"].clientId != AppRegistration["dev"].clientId
    ensures AppRegistration["prod"].resourceId != AppRegistration["dev"].resourceId
  {
  }

  /** The aggregation service uses one client id everywhere and two
      resources, split the same way as the Sumo API's. */
  lemma {:induction false} AggRegistrationSharing()
    ensures forall env :: env in AggAppRegistration ==> AggAppRegistration[env].clientId == AggClientId
    ensures AggAppRegistration["prod"] == AggAppRegistration["test"]
    ensures AggAppRegistration["dev"] == AggAppRegistration["preview"] == AggAppRegistration["localhost"]
    ensures AggAppRegistration["prod"].resourceId != AggAppRegistration["dev"].resourceId
  {
  }
}

=== FILE: decorators.dfy ===
/**
 * The decorators of src/sumo/wrapper/_decorators.py: `raise_for_status`,
 * `http_unpack`, the two retry predicates and `http_retry`, which wraps
 * a request function in tenacity's retrying loop.
 *
 * A call of the wrapped function is modelled by its outcome: the n-th
 * call (counting from 0) returns a response or raises, as `attempt(n)`
 * says. The waits between calls are left out.
 */
module Decorators {
  import opened Wrappers
  import opened Text
  import opened Exceptions
  import opened Http
  import opened RequestErrors
  import Client

  /** `raise_for_status`: the wrapped function's exception propagates; a
      response outside 2xx raises httpx's `HTTPStatusError`; any other
      response is returned as it is. */
  function RaiseForStatus(outcome: Result<Response>): (r: Result<Response>)
    ensures outcome.Raise? ==> r == outcome
    ensures outcome.Ok? && 200 <= outcome.value.status <= 299 ==> r == outcome
    ensures outcome.Ok? && !(200 <= outcome.value.status <= 299) ==> r == Raise(HttpStatusError(outcome.value.status))
  {
    match outcome
    case Raise(e) => Raise(e)
    case Ok(resp) => if 200 <= resp.status <= 299 then Ok(resp) else Raise(HttpStatusError(resp.status))
  }

  /** `http_unpack`: the `Content-Type` header, looked up without regard to
      case, picks raw bytes for "application/octet-stream...", the decoded
      body for "application/json..." and the text otherwise; a response
      without the header raises `KeyError`. */
  function HttpUnpack(resp: Response): (r: Result<Reply>)
    ensures r.Raise? <==> ResponseHeader(resp.headers, "Content-Type").None?
    ensures r.Raise? ==> r.error == KeyError("Content-Type")
    ensures r.Ok? ==>
              var ct := ResponseHeader(resp.headers, "Content-Type").value;
              (r.value == RawContent(resp.content) <==> StartsWith(ct, Client.OctetStream))
              && (r.value == DecodedJson(resp.content) <==> StartsWith(ct, Client.JsonType))
              && (r.value == TextBody(resp.text) <==> !StartsWith(ct, Client.OctetStream) && !StartsWith(ct, Client.JsonType))
  {
    match ResponseHeader(resp.headers, "Content-Type")
    case None => Raise(KeyError("Content-Type"))
    case Some(ct) =>
      UnpackPrefixesDisjoint(ct);
      if StartsWith(ct, Client.OctetStream) then Ok(RawContent(resp.content))
      else if StartsWith(ct, Client.JsonType) then Ok(DecodedJson(resp.content))
      else Ok(TextBody(resp.text))
  }

  /** No content type starts with both media types, so the order of the
      two tests in `http_unpack` does not matter. */
  lemma {:induction false} UnpackPrefixesDisjoint(ct: string)
    ensures !(StartsWith(ct, Client.OctetStream) && StartsWith(ct, Client.JsonType))
  {
    assert StartsWith(ct, Client.OctetStream) ==> ct[12] == ct[..|Client.OctetStream|][12] == 'o';
    assert StartsWith(ct, Client.JsonType) ==> ct[12] == ct[..|Client.JsonType|][12] == 'j';
  }

  /** `is_retryable_exception`: httpx's timeouts and connection errors. */
  predicate IsRetryableException(e: PyError) {
    e.Transport? && (e.t.Timeout? || e.t.ConnectError?)
  }

  /** `is_retryable_status_code`: 502, 503 and 504. */
  predicate IsRetryableStatusCode(status: int) {
    status == 502 || status == 503 || status == 504
  }

  /** The retry set is not the transient set of the error classification:
      502 is retried but permanent, 404 and 500 are transient but not
      retried; 503 and 504 are both. */
  lemma {:induction false} RetrySetDiffersFromTransient(status: int)
    ensures IsRetryableStatusCode(502) && Classify(502) == Permanent
    ensures !IsRetryableStatusCode(404) && Classify(404) == Transient
    ensures !IsRetryableStatusCode(500) && Classify(500) == Transient
    ensures IsRetryableStatusCode(status) && Classify(status) == Transient <==> status == 503 || status == 504
  {
  }

  /** The outcome of one call of the wrapped function. */
  datatype Attempt = Returned(response: Response) | Threw(error: PyError)

  function OutcomeOf(a: Attempt): Result<Response> {
    match a
    case Returned(resp) => Ok(resp)
    case Threw(e) => Raise(e)
  }

  /** The retry condition `http_retry` states: a retryable exception or a
      response with a retryable status. */
  predicate ShouldRetry(a: Attempt) {
    match a
    case Threw(e) => IsRetryableException(e)
    case Returned(resp) => IsRetryableStatusCode(resp.status)
  }

  /** `stop_after_attempt(6)`. */
  const MaxAttempts: nat := 6

  /** The retrying `http_retry` states, from the `n`-th call on: the first
      outcome that is not to be retried is the result; when the sixth is
      still to be retried, tenacity raises `RetryError`. The second
      component counts the calls made. */
  function Retried(attempt: nat -> Attempt, n: nat): (Result<Response>, nat)
    requires n < MaxAttempts
    decreases MaxAttempts - n
  {
    if !ShouldRetry(attempt(n)) then (OutcomeOf(attempt(n)), n + 1)
    else if n + 1 == MaxAttempts then (Raise(RetryError(MaxAttempts)), MaxAttempts)
    else Retried(attempt, n + 1)
  }

  /** Retrying from the `n`-th call makes between one and six calls; every
      call before the last one was to be retried; the result is the last
      call's outcome when that one is not to be retried, and `RetryError`
      exactly when all six calls were to be retried. */
  lemma {:induction false} RetriedStopsAtFirstFinalOutcome(attempt: nat -> Attempt, n: nat)
    requires n < MaxAttempts
    ensures var (r, made) := Retried(attempt, n);
            n < made <= MaxAttempts
            && (forall i :: n <= i < made - 1 ==> ShouldRetry(attempt(i)))
            && (!ShouldRetry(attempt(made - 1)) ==> r == OutcomeOf(attempt(made - 1)))
            && (ShouldRetry(attempt(made - 1)) ==> made == MaxAttempts && r == Raise(RetryError(MaxAttempts)))
    decreases MaxAttempts - n
  {
    if ShouldRetry(attempt(n)) && n + 1 < MaxAttempts {
      RetriedStopsAtFirstFinalOutcome(attempt, n + 1);
    }
  }

  /** In particular a returned response never has a retryable status,
      and a non-retryable exception is raised by the
      call that raises it, with no further call. */
  lemma {:induction false} RetriedOutcomes(attempt: nat -> Attempt)
    ensures var (r, made) := Retried(attempt, 0);
            (r.Ok? ==> r == OutcomeOf(attempt(made - 1)) && !IsRetryableStatusCode(r.value.status))
            && (attempt(0).Threw? && !IsRetryableException(attempt(0).error) ==> made == 1 && r == Raise(attempt(0).error))
            && ((forall i :: 0 <= i < MaxAttempts ==> ShouldRetry(attempt(i))) <==>
                  made == MaxAttempts && ShouldRetry(attempt(MaxAttempts - 1)))
            && ((forall i :: 0 <= i < MaxAttempts ==> ShouldRetry(attempt(i))) ==> r == Raise(RetryError(MaxAttempts)))
  {
    RetriedStopsAtFirstFinalOutcome(attempt, 0);
    var (r, made) := Retried(attempt, 0);
    if forall i :: 0 <= i < MaxAttempts ==> ShouldRetry(attempt(i)) {
      assert ShouldRetry(attempt(made - 1));
    }
  }

  /** The retry loop `http_retry` states, with at most six calls. */
  method HttpRetry(attempt: nat -> Attempt) returns (r: Result<Response>, made: nat)
    ensures (r, made) == Retried(attempt, 0)
  {
    var n := 0;
    var stop := false;
    r, made := Raise(RetryError(0)), 0;
    while !stop
      invariant n < MaxAttempts
      invariant !stop ==> Retried(attempt, n) == Retried(attempt, 0)
      invariant stop ==> (r, made) == Retried(attempt, 0)
      decreases MaxAttempts - n, if stop then 0 else 1
    {
      var a := attempt(n);
      if !ShouldRetry(a) {
        r, made, stop := OutcomeOf(a), n + 1, true;
      } else if n + 1 == MaxAttempts {
        r, made, stop := Raise(RetryError(MaxAttempts)), MaxAttempts, true;
      } else {
        n := n + 1;
      }
    }
  }

  /** What `http_retry` does as written. `tn.retry(func, stop=...,
      retry=..., wait=...)` receives `func` as its only positional
      argument, and tenacity then returns `retry()(func)`, dropping the
      keyword arguments: the wrapped function is called again after any
      exception, without a stop, and a returned response is never
      retried. `fuel` bounds the calls the model follows; None means the
      loop is still calling after them. */
  function HttpRetryAsWritten(attempt: nat -> Attempt, n: nat, fuel: nat): (r: Option<(Result<Response>, nat)>)
    ensures r.Some? ==> r.value.0.Ok? && r.value.1 > n
    decreases fuel
  {
    match attempt(n)
    case Returned(resp) => Some((Ok(resp), n + 1))
    case Threw(_) => if fuel == 0 then None else HttpRetryAsWritten(attempt, n + 1, fuel - 1)
  }

  /** Two inputs that tell the code as written from its evident intent: a
      first call answered 503 is returned at once instead of being
      retried, and a call that keeps raising `ValueError` is still being
      retried after six calls instead of raising at the first. */
  lemma {:induction false} HttpRetryAsWrittenCounterexamples(busy: Response, e: PyError)
    requires busy.status == 503 && e == ValueError("bad input")
    ensures var attempt := (i: nat) => Returned(busy);
            HttpRetryAsWritten(attempt, 0, MaxAttempts) == Some((Ok(busy), 1))
            && Retried(attempt, 0) == (Raise(RetryError(MaxAttempts)), MaxAttempts)
    ensures var attempt := (i: nat) => Threw(e);
            HttpRetryAsWritten(attempt, 0, MaxAttempts) == None
            && Retried(attempt, 0) == (Raise(e), 1)
  {
    var failing := (i: nat) => Threw(e);
    assert HttpRetryAsWritten(failing, 5, 1) == None;
    assert HttpRetryAsWritten(failing, 1, 5) == None;
    var returning := (i: nat) => Returned(busy);
    assert Retried(returning, 5) == (Raise(RetryError(MaxAttempts)), MaxAttempts);
    assert Retried(returning, 2) == Retried(returning, 5);
  }
}

=== FILE: exceptions.dfy ===
/**
 * The exceptions the client raises or lets propagate, and the Result type
 * that stands for "returns a value or raises".
 */
module Exceptions {
  import opened RequestErrors

  /** Failures of the HTTP transport (httpx / requests exceptions). */
  datatype TransportError =
    | Timeout(reason: string)
    | ConnectError(reason: string)
    | ProxyError(reason: string)
    | OtherTransportError(reason: string)

  datatype PyError =
    | ValueError(msg: string)
    | TypeError(msg: string)
    | KeyError(key: string)
    | IndexError(msg: string)
    | AttributeError(name: string)
    | UnboundLocalError(name: string)
    | RuntimeError(msg: string)
    | SystemError(msg: string)
    | FileNotFoundError(path: string)
    | FileExistsError(path: string)
    | IsADirectoryError(path: string)
    | NotADirectoryError(path: string)
    | ApiError(err: RequestError)         // TransientError, AuthenticationError, PermanentError
    | Transport(t: TransportError)         // propagated from the HTTP library
    | HttpStatusError(status: int)         // raised by `response.raise_for_status()`
    | RetryError(attempts: nat)            // raised by tenacity when it stops retrying
    | InvalidTokenError                    // raised by `jwt.decode`
    | CredentialError(msg: string)         // raised by the managed-identity credential

  datatype Result<+T> = Ok(value: T) | Raise(error: PyError)
}

=== FILE: filesystem.dfy ===
/**
 * An abstract POSIX file system: a map from path to entry (a file with
 * its permission bits and contents, or a directory with its permission
 * bits) and the process umask. The operations are those the token cache
 * code calls: `os.umask`, `os.makedirs(..., exist_ok=True)`,
 * `open(path, "w").write(...)`, `os.chmod`, `os.stat` and `stat.filemode`.
 * Paths are compared as strings; no normalisation is done.
 */
module FileSystem {
  import opened Wrappers
  import opened Exceptions
  import opened Paths

  /** Permission bits, including set-user-id, set-group-id and sticky. */
  type Mode = bv12

  const OwnerReadWrite: Mode := 0x180      // 0o600
  const OwnerAll: Mode := 0x1C0            // 0o700
  const GroupOtherAll: Mode := 0x3F        // 0o077, S_IRWXG | S_IRWXO
  const DefaultFileMode: Mode := 0x1B6     // 0o666, what open() asks for
  const DefaultDirMode: Mode := 0x1FF      // 0o777, what mkdir() asks for

  datatype Entry = File(mode: Mode, contents: string) | Dir(mode: Mode)

  datatype FsState = FsState(entries: map<string, Entry>, umask: Mode)

  /** The state after an operation, and the exception it raised if any.
      Python keeps the side effects made before an exception, so the
      state is kept too. */
  datatype Step = Step(fs: FsState, error: Option<PyError>)

  predicate IsDir(fs: FsState, p: string) {
    p in fs.entries && fs.entries[p].Dir?
  }

  /** `os.path.isfile(p)`. */
  predicate IsFile(fs: FsState, p: string) {
    p in fs.entries && fs.entries[p].File?
  }

  /** `os.umask(mask)`: installs `mask` and returns the previous one. */
  function Umask(fs: FsState, mask: Mode): (r: (FsState, Mode))
    ensures r.0.entries == fs.entries && r.0.umask == mask && r.1 == fs.umask
  {
    (fs.(umask := mask), fs.umask)
  }

  /** Why a new entry cannot be created at `p`, if it cannot: its parent
      directory is missing or is a file. */
  function ParentError(fs: FsState, p: string): Option<PyError> {
    var parent := DirName(p);
    if p == "" then Some(FileNotFoundError(p))
    else if parent == "" then None
    else if parent !in fs.entries then Some(FileNotFoundError(p))
    else if fs.entries[parent].File? then Some(NotADirectoryError(p))
    else None
  }

  /** `os.mkdir(p)` inside `makedirs(..., exist_ok=True)`: an existing
      directory is accepted, an existing file is not. */
  function MkdirExistOk(fs: FsState, p: string): (r: Step)
    ensures r.fs.umask == fs.umask
  {
    if p in fs.entries then
      if fs.entries[p].Dir? then Step(fs, None) else Step(fs, Some(FileExistsError(p)))
    else
      match ParentError(fs, p)
      case Some(e) => Step(fs, Some(e))
      case None => Step(fs.(entries := fs.entries[p := Dir(DefaultDirMode & !fs.umask)]), None)
  }

  /** `os.makedirs(p, exist_ok=True)`: creates the missing ancestors first,
      ignoring a `FileExistsError` from them, then `p` itself. */
  function MakeDirs(fs: FsState, p: string): (r: Step)
    ensures r.fs.umask == fs.umask
    decreases |p|
  {
    var head := DirName(p);
    var before :=
      if head != "" && |head| < |p| && head !in fs.entries then
        var made := MakeDirs(fs, head);
        if made.error.Some? && made.error.value.FileExistsError? then Step(made.fs, None) else made
      else Step(fs, None);
    if before.error.Some? then before else MkdirExistOk(before.fs, p)
  }

  /** `os.open(p, O_RDWR | O_CREAT | O_TRUNC, mode)` followed by writing
      `contents`: truncates an existing file and keeps its mode, or creates
      one with `mode` less the umask. */
  function OpenCreateWrite(fs: FsState, p: string, contents: string, mode: Mode): (r: Step)
    ensures r.fs.umask == fs.umask
  {
    if p in fs.entries then
      match fs.entries[p]
      case Dir(_) => Step(fs, Some(IsADirectoryError(p)))
      case File(m, _) => Step(fs.(entries := fs.entries[p := File(m, contents)]), None)
    else
      match ParentError(fs, p)
      case Some(e) => Step(fs, Some(e))
      case None => Step(fs.(entries := fs.entries[p := File(mode & !fs.umask, contents)]), None)
  }

  /** `open(p, "w")` followed by `write(contents)`, which asks for 0o666. */
  function OpenWrite(fs: FsState, p: string, contents: string): (r: Step)
    ensures r.fs.umask == fs.umask
  {
    OpenCreateWrite(fs, p, contents, DefaultFileMode)
  }

  /** A write that completes leaves `p` a file holding the contents, with
      its old mode when it existed, with the asked mode less the umask when
      it is new, and every other entry as it was; it completes exactly
      when `p` is not a directory and, if new, its parent can hold it. */
  lemma {:induction false} OpenCreateWriteEnsures(fs: FsState, p: string, contents: string, mode: Mode)
    ensures var r := OpenCreateWrite(fs, p, contents, mode);
            (r.error.None? <==> if p in fs.entries then fs.entries[p].File? else ParentError(fs, p).None?)
            && (r.error.None? ==>
                  r.fs.entries == fs.entries[p := File(if p in fs.entries then fs.entries[p].mode
                                                       else mode & !fs.umask, contents)])
            && (r.error.Some? ==> r.fs == fs)
  {
  }

  /** `os.chmod(p, mode)`. */
  function Chmod(fs: FsState, p: string, mode: Mode): (r: Step)
    ensures r.fs.umask == fs.umask
    ensures r.error.None? <==> p in fs.entries
    ensures p in fs.entries ==> r.fs.entries == fs.entries[p := match fs.entries[p]
                                                               case File(_, c) => File(mode, c)
                                                               case Dir(_) => Dir(mode)]
  {
    if p !in fs.entries then Step(fs, Some(FileNotFoundError(p)))
    else
      match fs.entries[p]
      case File(_, c) => Step(fs.(entries := fs.entries[p := File(mode, c)]), None)
      case Dir(_) => Step(fs.(entries := fs.entries[p := Dir(mode)]), None)
  }

  // stat.filemode: the ten-character `ls -l` rendering of a mode.

  const IRUSR: Mode := 0x100
  const IWUSR: Mode := 0x80
  const IXUSR: Mode := 0x40
  const IRGRP: Mode := 0x20
  const IWGRP: Mode := 0x10
  const IXGRP: Mode := 0x8
  const IROTH: Mode := 0x4
  const IWOTH: Mode := 0x2
  const IXOTH: Mode := 0x1
  const ISUID: Mode := 0x800
  const ISGID: Mode := 0x400
  const ISVTX: Mode := 0x200

  function PermChar(m: Mode, bit: Mode, c: char): char {
    if m & bit == bit then c else '-'
  }

  /** An execute position, which also shows set-id or sticky bits. */
  function ExecChar(m: Mode, exec: Mode, special: Mode, both: char, onlySpecial: char): char {
    if m & (exec | special) == exec | special then both
    else if m & special == special then onlySpecial
    else if m & exec == exec then 'x'
    else '-'
  }

  function FileMode(e: Entry): (s: string)
    ensures |s| == 10
  {
    var m := e.mode;
    [if e.Dir? then 'd' else '-',
     PermChar(m, IRUSR, 'r'), PermChar(m, IWUSR, 'w'), ExecChar(m, IXUSR, ISUID, 's', 'S'),
     PermChar(m, IRGRP, 'r'), PermChar(m, IWGRP, 'w'), ExecChar(m, IXGRP, ISGID, 's', 'S'),
     PermChar(m, IROTH, 'r'), PermChar(m, IWOTH, 'w'), ExecChar(m, IXOTH, ISVTX, 't', 'T')]
  }

  /** `-rw-------` is exactly a regular file with mode 0o600. */
  lemma {:induction false} FileModeOwnerReadWrite(e: Entry)
    ensures FileMode(e) == "-rw-------" <==> e.File? && e.mode == OwnerReadWrite
  {
    var s := FileMode(e);
    var m := e.mode;
    if s == "-rw-------" {
      assert s[0] == '-' && s[1] == 'r' && s[2] == 'w' && s[3] == '-' && s[4] == '-';
      assert s[5] == '-' && s[6] == '-' && s[7] == '-' && s[8] == '-' && s[9] == '-';
      assert m & IRUSR == IRUSR && m & IWUSR == IWUSR;
      assert m & IXUSR == 0 && m & ISUID == 0 && m & IRGRP == 0 && m & IWGRP == 0;
      assert m & IXGRP == 0 && m & ISGID == 0 && m & IROTH == 0 && m & IWOTH == 0;
      assert m & IXOTH == 0 && m & ISVTX == 0;
    }
  }

  /** `drwx------` is exactly a directory with mode 0o700. */
  lemma {:induction false} FileModeOwnerAllDir(e: Entry)
    ensures FileMode(e) == "drwx------" <==> e.Dir? && e.mode == OwnerAll
  {
    var s := FileMode(e);
    var m := e.mode;
    if s == "drwx------" {
      assert s[0] == 'd' && s[1] == 'r' && s[2] == 'w' && s[3] == 'x' && s[4] == '-';
      assert s[5] == '-' && s[6] == '-' && s[7] == '-' && s[8] == '-' && s[9] == '-';
      assert m & IRUSR == IRUSR && m & IWUSR == IWUSR && m & IXUSR == IXUSR && m & ISUID == 0;
      assert m & IRGRP == 0 && m & IWGRP == 0;
      assert m & IXGRP == 0 && m & ISGID == 0 && m & IROTH == 0 && m & IWOTH == 0;
      assert m & IXOTH == 0 && m & ISVTX == 0;
    }
  }

  /** `mkdir` only ever adds `p`, and adds it as a directory. */
  lemma {:induction false} MkdirExistOkEnsures(fs: FsState, p: string)
    ensures var r := MkdirExistOk(fs, p);
            (forall q :: q in fs.entries ==> q in r.fs.entries && r.fs.entries[q] == fs.entries[q])
            && (r.error.None? ==> IsDir(r.fs, p))
  {
  }

  /** After a successful `makedirs`, `p` is a directory, and every entry
      that existed before is still there unchanged. */
  lemma {:induction false} MakeDirsEnsures(fs: FsState, p: string)
    ensures var r := MakeDirs(fs, p);
            (forall q :: q in fs.entries ==> q in r.fs.entries && r.fs.entries[q] == fs.entries[q])
            && (r.error.None? ==> IsDir(r.fs, p))
    decreases |p|
  {
    var head := DirName(p);
    var before :=
      if head != "" && |head| < |p| && head !in fs.entries then
        var made := MakeDirs(fs, head);
        if made.error.Some? && made.error.value.FileExistsError? then Step(made.fs, None) else made
      else Step(fs, None);
    assert forall q :: q in fs.entries ==> q in before.fs.entries && before.fs.entries[q] == fs.entries[q] by {
      if head != "" && |head| < |p| && head !in fs.entries {
        MakeDirsEnsures(fs, head);
      }
    }
    assert MakeDirs(fs, p) == if before.error.Some? then before else MkdirExistOk(before.fs, p);
    MkdirExistOkEnsures(before.fs, p);
  }
}

=== FILE: host.dfy ===
/**
 * The process's surroundings as the client sees them: the file system, the
 * platform string (`sys.platform`), the home directory, the environment
 * variables, the hooks registered with `atexit`, and the record of requests
 * made to the identity provider and lines printed for the user.
 */
module World {
  import opened Wrappers
  import opened Exceptions
  import opened FileSystem
  import opened Identity

  /** What an operation does to the surroundings: its result (a value or
      the exception it raises), the file system after it, and the requests
      it made, in order. */
  datatype Effect<T> = Effect(result: Result<T>, fs: FsState, calls: seq<Call>)

  class Host {
    var fs: FsState
    const platform: string
    const home: string
    const env: map<string, string>
    var exitHooks: seq<object>
    var calls: seq<Call>

    constructor (fs: FsState, platform: string, home: string, env: map<string, string>)
      ensures this.fs == fs && this.platform == platform && this.home == home && this.env == env
      ensures exitHooks == [] && calls == []
    {
      this.fs := fs;
      this.platform := platform;
      this.home := home;
      this.env := env;
      this.exitHooks := [];
      this.calls := [];
    }

    method SetUmask(mask: Mode) returns (previous: Mode)
      modifies this
      ensures (fs, previous) == Umask(old(fs), mask)
      ensures exitHooks == old(exitHooks) && calls == old(calls)
    {
      previous := fs.umask;
      fs := fs.(umask := mask);
    }

    method MakeDirectories(p: string) returns (error: Option<PyError>)
      modifies this
      ensures Step(fs, error) == MakeDirs(old(fs), p)
      ensures exitHooks == old(exitHooks) && calls == old(calls)
    {
      var r := MakeDirs(fs, p);
      fs, error := r.fs, r.error;
    }

    method WriteFile(p: string, contents: string) returns (error: Option<PyError>)
      modifies this
      ensures Step(fs, error) == OpenWrite(old(fs), p, contents)
      ensures exitHooks == old(exitHooks) && calls == old(calls)
    {
      var r := OpenWrite(fs, p, contents);
      fs, error := r.fs, r.error;
    }

    method OpenFile(p: string, contents: string, mode: Mode) returns (error: Option<PyError>)
      modifies this
      ensures Step(fs, error) == OpenCreateWrite(old(fs), p, contents, mode)
      ensures exitHooks == old(exitHooks) && calls == old(calls)
    {
      var r := OpenCreateWrite(fs, p, contents, mode);
      fs, error := r.fs, r.error;
    }

    method ChangeMode(p: string, mode: Mode) returns (error: Option<PyError>)
      modifies this
      ensures Step(fs, error) == Chmod(old(fs), p, mode)
      ensures exitHooks == old(exitHooks) && calls == old(calls)
    {
      var r := Chmod(fs, p, mode);
      fs, error := r.fs, r.error;
    }

    /** `atexit.register(hook)`. */
    method RegisterAtExit(hook: object)
      modifies this
      ensures exitHooks == old(exitHooks) + [hook]
      ensures fs == old(fs) && calls == old(calls)
    {
      exitHooks := exitHooks + [hook];
    }

    /** A request to the identity provider, or a printed line. */
    method Record(c: Call)
      modifies this
      ensures calls == old(calls) + [c]
      ensures fs == old(fs) && exitHooks == old(exitHooks)
    {
      calls := calls + [c];
    }
  }
}

=== FILE: http.dfy ===
/**
 * The HTTP exchange as the Sumo clients see it: the request they build
 * (verb, url, query parameters, headers in the order they are written,
 * payload), the response or the transport failure that comes back, and
 * the steps every client shares: the Bearer header of section 2.1 of
 * RFC 6750, the error test of httpx's `is_error` and requests' `ok`,
 * `Content-Length` as the clients compute it, and the classification of
 * a failed exchange.
 */
module Http {
  import opened Wrappers
  import opened Text
  import opened Exceptions
  import opened RequestErrors

  type Bytes = seq<bv8>

  /** A JSON value; a payload or a query is a dict of them. */
  datatype JsonValue =
    | JNull
    | JBool(b: bool)
    | JNum(n: int)
    | JStr(s: string)
    | JList(items: seq<JsonValue>)
    | JObject(fields: map<string, JsonValue>)

  type JsonObject = map<string, JsonValue>

  /** Python truthiness of an optional dict: present and non-empty. */
  predicate Filled(json: Option<JsonObject>) {
    json.Some? && |json.value| > 0
  }

  datatype Verb = GET | POST | PUT | DELETE

  /** Header names and values in the order the dict literal writes them. */
  type Headers = seq<(string, string)>

  datatype Request = Request(
    verb: Verb,
    url: string,
    params: Option<JsonObject>,
    headers: Headers,
    blob: Option<Bytes>,
    json: Option<JsonObject>)

  datatype Response = Response(status: int, headers: Headers, content: Bytes, text: string)

  /** What the network does with a request: a response, or an exception
      raised by the HTTP library. */
  datatype Exchange = Delivered(response: Response) | Failed(failure: TransportError)

  /** What a client method hands back on success: the raw body, the body
      decoded as JSON, the body as text, the response object, or None. */
  datatype Reply =
    | RawContent(bytes: Bytes)
    | DecodedJson(body: Bytes)
    | TextBody(text: string)
    | WholeResponse(response: Response)
    | NoReply

  /** The names of a header list, in order. */
  function Names(h: Headers): (names: seq<string>)
    ensures |names| == |h|
  {
    if h == [] then [] else [h[0].0] + Names(h[1..])
  }

  /** The value of the first header with the given name, compared as
      written (the clients build their headers with exact names). */
  function HeaderValue(h: Headers, name: string): (r: Option<string>)
    ensures r.None? <==> name !in Names(h)
  {
    if h == [] then None
    else if h[0].0 == name then Some(h[0].1)
    else HeaderValue(h[1..], name)
  }

  /** Position by position, the names are the headers' names. */
  lemma {:induction false} NamesIndex(h: Headers)
    ensures forall i :: 0 <= i < |h| ==> Names(h)[i] == h[i].0
    decreases |h|
  {
    if h != [] {
      NamesIndex(h[1..]);
      forall i | 1 <= i < |h| ensures Names(h)[i] == h[i].0 {
        assert Names(h)[i] == Names(h[1..])[i - 1];
        assert h[1..][i - 1] == h[i];
      }
    }
  }

  /** A value found under a name belongs to a header of that name. */
  lemma {:induction false} HeaderValueFound(h: Headers, name: string)
    ensures HeaderValue(h, name).Some? ==>
              exists i :: 0 <= i < |h| && h[i] == (name, HeaderValue(h, name).value)
    decreases |h|
  {
    if h != [] {
      if h[0].0 == name {
        assert h[0] == (name, h[0].1);
      } else {
        HeaderValueFound(h[1..], name);
        if HeaderValue(h, name).Some? {
          var i :| 0 <= i < |h[1..]| && h[1..][i] == (name, HeaderValue(h, name).value);
          assert h[i + 1] == h[1..][i];
        }
      }
    }
  }

  /** The header at position `i` is the one found for its name when no
      earlier header has that name. */
  lemma {:induction false} HeaderValueAt(h: Headers, i: nat)
    requires i < |h|
    requires forall j :: 0 <= j < i ==> h[j].0 != h[i].0
    ensures HeaderValue(h, h[i].0) == Some(h[i].1)
    decreases i
  {
    if i > 0 {
      assert h[1..][i - 1] == h[i];
      HeaderValueAt(h[1..], i - 1);
    }
  }

  /** Two headers with distinct names: the names in order, and each
      header found under its own name. */
  lemma {:induction false} DistinctHeaders2(h: Headers)
    requires |h| == 2 && h[0].0 != h[1].0
    ensures Names(h) == [h[0].0, h[1].0]
    ensures HeaderValue(h, h[0].0) == Some(h[0].1) && HeaderValue(h, h[1].0) == Some(h[1].1)
  {
    HeaderValueAt(h, 0);
    HeaderValueAt(h, 1);
  }

  /** The same for three headers. */
  lemma {:induction false} DistinctHeaders3(h: Headers)
    requires |h| == 3 && h[0].0 != h[1].0 && h[0].0 != h[2].0 && h[1].0 != h[2].0
    ensures Names(h) == [h[0].0, h[1].0, h[2].0]
    ensures HeaderValue(h, h[0].0) == Some(h[0].1) && HeaderValue(h, h[1].0) == Some(h[1].1)
    ensures HeaderValue(h, h[2].0) == Some(h[2].1)
  {
    HeaderValueAt(h, 0);
    HeaderValueAt(h, 1);
    HeaderValueAt(h, 2);
  }

  /** The same for four headers. */
  lemma {:induction false} DistinctHeaders4(h: Headers)
    requires |h| == 4
    requires h[0].0 != h[1].0 && h[0].0 != h[2].0 && h[0].0 != h[3].0
    requires h[1].0 != h[2].0 && h[1].0 != h[3].0 && h[2].0 != h[3].0
    ensures Names(h) == [h[0].0, h[1].0, h[2].0, h[3].0]
    ensures HeaderValue(h, h[0].0) == Some(h[0].1) && HeaderValue(h, h[1].0) == Some(h[1].1)
    ensures HeaderValue(h, h[2].0) == Some(h[2].1) && HeaderValue(h, h[3].0) == Some(h[3].1)
  {
    HeaderValueAt(h, 0);
    HeaderValueAt(h, 1);
    HeaderValueAt(h, 2);
    HeaderValueAt(h, 3);
  }

  /** A response header looked up as httpx does: the name compared without
      regard to ASCII case. */
  function ResponseHeader(h: Headers, name: string): (r: Option<string>)
    ensures r.None? <==> forall i :: 0 <= i < |h| ==> Lower(h[i].0) != Lower(name)
    ensures r.Some? ==> exists i :: 0 <= i < |h| && Lower(h[i].0) == Lower(name) && h[i].1 == r.value
  {
    if h == [] then None
    else if Lower(h[0].0) == Lower(name) then Some(h[0].1)
    else
      var r := ResponseHeader(h[1..], name);
      assert r.Some? ==> exists i :: 0 <= i < |h| && Lower(h[i].0) == Lower(name) && h[i].1 == r.value by {
        if r.Some? {
          var i :| 0 <= i < |h[1..]| && Lower(h[1..][i].0) == Lower(name) && h[1..][i].1 == r.value;
          assert h[i + 1] == h[1..][i];
        }
      }
      assert forall i :: 1 <= i < |h| ==> h[i] == h[1..][i - 1];
      r
  }

  /** The credentials of an Authorization header in the form of section
      2.1 of RFC 6750: the scheme, one space, the token. */
  function Bearer(token: string): (b: string)
    ensures StartsWith(b, "Bearer ") && b[|"Bearer "|..] == token
  {
    StartsWithConcat("Bearer ", token);
    "Bearer " + token
  }

  /** httpx's `response.is_error` and requests' `not response.ok`. */
  predicate IsError(status: int) {
    400 <= status <= 599
  }

  /** `str(len(json) if json else len(blob))`: the number of entries of a
      non-empty json dict, otherwise the number of bytes of the blob, and
      the `TypeError` of `len(None)` when there is no blob. */
  function ContentLength(blob: Option<Bytes>, json: Option<JsonObject>): (r: Result<string>)
    ensures r.Raise? <==> !Filled(json) && blob.None?
    ensures r.Raise? ==> r.error.TypeError?
    ensures r.Ok? ==> AllDigits(r.value)
  {
    if Filled(json) then Ok(NatToString(|json.value|))
    else if blob.None? then Raise(TypeError("object of type 'NoneType' has no len()"))
    else Ok(NatToString(|blob.value|))
  }

  /** `Content-Length` reads back as the number of json entries when a
      json dict is given, whatever the blob's size, and as the number of
      blob bytes otherwise. */
  lemma {:induction false} ContentLengthCounts(blob: Option<Bytes>, json: Option<JsonObject>)
    requires Filled(json) || blob.Some?
    ensures ContentLength(blob, json).Ok?
    ensures Filled(json) ==> LeadingInt(ContentLength(blob, json).value) == |json.value|
    ensures !Filled(json) ==> LeadingInt(ContentLength(blob, json).value) == |blob.value|
  {
    var n := if Filled(json) then |json.value| else |blob.value|;
    IntToStringLeadingInt(n, []);
    assert IntToString(n) + [] == NatToString(n);
  }

  /** The exception a finished exchange raises, if any: a transport
      failure propagates, except that a caller catching `ProxyError` turns
      it into a 503 error; an error status is classified by
      `raise_request_error_exception`. */
  function ExchangeError(x: Exchange, catchProxy: bool): (r: Option<PyError>)
    ensures r.None? <==> x.Delivered? && !IsError(x.response.status)
    ensures x.Delivered? && IsError(x.response.status) ==>
              r == Some(ApiError(RaiseRequestErrorException(x.response.status, x.response.text)))
    ensures x.Failed? && x.failure.ProxyError? && catchProxy ==>
              r.Some? && r.value.ApiError? && r.value.err.kind == Transient && r.value.err.code == 503
    ensures x.Failed? && !(x.failure.ProxyError? && catchProxy) ==> r == Some(Transport(x.failure))
  {
    match x
    case Failed(t) =>
      if t.ProxyError? && catchProxy then Some(ApiError(RaiseRequestErrorException(503, t.reason)))
      else Some(Transport(t))
    case Delivered(resp) =>
      if IsError(resp.status) then Some(ApiError(RaiseRequestErrorException(resp.status, resp.text)))
      else None
  }

  /** How a client method unpacks a successful response. */
  datatype Shape = AsBytes | AsJson | AsResponse | AsNothing

  /** `response.content`, `response.json()`, the response itself, or None. */
  function Unpack(resp: Response, shape: Shape): (reply: Reply)
    ensures reply.RawContent? <==> shape == AsBytes
    ensures reply.DecodedJson? <==> shape == AsJson
    ensures reply.NoReply? <==> shape == AsNothing
    ensures reply.RawContent? ==> reply.bytes == resp.content
    ensures reply.DecodedJson? ==> reply.body == resp.content
    ensures reply.WholeResponse? ==> reply.response == resp
  {
    match shape
    case AsBytes => RawContent(resp.content)
    case AsJson => DecodedJson(resp.content)
    case AsResponse => WholeResponse(resp)
    case AsNothing => NoReply
  }

  /** The result of a call once the request is sent: the exchange's error,
      or the response unpacked. */
  function Finish(x: Exchange, catchProxy: bool, shape: Shape): (r: Result<Reply>)
    ensures r.Raise? <==> ExchangeError(x, catchProxy).Some?
    ensures r.Raise? ==> r.error == ExchangeError(x, catchProxy).value
    ensures r.Ok? ==> x.Delivered? && r.value == Unpack(x.response, shape)
  {
    match ExchangeError(x, catchProxy)
    case Some(e) => Raise(e)
    case None => Ok(Unpack(x.response, shape))
  }
}

=== FILE: identity.dfy ===
/**
 * The identity provider (msal's PublicClientApplication and azure.identity's
 * ManagedIdentityCredential) seen from the client: a fixed set of answers,
 * one per kind of request, and the record of the requests made. The dicts
 * msal returns are reduced to the keys the client looks at.
 */
module Identity {
  import opened Wrappers
  import opened Exceptions

  datatype Account = Account(username: string)

  /** A token response dict: its "access_token", "error" and "expires_in"
      entries, and how many other keys it has. */
  datatype TokenResponse = TokenResponse(
    accessToken: Option<string>,
    error: Option<string>,
    expiresIn: Option<int>,
    otherKeys: nat)
  {
    /** `not result`: an empty dict is falsy. */
    predicate IsEmpty() {
      accessToken.None? && error.None? && expiresIn.None? && otherKeys == 0
    }
  }

  /** A device flow dict: its "user_code", "message" and "error" entries. */
  datatype DeviceFlow = DeviceFlow(
    userCode: Option<string>,
    message: Option<string>,
    error: Option<string>,
    otherKeys: nat)

  /** What the provider answers to each kind of request. `silent` is None
      when `acquire_token_silent` finds nothing. Each `...Stores` field is
      what the token cache serializes to once msal has stored the tokens of
      that acquisition in it, or None when the acquisition stores nothing
      (a silent answer taken from the cache as it is, or an error). */
  datatype IdentityProvider = IdentityProvider(
    accounts: seq<Account>,
    silent: Option<TokenResponse>,
    interactive: TokenResponse,
    deviceFlow: DeviceFlow,
    byDeviceFlow: TokenResponse,
    byRefreshToken: TokenResponse,
    managed: Result<string>,
    silentStores: Option<string>,
    interactiveStores: Option<string>,
    byDeviceFlowStores: Option<string>)

  /** A request made to the provider, or a line printed for the user. */
  datatype Call =
    | GetAccounts
    | AcquireSilent(scopes: seq<string>, account: Account)
    | AcquireInteractive(scopes: seq<string>)
    | InitiateDeviceFlow(scopes: seq<string>)
    | AcquireByDeviceFlow(flow: DeviceFlow)
    | AcquireByRefreshToken(refreshToken: string, scopes: seq<string>)
    | ManagedGetToken(scope: string)
    | Printed(text: string)

  /** What msal leaves in the token cache after the request `c`: the
      serialized state, or None when the request stores nothing. */
  function StoredBy(idp: IdentityProvider, c: Call): Option<string> {
    match c
    case AcquireSilent(_, _) => idp.silentStores
    case AcquireInteractive(_) => idp.interactiveStores
    case AcquireByDeviceFlow(_) => idp.byDeviceFlowStores
    case _ => None
  }

  /** The result of an operation that only talks to the provider, and the
      requests it makes, in order. */
  datatype Traced<T> = Traced(result: Result<T>, calls: seq<Call>)

  /** Is the call one that may hand out a token? */
  predicate IsAcquisition(c: Call) {
    c.AcquireSilent? || c.AcquireInteractive? || c.AcquireByDeviceFlow?
    || c.AcquireByRefreshToken? || c.ManagedGetToken?
  }

  /** The claims of a JSON Web Token's payload, with integer values
      (section 4.1.4 of RFC 7519 makes "exp" a NumericDate). */
  type Claims = map<string, int>

  /** `jwt.decode(token, options={"verify_signature": False})`: the payload,
      or None where the library raises `InvalidTokenError`. */
  type JwtDecoder = string -> Option<Claims>
}

=== FILE: legacy_sumo_client.dfy ===
/**
 * The older `SumoClient` (src/sumo/wrapper/_sumo_client.py): a Sumo API
 * client over `requests` that always builds a `NewAuth`, hands out a
 * supplied access token without looking at its expiry, sends a
 * `Content-Length` with every upload, and classifies error statuses with
 * its own copy of the classification.
 */
module LegacyClient {
  import opened Wrappers
  import opened Exceptions
  import opened Paths
  import opened Identity
  import opened World
  import opened Http
  import opened NewAuthSession
  import RequestErrors
  import Text
  import Client
  import Config

  /** `_raise_request_error_exception`, the class's copy of the rule. */
  function RaiseRequestErrorException(code: int, message: string): (e: RequestErrors.RequestError)
    ensures e.code == code && e.message == message
  {
    if 503 <= code <= 504 || code == 404 || code == 500 then
      RequestErrors.RequestError(RequestErrors.Transient, code, message)
    else if 401 <= code <= 403 then
      RequestErrors.RequestError(RequestErrors.Authentication, code, message)
    else
      RequestErrors.RequestError(RequestErrors.Permanent, code, message)
  }

  /** The copy raises the same error as `raise_request_error_exception`
      for every code and message, so the shared response step stands for
      both. */
  lemma {:induction false} ClassificationAgrees(code: int, message: string)
    ensures RaiseRequestErrorException(code, message) == RequestErrors.RaiseRequestErrorException(code, message)
  {
  }

  const UploadConflict := "Both blob and json given to post - can only have one at the time."

  /** The request `post` or `put` sends, or the exception raised before
      it: `ValueError` for two payloads, then the `TypeError` of
      `len(None)` when there is neither a non-empty json dict nor a blob. */
  function PlanUpload(verb: Verb, baseUrl: string, path: string, blob: Option<Bytes>, json: Option<JsonObject>,
                      token: string): (r: Result<Request>)
    ensures NonEmpty(blob) && Filled(json) ==> r == Raise(ValueError(UploadConflict))
    ensures !(NonEmpty(blob) && Filled(json)) ==>
              (r.Raise? <==> ContentLength(blob, json).Raise?)
    ensures r.Ok? ==> r.value.verb == verb && r.value.url == baseUrl + path && r.value.params.None?
                      && r.value.blob == blob && r.value.json == json
    ensures r.Ok? ==> Names(r.value.headers) == ["Content-Type", "authorization", "Content-Length"]
                      && HeaderValue(r.value.headers, "authorization") == Some(Bearer(token))
                      && HeaderValue(r.value.headers, "Content-Length") == Some(ContentLength(blob, json).value)
    ensures r.Ok? ==> (HeaderValue(r.value.headers, "Content-Type") == Some(Client.JsonType) <==> json.Some?)
                      && (HeaderValue(r.value.headers, "Content-Type") == Some(Client.OctetStream) <==> json.None?)
  {
    if NonEmpty(blob) && Filled(json) then Raise(ValueError(UploadConflict))
    else
      var contentType := if json.Some? then Client.JsonType else Client.OctetStream;
      match ContentLength(blob, json)
      case Raise(e) => Raise(e)
      case Ok(length) =>
        var headers := [("Content-Type", contentType), ("authorization", Bearer(token)), ("Content-Length", length)];
        DistinctHeaders3(headers);
        Ok(Request(verb, baseUrl + path, None, headers, blob, json))
  }

  /** An upload of an empty json dict without a blob fails on `len(None)`
      although it passed the two-payload check; a json dict with entries
      is measured by its number of entries. */
  lemma {:induction false} UploadLengthQuirks(verb: Verb, baseUrl: string, path: string, blob: Option<Bytes>, token: string,
                           json: JsonObject)
    ensures PlanUpload(verb, baseUrl, path, None, Some(map[]), token).Raise?
    ensures PlanUpload(verb, baseUrl, path, None, Some(map[]), token).error.TypeError?
    ensures |json| > 0 && !NonEmpty(blob) ==>
              var r := PlanUpload(verb, baseUrl, path, blob, Some(json), token);
              r.Ok? && Text.LeadingInt(HeaderValue(r.value.headers, "Content-Length").value) == |json|
  {
    if |json| > 0 && !NonEmpty(blob) {
      ContentLengthCounts(blob, Some(json));
    }
  }

  class LegacySumoClient {
    const accessToken: Option<string>
    const auth: NewAuth
    const baseUrl: string

    /** `__init__` for a known environment: the `NewAuth` of the
        environment's registration is built (loading its cache and
        registering its save at exit). */
    constructor (host: Host, env: string, accessToken: Option<string>, interactive: bool)
      requires Config.IsAppEnvironment(env)
      modifies host
      ensures this.accessToken == accessToken && baseUrl == Client.BaseUrl(env)
      ensures fresh(auth) && fresh(auth.cache)
      ensures auth.clientId == Config.AppRegistration[env].clientId
      ensures auth.resourceId == Config.AppRegistration[env].resourceId
      ensures auth.tenantId == Config.TenantId && auth.interactive == interactive
      ensures auth.scope == Scope(auth.resourceId)
      ensures auth.cache.state == TokenCacheStore.LoadedState(host.fs, auth.tokenPath)
      ensures host.exitHooks == old(host.exitHooks) + [auth]
      ensures host.fs == old(host.fs) && host.calls == old(host.calls)
    {
      this.accessToken := accessToken;
      var registration := Config.AppRegistration[env];
      var a := new NewAuth(host, registration.clientId, registration.resourceId, Config.TenantId, interactive);
      auth := a;
      baseUrl := Client.BaseUrl(env);
    }

    /** The token `_retrieve_token` hands out: a supplied access token as
        it is, with no expiry check; otherwise `NewAuth.get_token`. */
    function Token(idp: IdentityProvider): Traced<string> {
      if Truthy(accessToken) then Traced(Ok(accessToken.value), [])
      else GetTokenFlow(idp, auth.scope, auth.interactive)
    }

    /** `_retrieve_token`. */
    method RetrieveToken(host: Host, idp: IdentityProvider) returns (r: Result<string>)
      modifies host, auth.cache
      ensures r == Token(idp).result
      ensures host.calls == old(host.calls) + Token(idp).calls
      ensures auth.cache.Value() == TokenCacheStore.CacheAfter(idp, Token(idp).calls, old(auth.cache.Value()))
      ensures host.fs == old(host.fs) && host.exitHooks == old(host.exitHooks)
    {
      if Truthy(accessToken) {
        return Ok(accessToken.value);
      }
      r := auth.GetToken(host, idp);
    }

    /** `get(path, **params)` against the exchange `x`. */
    method Get(host: Host, idp: IdentityProvider, path: string, params: JsonObject, x: Exchange)
      returns (r: Result<Reply>, sent: Option<Request>)
      modifies host, auth.cache
      ensures host.calls == old(host.calls) + Token(idp).calls
      ensures auth.cache.Value() == TokenCacheStore.CacheAfter(idp, Token(idp).calls, old(auth.cache.Value()))
      ensures host.fs == old(host.fs) && host.exitHooks == old(host.exitHooks)
      ensures Token(idp).result.Raise? ==> r == Raise(Token(idp).result.error) && sent.None?
      ensures Token(idp).result.Ok? ==>
                sent == Some(Client.PlanGet(baseUrl, path, params, Token(idp).result.value))
                && r == Finish(x, false, Client.GetShape(path))
    {
      var token := RetrieveToken(host, idp);
      if token.Raise? {
        return Raise(token.error), None;
      }
      var query := Client.ProcessParams(params);
      sent := Some(Request(GET, baseUrl + path, query,
                           [("Content-Type", Client.JsonType), ("authorization", Bearer(token.value))], None, None));
      r := Finish(x, false, Client.GetShape(path));
    }

    /** `post` (verb POST) and `put` (verb PUT), which share their code:
        the token is retrieved before the payloads are checked, and a
        proxy failure is classified as 503. */
    method Upload(host: Host, idp: IdentityProvider, verb: Verb, path: string, blob: Option<Bytes>,
                  json: Option<JsonObject>, x: Exchange) returns (r: Result<Reply>, sent: Option<Request>)
      modifies host, auth.cache
      ensures host.calls == old(host.calls) + Token(idp).calls
      ensures auth.cache.Value() == TokenCacheStore.CacheAfter(idp, Token(idp).calls, old(auth.cache.Value()))
      ensures host.fs == old(host.fs) && host.exitHooks == old(host.exitHooks)
      ensures Token(idp).result.Raise? ==> r == Raise(Token(idp).result.error) && sent.None?
      ensures Token(idp).result.Ok? ==>
                var plan := PlanUpload(verb, baseUrl, path, blob, json, Token(idp).result.value);
                (plan.Raise? ==> r == Raise(plan.error) && sent.None?)
                && (plan.Ok? ==> sent == Some(plan.value) && r == Finish(x, true, AsResponse))
    {
      var token := RetrieveToken(host, idp);
      if token.Raise? {
        return Raise(token.error), None;
      }
      var plan := PlanUpload(verb, baseUrl, path, blob, json, token.value);
      if plan.Raise? {
        return Raise(plan.error), None;
      }
      sent := Some(plan.value);
      r := Finish(x, true, AsResponse);
    }

    /** `delete`: the decoded JSON body. */
    method Delete(host: Host, idp: IdentityProvider, path: string, x: Exchange)
      returns (r: Result<Reply>, sent: Option<Request>)
      modifies host, auth.cache
      ensures host.calls == old(host.calls) + Token(idp).calls
      ensures auth.cache.Value() == TokenCacheStore.CacheAfter(idp, Token(idp).calls, old(auth.cache.Value()))
      ensures host.fs == old(host.fs) && host.exitHooks == old(host.exitHooks)
      ensures Token(idp).result.Raise? ==> r == Raise(Token(idp).result.error) && sent.None?
      ensures Token(idp).result.Ok? ==>
                sent == Some(Client.PlanDelete(baseUrl, path, Token(idp).result.value))
                && r == Finish(x, false, AsJson)
    {
      var token := RetrieveToken(host, idp);
      if token.Raise? {
        return Raise(token.error), None;
      }
      sent := Some(Client.PlanDelete(baseUrl, path, token.value));
      r := Finish(x, false, AsJson);
    }
  }

  /** `SumoClient(env, access_token, interactive)`: an unknown environment
      raises `ValueError` and builds nothing. */
  method Create(host: Host, env: string, accessToken: Option<string>, interactive: bool)
    returns (r: Result<LegacySumoClient>)
    modifies host
    ensures r.Raise? <==> !Config.IsAppEnvironment(env)
    ensures r.Raise? ==> r.error == ValueError("Invalid environment: " + env) && host.exitHooks == old(host.exitHooks)
    ensures r.Ok? ==> fresh(r.value) && r.value.accessToken == accessToken && r.value.baseUrl == Client.BaseUrl(env)
                      && r.value.auth.scope == Scope(Config.AppRegistration[env].resourceId)
                      && r.value.auth.interactive == interactive
                      && host.exitHooks == old(host.exitHooks) + [r.value.auth]
    ensures host.fs == old(host.fs) && host.calls == old(host.calls)
  {
    if !Config.IsAppEnvironment(env) {
      return Raise(ValueError("Invalid environment: " + env));
    }
    var client := new LegacySumoClient(host, env, accessToken, interactive);
    r := Ok(client);
  }
}

=== FILE: new_auth.dfy ===
/**
 * `NewAuth` (src/sumo/wrapper/_new_auth.py): an msal public client with a
 * token cache loaded from `~/.sumo/{resource_id}.token` at construction and
 * saved at exit when it changed; `get_token` tries the cache silently and
 * falls back to an interactive or a device code login.
 */
module NewAuthSession {
  import opened Wrappers
  import opened Exceptions
  import opened Paths
  import opened FileSystem
  import opened Identity
  import opened World
  import opened TokenCacheStore
  import Config

  /** The keyword parameters `NewAuth.__init__` accepts, and those of them
      without a default. */
  const Parameters: set<string> := {"client_id", "resource_id", "tenant_id", "interactive"}
  const Required: seq<string> := ["client_id", "resource_id", "tenant_id"]

  /** Python's binding of keyword arguments to `NewAuth.__init__`: the
      first keyword it does not accept raises `TypeError`, then so does a
      missing required one. */
  function BindKeywords(keywords: seq<string>): (r: Option<PyError>)
    ensures r.None? <==>
              (forall i :: 0 <= i < |keywords| ==> keywords[i] in Parameters)
              && (forall i :: 0 <= i < |Required| ==> Required[i] in keywords)
    ensures r.Some? ==> r.value.TypeError?
  {
    FirstUnexpected(keywords, 0)
  }

  function FirstUnexpected(keywords: seq<string>, i: nat): (r: Option<PyError>)
    requires i <= |keywords|
    ensures r.None? <==>
              (forall j :: i <= j < |keywords| ==> keywords[j] in Parameters)
              && (forall j :: 0 <= j < |Required| ==> Required[j] in keywords)
    ensures r.Some? ==> r.value.TypeError?
    decreases |keywords| - i
  {
    if i == |keywords| then
      if forall j :: 0 <= j < |Required| ==> Required[j] in keywords then None
      else Some(TypeError("missing a required argument"))
    else if keywords[i] !in Parameters then Some(TypeError(keywords[i]))
    else FirstUnexpected(keywords, i + 1)
  }

  /** The keywords `SumoClient.__init__` passes (src/sumo/wrapper/sumo_client.py:63-70)
      are refused, on `refresh_token`. */
  lemma {:induction false} SumoClientKeywordsRefused()
    ensures BindKeywords(["client_id", "resource_id", "tenant_id", "interactive", "refresh_token", "verbosity"])
            == Some(TypeError("refresh_token"))
  {
    var k := ["client_id", "resource_id", "tenant_id", "interactive", "refresh_token", "verbosity"];
    assert k[4] !in Parameters;
    assert FirstUnexpected(k, 4) == Some(TypeError("refresh_token"));
  }

  /** The scope `NewAuth` asks for: without `offline_access`. */
  function Scope(resourceId: string): string {
    resourceId + "/.default"
  }

  /** The authority: the identity provider's host followed by the tenant. */
  function Authority(tenantId: string): string {
    Config.AuthorityHostUri + "/" + tenantId
  }

  /** The response's access token, or the `KeyError` of
      `result["access_token"]`. */
  function AccessTokenOf(resp: TokenResponse, calls: seq<Call>): Traced<string> {
    match resp.accessToken
    case Some(t) => Traced(Ok(t), calls)
    case None => Traced(Raise(KeyError("access_token")), calls)
  }

  /** `get_token`'s decision flow. A falsy silent result (None or an empty
      dict) leads to the fallback login. */
  function GetTokenFlow(idp: IdentityProvider, scope: string, interactive: bool): Traced<string> {
    var hasAccounts := |idp.accounts| > 0;
    var calls := [GetAccounts] + (if hasAccounts then [AcquireSilent([scope], idp.accounts[0])] else []);
    if hasAccounts && idp.silent.Some? && !idp.silent.value.IsEmpty() then
      AccessTokenOf(idp.silent.value, calls)
    else
      var login := LoginFlow(idp, scope, interactive);
      Traced(login.result, calls + login.calls)
  }

  /** The login `get_token` falls back to, with the requests it makes. An
      interactive response with "error" reaches `json.dumps(flow)` where
      `flow` was never assigned. */
  function LoginFlow(idp: IdentityProvider, scope: string, interactive: bool): Traced<string> {
    if interactive then
      var calls := [AcquireInteractive([scope])];
      if idp.interactive.error.Some? then Traced(Raise(UnboundLocalError("flow")), calls)
      else AccessTokenOf(idp.interactive, calls)
    else
      var flow := idp.deviceFlow;
      var calls := [InitiateDeviceFlow([scope])];
      if flow.userCode.None? then Traced(Raise(ValueError("Fail to create device flow.")), calls)
      else if flow.message.None? then Traced(Raise(KeyError("message")), calls)
      else AccessTokenOf(idp.byDeviceFlow, calls + [Printed(flow.message.value), AcquireByDeviceFlow(flow)])
  }

  /** The silent acquisition is tried exactly when there is an account,
      and with the first one; the interactive and device code logins are
      tried only when it gave no result, and `interactive` picks between
      them. */
  lemma {:induction false} GetTokenFlowFallback(idp: IdentityProvider, scope: string, interactive: bool)
    ensures var t := GetTokenFlow(idp, scope, interactive);
            var silentHit := |idp.accounts| > 0 && idp.silent.Some? && !idp.silent.value.IsEmpty();
            (|idp.accounts| > 0 ==> |t.calls| > 1 && t.calls[1] == AcquireSilent([scope], idp.accounts[0]))
            && (|idp.accounts| == 0 ==> forall c :: c in t.calls ==> !c.AcquireSilent?)
            && (silentHit ==> t.result == (if idp.silent.value.accessToken.Some?
                                           then Ok(idp.silent.value.accessToken.value)
                                           else Raise(KeyError("access_token"))))
            && (silentHit ==> AcquireInteractive([scope]) !in t.calls && InitiateDeviceFlow([scope]) !in t.calls)
            && (!silentHit && interactive ==> AcquireInteractive([scope]) in t.calls && InitiateDeviceFlow([scope]) !in t.calls)
            && (!silentHit && !interactive ==> InitiateDeviceFlow([scope]) in t.calls && AcquireInteractive([scope]) !in t.calls)
  {
    var hasAccounts := |idp.accounts| > 0;
    var calls := [GetAccounts] + (if hasAccounts then [AcquireSilent([scope], idp.accounts[0])] else []);
    assert forall c :: c in calls ==> c.GetAccounts? || c.AcquireSilent?;
  }

  /** A device flow without "user_code" raises before any acquisition and
      prints nothing; the instructions are printed only for a flow with a
      user code and a message, just before the acquisition. */
  lemma {:induction false} DeviceFlowChecks(idp: IdentityProvider, scope: string)
    ensures var t := GetTokenFlow(idp, scope, false);
            var silentHit := |idp.accounts| > 0 && idp.silent.Some? && !idp.silent.value.IsEmpty();
            (idp.deviceFlow.userCode.None? && !silentHit ==>
               t.result.Raise? && AcquireByDeviceFlow(idp.deviceFlow) !in t.calls
               && forall m :: Printed(m) !in t.calls)
            && (forall m :: Printed(m) in t.calls ==>
                  idp.deviceFlow.userCode.Some? && idp.deviceFlow.message == Some(m)
                  && |t.calls| > 0 && t.calls[|t.calls| - 1] == AcquireByDeviceFlow(idp.deviceFlow))
  {
    var hasAccounts := |idp.accounts| > 0;
    var calls := [GetAccounts] + (if hasAccounts then [AcquireSilent([scope], idp.accounts[0])] else []);
    assert forall c :: c in calls ==> c.GetAccounts? || c.AcquireSilent?;
  }

  /** An interactive response carrying "error" never gives a token. */
  lemma {:induction false} InteractiveErrorRaises(idp: IdentityProvider, scope: string)
    requires idp.interactive.error.Some?
    requires !(|idp.accounts| > 0 && idp.silent.Some? && !idp.silent.value.IsEmpty())
    ensures GetTokenFlow(idp, scope, true).result == Raise(UnboundLocalError("flow"))
  {
  }

  /** `__save_cache` as a function of the file system: nothing unless the
      cache changed, the shared saving sequence otherwise. */
  function SaveCacheStep(fs: FsState, changed: bool, state: string, path: string, platform: string): Step {
    if changed then WriteCacheFile(fs, path, state, platform) else Step(fs, None)
  }

  /** Saving an unchanged cache touches nothing; a save that completes
      leaves the umask as it was, the file holding the state (so loading it
      gives the state back), and off Windows the file at 0o600 and its
      directory at 0o700. */
  lemma {:induction false} SaveCacheEffect(fs: FsState, changed: bool, state: string, path: string, platform: string)
    ensures !changed ==> SaveCacheStep(fs, changed, state, path, platform) == Step(fs, None)
    ensures var r := SaveCacheStep(fs, changed, state, path, platform);
            changed && r.error.None? ==>
              r.fs.umask == fs.umask && LoadedState(r.fs, path) == state
              && (!IsWindows(platform) ==>
                    r.fs.entries[path] == File(OwnerReadWrite, state)
                    && r.fs.entries[DirName(path)] == Dir(OwnerAll))
  {
    WriteCacheFileUmask(fs, path, state, platform);
    WriteCacheFileModes(fs, path, state, platform);
    SaveThenLoad(fs, path, state, platform);
  }

  /** The login that `get_token` falls back to: interactive or by device
      flow. */
  function LoginRequest(idp: IdentityProvider, scope: string, interactive: bool): Call {
    if interactive then AcquireInteractive([scope]) else AcquireByDeviceFlow(idp.deviceFlow)
  }

  /** When `get_token` logs in, the login is its last request, so what
      the login stores is what the cache ends with, marked changed; when
      none of its acquisitions stores anything, the cache is left as it
      was loaded, flag included. */
  lemma {:induction false} GetTokenCache(idp: IdentityProvider, scope: string, interactive: bool, c0: CacheState)
    ensures var t := GetTokenFlow(idp, scope, interactive);
            var login := LoginRequest(idp, scope, interactive);
            (login in t.calls && StoredBy(idp, login).Some? ==>
               CacheAfter(idp, t.calls, c0) == CacheState(StoredBy(idp, login).value, true))
            && ((forall i :: 0 <= i < |t.calls| ==> StoredBy(idp, t.calls[i]).None?) ==>
                  CacheAfter(idp, t.calls, c0) == c0)
  {
    var t := GetTokenFlow(idp, scope, interactive);
    var login := LoginRequest(idp, scope, interactive);
    var hasAccounts := |idp.accounts| > 0;
    var calls := [GetAccounts] + (if hasAccounts then [AcquireSilent([scope], idp.accounts[0])] else []);
    assert forall c :: c in calls ==> c.GetAccounts? || c.AcquireSilent?;
    if login in t.calls && StoredBy(idp, login).Some? {
      assert t.calls[|t.calls| - 1] == login;
      CacheAfterLastStore(idp, t.calls, c0);
    }
    if forall i :: 0 <= i < |t.calls| ==> StoredBy(idp, t.calls[i]).None? {
      CacheAfterNothingStored(idp, t.calls, c0);
    }
  }

  /** A login that stores tokens is saved at exit: whatever the cache held
      before, `__save_cache` writes what the login stored, a save that
      completes leaves it in the file (off Windows at 0o600, in a directory
      at 0o700), and the save completes whenever the directory exists. */
  lemma {:induction false} LoginThenSave(idp: IdentityProvider, scope: string, interactive: bool, c0: CacheState,
                                         fs: FsState, path: string, platform: string)
    requires LoginRequest(idp, scope, interactive) in GetTokenFlow(idp, scope, interactive).calls
    requires StoredBy(idp, LoginRequest(idp, scope, interactive)).Some?
    ensures var c := CacheAfter(idp, GetTokenFlow(idp, scope, interactive).calls, c0);
            var stored := StoredBy(idp, LoginRequest(idp, scope, interactive)).value;
            var r := SaveCacheStep(fs, c.changed, c.state, path, platform);
            c == CacheState(stored, true)
            && (r.error.None? ==>
                  LoadedState(r.fs, path) == stored
                  && (!IsWindows(platform) ==>
                        r.fs.entries[path] == File(OwnerReadWrite, stored)
                        && r.fs.entries[DirName(path)] == Dir(OwnerAll)))
            && (WellFormed(fs) && path != "" && IsDir(fs, DirName(path)) && !IsDir(fs, path) ==> r.error.None?)
  {
    GetTokenCache(idp, scope, interactive, c0);
    var stored := StoredBy(idp, LoginRequest(idp, scope, interactive)).value;
    SaveCacheEffect(fs, true, stored, path, platform);
    if WellFormed(fs) && path != "" && IsDir(fs, DirName(path)) && !IsDir(fs, path) {
      WriteCacheFileSucceeds(fs, path, stored, platform);
    }
  }

  class NewAuth {
    const clientId: string
    const resourceId: string
    const tenantId: string
    const interactive: bool
    const scope: string
    const tokenPath: string
    const authority: string
    const cache: TokenCache

    /** `NewAuth.__init__` once the arguments are bound: the cache is
        loaded and `__save_cache` is registered to run at exit. */
    constructor (host: Host, clientId: string, resourceId: string, tenantId: string, interactive: bool)
      modifies host
      ensures this.clientId == clientId && this.resourceId == resourceId
      ensures this.tenantId == tenantId && this.interactive == interactive
      ensures scope == Scope(resourceId) && authority == Authority(tenantId)
      ensures tokenPath == Join3(host.home, ".sumo", resourceId + ".token")
      ensures fresh(cache) && cache.state == LoadedState(host.fs, tokenPath) && !cache.hasStateChanged
      ensures host.exitHooks == old(host.exitHooks) + [this]
      ensures host.fs == old(host.fs) && host.calls == old(host.calls)
    {
      this.clientId := clientId;
      this.resourceId := resourceId;
      this.tenantId := tenantId;
      this.interactive := interactive;
      scope := Scope(resourceId);
      authority := Authority(tenantId);
      var path := Join3(host.home, ".sumo", resourceId + ".token");
      tokenPath := path;
      var loaded := LoadCache(host, path);
      cache := loaded;
      new;
      host.RegisterAtExit(this);
    }

    /** `get_token`. Every acquisition it makes stores its tokens, if
        any, in the cache. */
    method GetToken(host: Host, idp: IdentityProvider) returns (r: Result<string>)
      modifies host, cache
      ensures r == GetTokenFlow(idp, scope, interactive).result
      ensures host.calls == old(host.calls) + GetTokenFlow(idp, scope, interactive).calls
      ensures cache.Value() == CacheAfter(idp, GetTokenFlow(idp, scope, interactive).calls, old(cache.Value()))
      ensures host.fs == old(host.fs) && host.exitHooks == old(host.exitHooks)
    {
      ghost var made: seq<Call> := [];
      ghost var c0 := cache.Value();
      Request(host, idp, GetAccounts, made, c0);
      made := made + [GetAccounts];
      var result: Option<TokenResponse> := None;
      if |idp.accounts| > 0 {
        Request(host, idp, AcquireSilent([scope], idp.accounts[0]), made, c0);
        made := made + [AcquireSilent([scope], idp.accounts[0])];
        result := idp.silent;
      }
      assert made == [GetAccounts] + (if |idp.accounts| > 0 then [AcquireSilent([scope], idp.accounts[0])] else []);
      assert host.calls == old(host.calls) + made;
      if result.None? || result.value.IsEmpty() {
        r := Login(host, idp);
        ghost var login := LoginFlow(idp, scope, interactive).calls;
        assert host.calls == old(host.calls) + (made + login);
        CacheAfterConcat(idp, made, login, c0);
      } else {
        r := if result.value.accessToken.Some? then Ok(result.value.accessToken.value)
             else Raise(KeyError("access_token"));
      }
    }

    /** The login of `get_token`. */
    method Login(host: Host, idp: IdentityProvider) returns (r: Result<string>)
      modifies host, cache
      ensures r == LoginFlow(idp, scope, interactive).result
      ensures host.calls == old(host.calls) + LoginFlow(idp, scope, interactive).calls
      ensures cache.Value() == CacheAfter(idp, LoginFlow(idp, scope, interactive).calls, old(cache.Value()))
      ensures host.fs == old(host.fs) && host.exitHooks == old(host.exitHooks)
    {
      var result: TokenResponse;
      ghost var made: seq<Call> := [];
      ghost var c0 := cache.Value();
      if interactive {
        Request(host, idp, AcquireInteractive([scope]), made, c0);
        made := made + [AcquireInteractive([scope])];
        assert made == LoginFlow(idp, scope, interactive).calls;
        if idp.interactive.error.Some? {
          return Raise(UnboundLocalError("flow"));
        }
        result := idp.interactive;
      } else {
        Request(host, idp, InitiateDeviceFlow([scope]), made, c0);
        made := made + [InitiateDeviceFlow([scope])];
        var flow := idp.deviceFlow;
        if flow.userCode.None? {
          return Raise(ValueError("Fail to create device flow."));
        }
        if flow.message.None? {
          return Raise(KeyError("message"));
        }
        Request(host, idp, Printed(flow.message.value), made, c0);
        made := made + [Printed(flow.message.value)];
        Request(host, idp, AcquireByDeviceFlow(flow), made, c0);
        made := made + [AcquireByDeviceFlow(flow)];
        assert made == [InitiateDeviceFlow([scope]), Printed(flow.message.value), AcquireByDeviceFlow(flow)];
        assert made == LoginFlow(idp, scope, interactive).calls;
        result := idp.byDeviceFlow;
      }
      r := if result.accessToken.Some? then Ok(result.accessToken.value)
           else Raise(KeyError("access_token"));
    }

    /** One request to the provider, and what it stores in the cache. */
    method Request(host: Host, idp: IdentityProvider, c: Call, ghost made: seq<Call>, ghost c0: CacheState)
      requires cache.Value() == CacheAfter(idp, made, c0)
      modifies host, cache
      ensures host.calls == old(host.calls) + [c]
      ensures cache.Value() == CacheAfter(idp, made + [c], c0)
      ensures host.fs == old(host.fs) && host.exitHooks == old(host.exitHooks)
    {
      host.Record(c);
      cache.Store(StoredBy(idp, c));
      CacheAfterAppend(idp, made, c, c0);
    }

    /** `__save_cache`, the hook run at exit. */
    method SaveCache(host: Host) returns (error: Option<PyError>)
      modifies host
      ensures Step(host.fs, error) ==
              SaveCacheStep(old(host.fs), cache.hasStateChanged, cache.state, tokenPath, host.platform)
      ensures host.calls == old(host.calls) && host.exitHooks == old(host.exitHooks)
    {
      error := None;
      if cache.hasStateChanged {
        error := WriteCache(host, tokenPath, cache.Serialize());
      }
    }
  }
}

=== FILE: paths.dfy ===
/**
 * POSIX path handling as Python's `posixpath` does it: `os.path.join`
 * and `os.path.dirname`, enough to place the token cache at
 * `~/.sumo/{resource_id}.token` and find its directory.
 */
module Paths {

  /** Python's `s.rfind(c)` for one character. */
  function RFind(s: string, c: char): (r: int)
    ensures -1 <= r < |s|
    ensures r >= 0 ==> s[r] == c
    ensures forall j :: r < j < |s| ==> s[j] != c
  {
    if s == [] then -1
    else if s[|s| - 1] == c then |s| - 1
    else RFind(s[..|s| - 1], c)
  }

  /** Python's `s.rstrip(c)` for one character. */
  function RStrip(s: string, c: char): (r: string)
    ensures |r| <= |s| && r == s[..|r|]
    ensures r == [] || r[|r| - 1] != c
    ensures forall j :: |r| <= j < |s| ==> s[j] == c
  {
    if s != [] && s[|s| - 1] == c then RStrip(s[..|s| - 1], c) else s
  }

  predicate AllSlashes(s: string) {
    forall j :: 0 <= j < |s| ==> s[j] == '/'
  }

  /** `posixpath.join(a, b)`: an absolute `b` discards `a`; a separator is
      added only when `a` is non-empty and does not already end in one. */
  function Join(a: string, b: string): string {
    if |b| > 0 && b[0] == '/' then b
    else if a == [] || a[|a| - 1] == '/' then a + b
    else a + "/" + b
  }

  /** `posixpath.dirname(p)`: everything up to the last separator, with
      trailing separators removed unless it consists of separators only. */
  function DirName(p: string): (d: string)
    ensures |d| <= |p| && d == p[..|d|]
  {
    var head := p[..RFind(p, '/') + 1];
    if head != [] && !AllSlashes(head) then RStrip(head, '/') else head
  }

  /** `os.path.join(home, ".sumo", name)`. */
  function Join3(a: string, b: string, c: string): string {
    Join(Join(a, b), c)
  }

  lemma {:induction false} RFindLast(x: string, y: string, c: char)
    requires forall j :: 0 <= j < |y| ==> y[j] != c
    ensures RFind(x + [c] + y, c) == |x|
    decreases |y|
  {
    var s := x + [c] + y;
    if y != [] {
      assert s[..|s| - 1] == x + [c] + y[..|y| - 1];
      RFindLast(x, y[..|y| - 1], c);
    }
  }

  /** Joining a directory that does not end in '/' with a name free of '/'
      gives a path whose directory is that directory again. */
  lemma {:induction false} DirNameOfJoin(d: string, name: string)
    requires d != [] && d[|d| - 1] != '/'
    requires forall j :: 0 <= j < |name| ==> name[j] != '/'
    ensures DirName(Join(d, name)) == d
  {
    var p := Join(d, name);
    if |name| > 0 {
      assert name[0] != '/';
    }
    assert p == d + ['/'] + name;
    RFindLast(d, name, '/');
    var head := p[..|d| + 1];
    assert head == d + ['/'];
    assert !AllSlashes(head) by { assert head[|d| - 1] != '/'; }
    var r := RStrip(head, '/');
    assert head[|d| - 1] != '/' && head[|d|] == '/';
    assert |r| == |d|;
  }

  /** The token cache file `~/.sumo/{resource_id}.token`
      (src/sumo/wrapper/_auth_provider.py:69-72, _new_auth.py:22-24,
      _auth.py:40-42). */
  function TokenPath(home: string, resourceId: string): (p: string)
  {
    Join3(home, ".sumo", resourceId + ".token")
  }

  /** The directory of the token file is `~/.sumo`, whatever the resource
      id, as long as the id holds no separator. */
  lemma {:induction false} TokenDirectory(home: string, resourceId: string)
    requires forall j :: 0 <= j < |resourceId| ==> resourceId[j] != '/'
    ensures DirName(TokenPath(home, resourceId)) == Join(home, ".sumo")
  {
    var dir := Join(home, ".sumo");
    assert dir[|dir| - 1] == 'o';
    var name := resourceId + ".token";
    assert forall j :: 0 <= j < |name| ==> name[j] != '/' by {
      forall j | 0 <= j < |name| ensures name[j] != '/' {
        if j >= |resourceId| {
          assert name[j] == ".token"[j - |resourceId|];
        }
      }
    }
    DirNameOfJoin(dir, name);
  }
}

=== FILE: request_error.dfy ===
/**
 * The error taxonomy of the Sumo API (src/sumo/wrapper/_request_error.py):
 * a status code is classified as transient, authentication or permanent,
 * and each kind renders with its own fixed text.
 */
module RequestErrors {
  import opened Wrappers
  import opened Text

  datatype ErrorKind = Transient | Authentication | Permanent

  /** A raised `TransientError`, `AuthenticationError` or `PermanentError`. */
  datatype RequestError = RequestError(kind: ErrorKind, code: int, message: string)

  /** Codes worth retrying by the caller. */
  const TransientCodes: set<int> := {404, 500, 503, 504}

  /** Codes saying the token was refused. */
  predicate IsAuthenticationCode(code: int) {
    401 <= code <= 403
  }

  /** The if/elif chain of `raise_request_error_exception`. */
  function Classify(code: int): (k: ErrorKind)
    ensures k == Transient <==> code in TransientCodes
    ensures k == Authentication <==> IsAuthenticationCode(code)
    ensures k == Permanent <==> code !in TransientCodes && !IsAuthenticationCode(code)
  {
    if 503 <= code <= 504 || code == 404 || code == 500 then Transient
    else if 401 <= code <= 403 then Authentication
    else Permanent
  }

  /** `raise_request_error_exception(code, message)`: the function never
      returns normally; the value here is the exception it raises. */
  function RaiseRequestErrorException(code: int, message: string): (e: RequestError)
    ensures e.code == code && e.message == message
    ensures e.kind == Transient <==> code in TransientCodes
    ensures e.kind == Authentication <==> IsAuthenticationCode(code)
    ensures e.kind == Permanent <==> code !in TransientCodes && !IsAuthenticationCode(code)
  {
    RequestError(Classify(code), code, message)
  }

  /** Some codes of each kind, as the taxonomy lists them. */
  lemma {:induction false} ClassifyExamples()
    ensures Classify(404) == Transient && Classify(500) == Transient
    ensures Classify(503) == Transient && Classify(504) == Transient
    ensures Classify(401) == Authentication && Classify(403) == Authentication
    ensures Classify(400) == Permanent && Classify(405) == Permanent
    ensures Classify(501) == Permanent && Classify(502) == Permanent && Classify(505) == Permanent
  {
  }

  function KindPrefix(k: ErrorKind): string {
    match k
    case Authentication => "Authentication failed with status code "
    case Transient => "Transient Error with status code "
    case Permanent => "Fatal Request Error with status code "
  }

  /** `__str__` of the three subclasses. */
  function Render(e: RequestError): (s: string)
    ensures StartsWith(s, KindPrefix(e.kind))
    ensures |s| > 0 && s[|s| - 1] == '.'
  {
    KindPrefix(e.kind) + IntToString(e.code) + " and text " + e.message + "."
  }

  /** `__str__` of the base class `RequestError` (no final full stop). */
  function RenderBase(code: int, message: string): string {
    "Request Error with status code " + IntToString(code) + " and text " + message
  }

  /** Recovers the kind and the code from a rendered error. */
  function ParseRendered(s: string): Option<(ErrorKind, int)> {
    if StartsWith(s, KindPrefix(Authentication)) then
      Some((Authentication, LeadingInt(s[|KindPrefix(Authentication)|..])))
    else if StartsWith(s, KindPrefix(Transient)) then
      Some((Transient, LeadingInt(s[|KindPrefix(Transient)|..])))
    else if StartsWith(s, KindPrefix(Permanent)) then
      Some((Permanent, LeadingInt(s[|KindPrefix(Permanent)|..])))
    else None
  }

  /** The rendered text of an error determines its kind and its code,
      whatever the message says. */
  lemma {:induction false} RenderParses(e: RequestError)
    ensures ParseRendered(Render(e)) == Some((e.kind, e.code))
  {
    var p := KindPrefix(e.kind);
    var rest := " and text " + e.message + ".";
    var s := Render(e);
    RenderRegrouped(e);
    StartsWithConcat(p, IntToString(e.code) + rest);
    IntToStringLeadingInt(e.code, rest);
    var a, t := KindPrefix(Authentication), KindPrefix(Transient);
    match e.kind
    case Authentication =>
    case Transient =>
      OtherHead(s, p, a);
    case Permanent =>
      OtherHead(s, p, a);
      OtherHead(s, p, t);
  }

  /** The rendered text as the prefix followed by the rest. */
  lemma {:induction false} RenderRegrouped(e: RequestError)
    ensures Render(e) == KindPrefix(e.kind) + (IntToString(e.code) + (" and text " + e.message + "."))
  {
  }

  /** A text starting with `p` does not start with a `q` whose first
      character differs. */
  lemma {:induction false} OtherHead(s: string, p: string, q: string)
    requires StartsWith(s, p) && |p| > 0 && |q| > 0 && p[0] != q[0]
    ensures !StartsWith(s, q)
  {
    StartsWithHead(s, p);
  }

  /** Two errors render alike only if they agree on kind and code. */
  lemma {:induction false} RenderDistinguishes(e1: RequestError, e2: RequestError)
    requires Render(e1) == Render(e2)
    ensures e1.kind == e2.kind && e1.code == e2.code
  {
    RenderParses(e1);
    RenderParses(e2);
  }

  /** The base class text is never mistaken for one of the three kinds. */
  lemma {:induction false} RenderBaseIsNoKind(code: int, message: string)
    ensures ParseRendered(RenderBase(code, message)) == None
  {
    var s := RenderBase(code, message);
    assert s[0] == 'R';
    forall k: ErrorKind
      ensures !StartsWith(s, KindPrefix(k))
    {
      assert KindPrefix(k)[0] != 'R';
      if StartsWith(s, KindPrefix(k)) {
        StartsWithHead(s, KindPrefix(k));
      }
    }
  }
}

=== FILE: sumo_client.dfy ===
/**
 * `SumoClient` (src/sumo/wrapper/sumo_client.py): the client of the Sumo
 * API. A supplied token is kept as an access token when it decodes as a
 * JSON Web Token with a payload, and as a refresh token otherwise; every
 * request carries the token as a Bearer credential, and an error status
 * is classified as transient, authentication or permanent.
 */
module Client {
  import opened Wrappers
  import opened Text
  import opened Exceptions
  import opened Identity
  import opened Http
  import NewAuthSession
  import Config

  const LocalBaseUrl := "http://localhost:8084/api/v1"
  const RadixPrefix := "https://main-sumo-"
  const RadixSuffix := ".radix.equinor.com/api/v1"

  /** The base url of an environment's Sumo API. */
  function BaseUrl(env: string): (u: string)
    ensures env == "localhost" ==> u == LocalBaseUrl
    ensures env != "localhost" ==>
              |u| == |RadixPrefix| + |env| + |RadixSuffix|
              && u[..|RadixPrefix|] == RadixPrefix
              && u[|RadixPrefix|..|RadixPrefix| + |env|] == env
              && u[|RadixPrefix| + |env|..] == RadixSuffix
  {
    if env == "localhost" then LocalBaseUrl
    else RadixPrefix + env + RadixSuffix
  }

  /** The fifth character tells the local url from the others. */
  lemma {:induction false} BaseUrlScheme(env: string)
    ensures |BaseUrl(env)| > 4
    ensures BaseUrl(env)[4] == (if env == "localhost" then ':' else 's')
  {
    if env != "localhost" {
      var u := BaseUrl(env);
      assert u[4] == u[..|RadixPrefix|][4];
    }
  }

  /** Distinct environments have distinct base urls. */
  lemma {:induction false} BaseUrlInjective(env1: string, env2: string)
    requires BaseUrl(env1) == BaseUrl(env2)
    ensures env1 == env2
  {
    BaseUrlScheme(env1);
    BaseUrlScheme(env2);
    if env1 != "localhost" && env2 != "localhost" {
      assert |env1| == |env2|;
    }
  }

  const JsonType := "application/json"
  const OctetStream := "application/octet-stream"

  /** The keywords `__init__` passes to `NewAuth` when no token is given. */
  const NewAuthKeywords: seq<string> :=
    ["client_id", "resource_id", "tenant_id", "interactive", "refresh_token", "verbosity"]

  /** What a supplied token is taken for. */
  datatype SuppliedToken = AccessToken(token: string, expires: int) | RefreshToken(token: string)

  /** A decoded, non-empty payload makes the token an access token expiring
      at its "exp" claim (section 4.1.4 of RFC 7519); a payload without
      "exp" raises `KeyError`; a token that does not decode, or decodes to
      an empty payload, is a refresh token. */
  function ClassifyToken(token: string, decode: JwtDecoder): (r: Result<SuppliedToken>)
    ensures r.Ok? ==> r.value.token == token
    ensures r.Ok? && r.value.AccessToken? <==> decode(token).Some? && |decode(token).value| > 0 && "exp" in decode(token).value
    ensures r.Ok? && r.value.AccessToken? ==> r.value.expires == decode(token).value["exp"]
    ensures r.Raise? <==> decode(token).Some? && |decode(token).value| > 0 && "exp" !in decode(token).value
    ensures r.Raise? ==> r.error == KeyError("exp")
  {
    match decode(token)
    case Some(payload) =>
      if |payload| == 0 then Ok(RefreshToken(token))
      else if "exp" in payload then Ok(AccessToken(token, payload["exp"]))
      else Raise(KeyError("exp"))
    case None => Ok(RefreshToken(token))
  }

  /** The exception `__init__` raises, if any: an unknown environment, a
      JWT payload without "exp", or, without a token, the call to
      `NewAuth` with keywords it does not accept. */
  function InitError(env: string, token: Option<string>, decode: JwtDecoder): Option<PyError> {
    if !Config.IsAppEnvironment(env) then Some(ValueError("Invalid environment: " + env))
    else if Truthy(token) then
      match ClassifyToken(token.value, decode)
      case Raise(e) => Some(e)
      case Ok(_) => None
    else NewAuthSession.BindKeywords(NewAuthKeywords)
  }

  /** Construction fails on an unknown environment before the token is
      looked at, always fails without a token, and with a token fails only
      on a payload without "exp". */
  lemma {:induction false} InitErrorCases(env: string, token: Option<string>, decode: JwtDecoder)
    ensures !Config.IsAppEnvironment(env) ==> InitError(env, token, decode) == Some(ValueError("Invalid environment: " + env))
    ensures Config.IsAppEnvironment(env) && !Truthy(token) ==>
              InitError(env, token, decode) == Some(TypeError("refresh_token"))
    ensures Config.IsAppEnvironment(env) && Truthy(token) ==>
              (InitError(env, token, decode).None? <==> ClassifyToken(token.value, decode).Ok?)
  {
    NewAuthSession.SumoClientKeywordsRefused();
  }

  /** The keys "$k" for the keys k of `keys`. */
  function PrefixedKeys(keys: set<string>): (r: set<string>)
    ensures forall k :: k in keys ==> "$" + k in r
    ensures forall key :: key in r ==> |key| > 0 && key[0] == '$' && key[1..] in keys
  {
    var r := set k | k in keys :: "$" + k;
    assert forall key :: key in r ==> |key| > 0 && key[0] == '$' && key[1..] in keys by {
      forall key | key in r ensures |key| > 0 && key[0] == '$' && key[1..] in keys {
        var k :| k in keys && key == "$" + k;
        assert key[1..] == k;
      }
    }
    r
  }

  /** The entries "$k": v for the entries k: v of `params` whose key is in
      `done`. */
  function Prefixing(params: JsonObject, done: set<string>): JsonObject
    requires done <= params.Keys
  {
    map key | key in PrefixedKeys(done) :: params[key[1..]]
  }

  /** `_process_params` as a value: every key prefixed with "$", the
      values unchanged, and None for no parameters. */
  function PrefixedParams(params: JsonObject): Option<JsonObject> {
    var prefixed := Prefixing(params, params.Keys);
    if prefixed == map[] then None else Some(prefixed)
  }

  /** One more key prefixed adds one entry. */
  lemma {:induction false} PrefixingStep(params: JsonObject, done: set<string>, k: string)
    requires done <= params.Keys && k in params && k !in done
    ensures Prefixing(params, done + {k}) == Prefixing(params, done)["$" + k := params[k]]
    ensures "$" + k !in Prefixing(params, done)
  {
    assert ("$" + k)[1..] == k;
    var a := Prefixing(params, done + {k});
    var b := Prefixing(params, done)["$" + k := params[k]];
    assert a.Keys == b.Keys;
  }

  lemma {:induction false} PrefixingSize(params: JsonObject, done: set<string>)
    requires done <= params.Keys
    ensures |Prefixing(params, done)| == |done|
    decreases |done|
  {
    if done == {} {
      assert Prefixing(params, done) == map[];
    } else {
      var k :| k in done;
      var rest := done - {k};
      assert rest + {k} == done;
      PrefixingSize(params, rest);
      PrefixingStep(params, rest, k);
      assert |Prefixing(params, rest)["$" + k := params[k]]| == |rest| + 1;
    }
  }

  /** The prefixed parameters have one entry per parameter, under "$" and
      the key, with its value, and no other entry; they are None exactly
      for no parameters. */
  lemma {:induction false} PrefixedParamsShape(params: JsonObject)
    ensures PrefixedParams(params).None? <==> params == map[]
    ensures PrefixedParams(params).Some? ==>
              var p := PrefixedParams(params).value;
              |p| == |params|
              && (forall k :: k in params ==> "$" + k in p && p["$" + k] == params[k])
              && (forall key :: key in p ==> |key| > 0 && key[0] == '$' && key[1..] in params)
  {
    PrefixingSize(params, params.Keys);
    var p := Prefixing(params, params.Keys);
    forall k | k in params ensures "$" + k in p && p["$" + k] == params[k] {
      assert ("$" + k)[1..] == k;
    }
  }

  /** `_process_params`: the dict filled key by key in a loop. */
  method ProcessParams(params: JsonObject) returns (r: Option<JsonObject>)
    ensures r == PrefixedParams(params)
  {
    var prefixed: JsonObject := map[];
    var todo := params.Keys;
    ghost var done: set<string> := {};
    while todo != {}
      invariant todo + done == params.Keys && todo !! done
      invariant prefixed == Prefixing(params, done)
      decreases |todo|
    {
      var k :| k in todo;
      PrefixingStep(params, done, k);
      prefixed := prefixed["$" + k := params[k]];
      todo, done := todo - {k}, done + {k};
    }
    assert done == params.Keys;
    r := if prefixed == map[] then None else Some(prefixed);
  }

  /** The request `get` sends. */
  function PlanGet(baseUrl: string, path: string, params: JsonObject, token: string): (q: Request)
    ensures q.verb == GET && q.url == baseUrl + path && q.params == PrefixedParams(params)
    ensures Names(q.headers) == ["Content-Type", "authorization"]
    ensures HeaderValue(q.headers, "authorization") == Some(Bearer(token))
    ensures HeaderValue(q.headers, "Content-Type") == Some(JsonType)
    ensures q.blob.None? && q.json.None?
  {
    var headers := [("Content-Type", JsonType), ("authorization", Bearer(token))];
    DistinctHeaders2(headers);
    Request(GET, baseUrl + path, PrefixedParams(params), headers, None, None)
  }

  /** `get` returns the raw body for a blob path, decoded JSON otherwise. */
  function GetShape(path: string): (shape: Shape)
    ensures shape == AsBytes <==> Contains(path, "/blob")
    ensures shape == AsJson <==> !Contains(path, "/blob")
  {
    if Contains(path, "/blob") then AsBytes else AsJson
  }

  /** The request `post` sends, or its `ValueError` for two payloads. */
  function PlanPost(baseUrl: string, path: string, blob: Option<Bytes>, json: Option<JsonObject>,
                    params: Option<JsonObject>, token: string): (r: Result<Request>)
    ensures r.Raise? <==> NonEmpty(blob) && Filled(json)
    ensures r.Raise? ==> r.error.ValueError?
    ensures r.Ok? ==> r.value.verb == POST && r.value.url == baseUrl + path && r.value.params == params
                      && r.value.blob == blob && r.value.json == json
    ensures r.Ok? ==> Names(r.value.headers) == ["Content-Type", "authorization"]
                      && HeaderValue(r.value.headers, "authorization") == Some(Bearer(token))
    ensures r.Ok? ==> (HeaderValue(r.value.headers, "Content-Type") == Some(OctetStream) <==> NonEmpty(blob))
                      && (HeaderValue(r.value.headers, "Content-Type") == Some(JsonType) <==> !NonEmpty(blob))
  {
    if NonEmpty(blob) && Filled(json) then Raise(ValueError("Both blob and json given to post."))
    else
      var contentType := if NonEmpty(blob) then OctetStream else JsonType;
      var headers := [("Content-Type", contentType), ("authorization", Bearer(token))];
      DistinctHeaders2(headers);
      Ok(Request(POST, baseUrl + path, params, headers, blob, json))
  }

  /** The request `put` sends, or its `ValueError` for two payloads. */
  function PlanPut(baseUrl: string, path: string, blob: Option<Bytes>, json: Option<JsonObject>,
                   token: string): (r: Result<Request>)
    ensures r.Raise? <==> NonEmpty(blob) && Filled(json)
    ensures r.Raise? ==> r.error.ValueError?
    ensures r.Ok? ==> r.value.verb == PUT && r.value.url == baseUrl + path && r.value.params.None?
                      && r.value.blob == blob && r.value.json == json
    ensures r.Ok? ==> Names(r.value.headers) == ["Content-Type", "authorization"]
                      && HeaderValue(r.value.headers, "authorization") == Some(Bearer(token))
    ensures r.Ok? ==> (HeaderValue(r.value.headers, "Content-Type") == Some(JsonType) <==> json.Some?)
                      && (HeaderValue(r.value.headers, "Content-Type") == Some(OctetStream) <==> json.None?)
  {
    if NonEmpty(blob) && Filled(json) then Raise(ValueError("Both blob and json given to post"))
    else
      var contentType := if json.Some? then JsonType else OctetStream;
      var headers := [("Content-Type", contentType), ("authorization", Bearer(token))];
      DistinctHeaders2(headers);
      Ok(Request(PUT, baseUrl + path, None, headers, blob, json))
  }

  /** The request `delete` sends; its credential header is spelled
      "Authorization". */
  function PlanDelete(baseUrl: string, path: string, token: string): (q: Request)
    ensures q.verb == DELETE && q.url == baseUrl + path && q.params.None?
    ensures Names(q.headers) == ["Content-Type", "Authorization"]
    ensures HeaderValue(q.headers, "Authorization") == Some(Bearer(token))
    ensures HeaderValue(q.headers, "authorization").None?
    ensures q.blob.None? && q.json.None?
  {
    var headers := [("Content-Type", JsonType), ("Authorization", Bearer(token))];
    DistinctHeaders2(headers);
    Request(DELETE, baseUrl + path, None, headers, None, None)
  }

  /** A post or put with both payloads is refused whatever the token, and
      a post with a non-empty blob labels it as octets even when the json
      is an empty dict. */
  lemma {:induction false} PayloadRules(baseUrl: string, path: string, blob: Option<Bytes>, json: Option<JsonObject>,
                     params: Option<JsonObject>, t1: string, t2: string)
    ensures PlanPost(baseUrl, path, blob, json, params, t1).Raise? == PlanPost(baseUrl, path, blob, json, params, t2).Raise?
    ensures PlanPut(baseUrl, path, blob, json, t1).Raise? == PlanPut(baseUrl, path, blob, json, t2).Raise?
    ensures NonEmpty(blob) && json == Some(map[]) ==>
              PlanPost(baseUrl, path, blob, json, params, t1).Ok?
              && HeaderValue(PlanPost(baseUrl, path, blob, json, params, t1).value.headers, "Content-Type") == Some(OctetStream)
              && PlanPut(baseUrl, path, blob, json, t1).Ok?
              && HeaderValue(PlanPut(baseUrl, path, blob, json, t1).value.headers, "Content-Type") == Some(JsonType)
  {
  }

  class SumoClient {
    const env: string
    const baseUrl: string
    const accessToken: Option<string>
    const accessTokenExpires: Option<int>
    const refreshToken: Option<string>

    /** The fields `__init__` sets once its checks have passed. */
    constructor (env: string, supplied: SuppliedToken)
      ensures this.env == env && baseUrl == BaseUrl(env)
      ensures supplied.AccessToken? ==>
                accessToken == Some(supplied.token) && accessTokenExpires == Some(supplied.expires)
                && refreshToken.None?
      ensures supplied.RefreshToken? ==>
                accessToken.None? && accessTokenExpires.None? && refreshToken == Some(supplied.token)
    {
      this.env := env;
      baseUrl := BaseUrl(env);
      match supplied {
        case AccessToken(t, exp) =>
          accessToken, accessTokenExpires, refreshToken := Some(t), Some(exp), None;
        case RefreshToken(t) =>
          accessToken, accessTokenExpires, refreshToken := None, None, Some(t);
      }
    }

    /** `_retrieve_token` at `now` (whole seconds): a user access token is
        returned until its expiry, after which it raises `ValueError`;
        without one the client looks for an `auth` attribute that it never
        set. */
    function RetrieveToken(now: int): (r: Result<string>)
      ensures Truthy(accessToken) && accessTokenExpires.Some? ==>
                (r.Ok? <==> now < accessTokenExpires.value)
      ensures Truthy(accessToken) && accessTokenExpires.Some? && r.Raise? ==> r.error.ValueError?
      ensures r.Ok? ==> Truthy(accessToken) && r.value == accessToken.value
      ensures !Truthy(accessToken) ==> r == Raise(AttributeError("auth"))
    {
      if Truthy(accessToken) then
        match accessTokenExpires
        case None => Raise(TypeError("'<=' not supported between instances of 'NoneType' and 'int'"))
        case Some(exp) =>
          if exp <= now then Raise(ValueError("Access_token has expired")) else Ok(accessToken.value)
      else Raise(AttributeError("auth"))
    }

    /** `get(path, **params)` against the exchange `x`; `sent` is the
        request that goes out, if any. */
    method Get(now: int, path: string, params: JsonObject, x: Exchange) returns (r: Result<Reply>, sent: Option<Request>)
      ensures RetrieveToken(now).Raise? ==> r == Raise(RetrieveToken(now).error) && sent.None?
      ensures RetrieveToken(now).Ok? ==>
                sent == Some(PlanGet(baseUrl, path, params, RetrieveToken(now).value))
                && r == Finish(x, false, GetShape(path))
    {
      var token := RetrieveToken(now);
      if token.Raise? {
        return Raise(token.error), None;
      }
      var query := ProcessParams(params);
      sent := Some(Request(GET, baseUrl + path, query,
                           [("Content-Type", JsonType), ("authorization", Bearer(token.value))], None, None));
      r := Finish(x, false, GetShape(path));
    }

    /** `post`: the token is retrieved before the payloads are checked. */
    method Post(now: int, path: string, blob: Option<Bytes>, json: Option<JsonObject>, params: Option<JsonObject>,
                x: Exchange) returns (r: Result<Reply>, sent: Option<Request>)
      ensures RetrieveToken(now).Raise? ==> r == Raise(RetrieveToken(now).error) && sent.None?
      ensures RetrieveToken(now).Ok? ==>
                var plan := PlanPost(baseUrl, path, blob, json, params, RetrieveToken(now).value);
                (plan.Raise? ==> r == Raise(plan.error) && sent.None?)
                && (plan.Ok? ==> sent == Some(plan.value) && r == Finish(x, true, AsResponse))
    {
      var token := RetrieveToken(now);
      if token.Raise? {
        return Raise(token.error), None;
      }
      var plan := PlanPost(baseUrl, path, blob, json, params, token.value);
      if plan.Raise? {
        return Raise(plan.error), None;
      }
      sent := Some(plan.value);
      r := Finish(x, true, AsResponse);
    }

    /** `put`: as `post`, without query parameters. */
    method Put(now: int, path: string, blob: Option<Bytes>, json: Option<JsonObject>, x: Exchange)
      returns (r: Result<Reply>, sent: Option<Request>)
      ensures RetrieveToken(now).Raise? ==> r == Raise(RetrieveToken(now).error) && sent.None?
      ensures RetrieveToken(now).Ok? ==>
                var plan := PlanPut(baseUrl, path, blob, json, RetrieveToken(now).value);
                (plan.Raise? ==> r == Raise(plan.error) && sent.None?)
                && (plan.Ok? ==> sent == Some(plan.value) && r == Finish(x, true, AsResponse))
    {
      var token := RetrieveToken(now);
      if token.Raise? {
        return Raise(token.error), None;
      }
      var plan := PlanPut(baseUrl, path, blob, json, token.value);
      if plan.Raise? {
        return Raise(plan.error), None;
      }
      sent := Some(plan.value);
      r := Finish(x, true, AsResponse);
    }

    /** `delete`: the decoded JSON body; a proxy failure propagates. */
    method Delete(now: int, path: string, x: Exchange) returns (r: Result<Reply>, sent: Option<Request>)
      ensures RetrieveToken(now).Raise? ==> r == Raise(RetrieveToken(now).error) && sent.None?
      ensures RetrieveToken(now).Ok? ==>
                sent == Some(PlanDelete(baseUrl, path, RetrieveToken(now).value))
                && r == Finish(x, false, AsJson)
    {
      var token := RetrieveToken(now);
      if token.Raise? {
        return Raise(token.error), None;
      }
      sent := Some(PlanDelete(baseUrl, path, token.value));
      r := Finish(x, false, AsJson);
    }
  }

  /** `SumoClient(env, token)`. The `interactive` flag only reaches
      `NewAuth`, which refuses the call, so it has no effect. */
  method Create(env: string, token: Option<string>, decode: JwtDecoder) returns (r: Result<SumoClient>)
    ensures r.Raise? <==> InitError(env, token, decode).Some?
    ensures r.Raise? ==> r.error == InitError(env, token, decode).value
    ensures r.Ok? ==> fresh(r.value) && r.value.env == env && r.value.baseUrl == BaseUrl(env)
    ensures r.Ok? ==> Truthy(token) && ClassifyToken(token.value, decode).Ok?
    ensures r.Ok? && ClassifyToken(token.value, decode).value.AccessToken? ==>
              r.value.accessToken == token
              && r.value.accessTokenExpires == Some(ClassifyToken(token.value, decode).value.expires)
              && r.value.refreshToken.None?
    ensures r.Ok? && ClassifyToken(token.value, decode).value.RefreshToken? ==>
              r.value.accessToken.None? && r.value.refreshToken == token
  {
    if !Config.IsAppEnvironment(env) {
      return Raise(ValueError("Invalid environment: " + env));
    }
    if !Truthy(token) {
      var bound := NewAuthSession.BindKeywords(NewAuthKeywords);
      NewAuthSession.SumoClientKeywordsRefused();
      return Raise(bound.value);
    }
    var supplied := ClassifyToken(token.value, decode);
    if supplied.Raise? {
      return Raise(supplied.error);
    }
    var client := new SumoClient(env, supplied.value);
    r := Ok(client);
  }

  /** A client built with a refresh token can make no request: every
      verb raises `AttributeError` before anything is sent. */
  lemma {:induction false} RefreshTokenClientCannotRequest(c: SumoClient, now: int)
    requires c.accessToken.None?
    ensures c.RetrieveToken(now) == Raise(AttributeError("auth"))
  {
  }
}

=== FILE: text.dfy ===
/**
 * String operations the client relies on, written out as Python defines
 * them: `str.find`, the `in` operator on strings, `str.startswith`,
 * ASCII `lower()`, `str.split` and `str.join` on one character, and the
 * decimal rendering `str(int)` used for status codes and `Content-Length`.
 */
module Text {
  import opened Wrappers

  /** `needle` occurs in `s` starting at index `j`. */
  predicate OccursAt(s: string, needle: string, j: int) {
    0 <= j && j + |needle| <= |s| && s[j..j + |needle|] == needle
  }

  /** Python's `s.find(needle)`: the lowest index of an occurrence, or -1. */
  function Find(s: string, needle: string): (r: int)
    ensures r == -1 || OccursAt(s, needle, r)
    ensures r == -1 <==> forall j :: 0 <= j <= |s| ==> !OccursAt(s, needle, j)
    ensures r >= 0 ==> forall j :: 0 <= j < r ==> !OccursAt(s, needle, j)
    decreases |s|
  {
    if |s| < |needle| then
      assert forall j :: 0 <= j <= |s| ==> !OccursAt(s, needle, j);
      -1
    else if s[..|needle|] == needle then 0
    else
      var k := Find(s[1..], needle);
      assert forall j :: 1 <= j <= |s| ==> (OccursAt(s, needle, j) <==> OccursAt(s[1..], needle, j - 1)) by {
        forall j | 1 <= j <= |s|
          ensures OccursAt(s, needle, j) <==> OccursAt(s[1..], needle, j - 1)
        {
          if j + |needle| <= |s| {
            assert s[1..][j - 1..j - 1 + |needle|] == s[j..j + |needle|];
          }
        }
      }
      if k < 0 then -1 else k + 1
  }

  /** Python's `needle in s` for strings. */
  predicate Contains(s: string, needle: string) {
    Find(s, needle) >= 0
  }

  lemma {:induction false} ContainsMeansOccurs(s: string, needle: string)
    ensures Contains(s, needle) <==> exists j :: OccursAt(s, needle, j)
  {
    if exists j :: OccursAt(s, needle, j) {
      var j :| OccursAt(s, needle, j);
      assert 0 <= j <= |s|;
    }
  }

  /** An occurrence inside the left operand survives appending. */
  lemma {:induction false} ContainsAppend(s: string, t: string, needle: string)
    requires Contains(s, needle)
    ensures Contains(s + t, needle)
  {
    var j := Find(s, needle);
    assert (s + t)[j..j + |needle|] == s[j..j + |needle|];
    assert OccursAt(s + t, needle, j);
  }

  /** Python's `s.startswith(prefix)`. */
  predicate StartsWith(s: string, prefix: string) {
    |prefix| <= |s| && s[..|prefix|] == prefix
  }

  lemma {:induction false} StartsWithConcat(p: string, x: string)
    ensures StartsWith(p + x, p) && (p + x)[|p|..] == x
  {
    assert (p + x)[..|p|] == p;
  }

  /** A string starting with `p` starts with `p`'s first character. */
  lemma {:induction false} StartsWithHead(s: string, p: string)
    requires StartsWith(s, p) && |p| > 0
    ensures s[0] == p[0]
  {
    assert s[..|p|][0] == s[0];
  }

  /** ASCII part of Python's `str.lower()`. */
  function LowerChar(c: char): (d: char)
    ensures 'A' <= c <= 'Z' ==> 'a' <= d <= 'z'
    ensures !('A' <= c <= 'Z') ==> d == c
  {
    if 'A' <= c <= 'Z' then (c as int - 'A' as int + 'a' as int) as char else c
  }

  function Lower(s: string): (r: string)
    ensures |r| == |s|
    ensures forall i :: 0 <= i < |s| ==> r[i] == LowerChar(s[i])
  {
    seq(|s|, i requires 0 <= i < |s| => LowerChar(s[i]))
  }

  predicate IsDigit(c: char) {
    '0' <= c <= '9'
  }

  predicate AllDigits(s: string) {
    forall i :: 0 <= i < |s| ==> IsDigit(s[i])
  }

  function DigitChar(d: nat): (c: char)
    requires d < 10
    ensures IsDigit(c) && c as int - '0' as int == d
  {
    ('0' as int + d) as char
  }

  /** Python's `str(n)` for a non-negative integer. */
  function NatToString(n: nat): (s: string)
    ensures |s| >= 1 && AllDigits(s)
    ensures n >= 10 ==> s[0] != '0'
    decreases n
  {
    if n < 10 then [DigitChar(n)] else NatToString(n / 10) + [DigitChar(n % 10)]
  }

  /** Python's `str(i)` for any integer: a minus sign, then the digits. */
  function IntToString(i: int): (s: string)
    ensures |s| >= 1
    ensures i < 0 <==> s[0] == '-'
  {
    if i < 0 then "-" + NatToString(-i) else NatToString(i)
  }

  /** The value of a string of decimal digits. */
  function DigitsValue(s: string): nat
    requires AllDigits(s)
  {
    if s == [] then 0 else DigitsValue(s[..|s| - 1]) * 10 + (s[|s| - 1] as int - '0' as int)
  }

  /** The longest prefix of `s` made of decimal digits. */
  function LeadingDigits(s: string): (d: string)
    ensures AllDigits(d) && |d| <= |s| && d == s[..|d|]
    ensures |d| < |s| ==> !IsDigit(s[|d|])
  {
    if s != [] && IsDigit(s[0]) then [s[0]] + LeadingDigits(s[1..]) else []
  }

  /** Reads back an integer written by `IntToString` at the head of `s`. */
  function LeadingInt(s: string): int {
    if s != [] && s[0] == '-' then 0 - DigitsValue(LeadingDigits(s[1..])) as int
    else DigitsValue(LeadingDigits(s))
  }

  lemma {:induction false} NatToStringValue(n: nat)
    ensures DigitsValue(NatToString(n)) == n
    decreases n
  {
    if n >= 10 {
      NatToStringValue(n / 10);
      var s := NatToString(n);
      assert s[..|s| - 1] == NatToString(n / 10);
    }
  }

  lemma {:induction false} LeadingDigitsOfDigits(d: string, rest: string)
    requires AllDigits(d)
    requires rest == [] || !IsDigit(rest[0])
    ensures LeadingDigits(d + rest) == d
    decreases |d|
  {
    if d != [] {
      assert (d + rest)[1..] == d[1..] + rest;
      LeadingDigitsOfDigits(d[1..], rest);
    }
  }

  /** Digits followed by a non-digit read back as their value. */
  lemma {:induction false} DigitsLeadingInt(d: string, rest: string)
    requires |d| >= 1 && AllDigits(d)
    requires rest == [] || !IsDigit(rest[0])
    ensures LeadingInt(d + rest) == DigitsValue(d)
  {
    LeadingDigitsOfDigits(d, rest);
    assert (d + rest)[0] == d[0];
  }

  /** A minus sign, digits and a non-digit read back as the negated value. */
  lemma {:induction false} SignedDigitsLeadingInt(d: string, rest: string)
    requires |d| >= 1 && AllDigits(d)
    requires rest == [] || !IsDigit(rest[0])
    ensures LeadingInt("-" + d + rest) == 0 - DigitsValue(d) as int
  {
    assert LeadingDigits(("-" + d + rest)[1..]) == d by {
      var signed := "-" + d;
      assert signed[1..] == d;
      assert (signed + rest)[1..] == signed[1..] + rest;
      LeadingDigitsOfDigits(d, rest);
    }
  }

  /** `str(i)` followed by a non-digit reads back as `i`. */
  lemma {:induction false} IntToStringLeadingInt(i: int, rest: string)
    requires rest == [] || !IsDigit(rest[0])
    ensures LeadingInt(IntToString(i) + rest) == i
  {
    if i < 0 {
      NatToStringValue(-i);
      SignedDigitsLeadingInt(NatToString(-i), rest);
    } else {
      NatToStringValue(i);
      DigitsLeadingInt(NatToString(i), rest);
    }
  }

  /** Distinct integers render differently. */
  lemma {:induction false} IntToStringInjective(i: int, j: int)
    requires IntToString(i) == IntToString(j)
    ensures i == j
  {
    IntToStringLeadingInt(i, []);
    IntToStringLeadingInt(j, []);
    assert IntToString(i) + [] == IntToString(i);
    assert IntToString(j) + [] == IntToString(j);
  }

  /** `s.split(sep)` for a one-character separator: the pieces between
      the separators, empty ones included. */
  function Split(s: string, sep: char): (pieces: seq<string>)
    ensures |pieces| >= 1
    decreases |s|
  {
    if s == [] then [""]
    else
      var rest := Split(s[1..], sep);
      if s[0] == sep then [""] + rest else [[s[0]] + rest[0]] + rest[1..]
  }

  /** There is one more piece than there are separators. */
  lemma {:induction false} SplitCount(s: string, sep: char)
    ensures |Split(s, sep)| - 1 == multiset(s)[sep]
    decreases |s|
  {
    if s != [] {
      SplitCount(s[1..], sep);
      assert s == [s[0]] + s[1..];
    }
  }

  /** `sep.join(pieces)` for a one-character separator. */
  function Join(pieces: seq<string>, sep: char): string
    requires |pieces| >= 1
  {
    if |pieces| == 1 then pieces[0] else pieces[0] + [sep] + Join(pieces[1..], sep)
  }

  /** A piece free of the separator is split off whole. */
  lemma {:induction false} SplitHead(p: string, sep: char, tail: Option<string>)
    requires sep !in p
    ensures tail.None? ==> Split(p, sep) == [p]
    ensures tail.Some? ==> Split(p + [sep] + tail.value, sep) == [p] + Split(tail.value, sep)
    decreases |p|
  {
    if p != [] {
      SplitHead(p[1..], sep, tail);
      if tail.Some? {
        assert (p + [sep] + tail.value)[1..] == p[1..] + [sep] + tail.value;
      }
      assert [p[0]] + p[1..] == p;
    } else if tail.Some? {
      assert ([] + [sep] + tail.value)[1..] == tail.value;
    }
  }

  /** Splitting undoes joining when no piece holds the separator. */
  lemma {:induction false} SplitJoin(pieces: seq<string>, sep: char)
    requires |pieces| >= 1
    requires forall i :: 0 <= i < |pieces| ==> sep !in pieces[i]
    ensures Split(Join(pieces, sep), sep) == pieces
    decreases |pieces|
  {
    if |pieces| == 1 {
      SplitHead(pieces[0], sep, None);
    } else {
      var rest := pieces[1..];
      var joined := Join(rest, sep);
      assert Join(pieces, sep) == pieces[0] + [sep] + joined;
      forall i | 0 <= i < |rest| ensures sep !in rest[i] {
        assert rest[i] == pieces[i + 1];
      }
      SplitJoin(rest, sep);
      SplitHead(pieces[0], sep, Some(joined));
      assert [pieces[0]] + rest == pieces;
    }
  }

  /** Joining one more piece appends the separator and the piece. */
  lemma {:induction false} JoinSnoc(pieces: seq<string>, last: string, sep: char)
    requires |pieces| >= 1
    ensures Join(pieces + [last], sep) == Join(pieces, sep) + [sep] + last
    decreases |pieces|
  {
    if |pieces| > 1 {
      assert (pieces + [last])[1..] == pieces[1..] + [last];
      JoinSnoc(pieces[1..], last, sep);
    }
  }

  /** A needle whose first character does not occur in `s` is found
      right after `s`. */
  lemma {:induction false} FindAfter(s: string, needle: string, t: string)
    requires |needle| > 0 && needle[0] !in s
    ensures Find(s + needle + t, needle) == |s|
  {
    var u := s + needle + t;
    assert u[|s|..|s| + |needle|] == needle;
    assert OccursAt(u, needle, |s|);
    forall k | 0 <= k < |s| && k + |needle| <= |u|
      ensures !OccursAt(u, needle, k)
    {
      assert u[k..k + |needle|][0] == u[k] == s[k];
    }
  }
}

=== FILE: token_cache_store.dfy ===
/**
 * The token cache on disk, shared by `Auth` (src/sumo/wrapper/_auth.py)
 * and `NewAuth` (src/sumo/wrapper/_new_auth.py): the in-memory cache
 * object msal fills, loading it from `~/.sumo/{resource_id}.token`, and the
 * umask / makedirs / write / chmod / umask sequence that saves it.
 */
module TokenCacheStore {
  import opened Wrappers
  import opened Exceptions
  import opened Text
  import opened Paths
  import opened FileSystem
  import opened Identity
  import opened World

  /** What an empty `msal.SerializableTokenCache` serializes to. */
  const EmptyState := "{}"

  /** A token cache as a value: what it serializes to and its
      `has_state_changed` flag. */
  datatype CacheState = CacheState(state: string, changed: bool)

  /** The cache once msal has stored `stored` in it: the new state, marked
      changed; nothing stored leaves it as it was. */
  function AfterStore(c: CacheState, stored: Option<string>): CacheState {
    match stored
    case Some(s) => CacheState(s, true)
    case None => c
  }

  /** The cache after the requests `calls`, each storing what the provider
      says it stores. */
  function CacheAfter(idp: IdentityProvider, calls: seq<Call>, c: CacheState): CacheState
    decreases |calls|
  {
    if calls == [] then c
    else AfterStore(CacheAfter(idp, calls[..|calls| - 1], c), StoredBy(idp, calls[|calls| - 1]))
  }

  /** One more request stores on top of the cache the earlier ones left. */
  lemma {:induction false} CacheAfterAppend(idp: IdentityProvider, calls: seq<Call>, next: Call, c: CacheState)
    ensures CacheAfter(idp, calls + [next], c) == AfterStore(CacheAfter(idp, calls, c), StoredBy(idp, next))
  {
    assert (calls + [next])[..|calls|] == calls;
  }

  /** Requests made in two runs store as if made in one. */
  lemma {:induction false} CacheAfterConcat(idp: IdentityProvider, first: seq<Call>, second: seq<Call>, c: CacheState)
    ensures CacheAfter(idp, first + second, c) == CacheAfter(idp, second, CacheAfter(idp, first, c))
    decreases |second|
  {
    if second == [] {
      assert first + second == first;
    } else {
      var init := second[..|second| - 1];
      var last := second[|second| - 1];
      assert second == init + [last];
      assert first + second == (first + init) + [last];
      CacheAfterAppend(idp, first + init, last, c);
      CacheAfterConcat(idp, first, init, c);
      CacheAfterAppend(idp, init, last, CacheAfter(idp, first, c));
    }
  }

  /** Requests that store nothing leave the cache, flag included, as it
      was. */
  lemma {:induction false} CacheAfterNothingStored(idp: IdentityProvider, calls: seq<Call>, c: CacheState)
    requires forall i :: 0 <= i < |calls| ==> StoredBy(idp, calls[i]).None?
    ensures CacheAfter(idp, calls, c) == c
    decreases |calls|
  {
    if calls != [] {
      CacheAfterNothingStored(idp, calls[..|calls| - 1], c);
    }
  }

  /** Whatever came before, a last request that stores decides the cache:
      it holds exactly that state, marked changed. */
  lemma {:induction false} CacheAfterLastStore(idp: IdentityProvider, calls: seq<Call>, c: CacheState)
    requires |calls| > 0 && StoredBy(idp, calls[|calls| - 1]).Some?
    ensures CacheAfter(idp, calls, c) == CacheState(StoredBy(idp, calls[|calls| - 1]).value, true)
  {
  }

  /** `msal.SerializableTokenCache`: its serialized state and its
      `has_state_changed` flag. */
  class TokenCache {
    var state: string
    var hasStateChanged: bool

    constructor ()
      ensures state == EmptyState && !hasStateChanged
    {
      state := EmptyState;
      hasStateChanged := false;
    }

    function Value(): CacheState
      reads this
    {
      CacheState(state, hasStateChanged)
    }

    /** `cache.deserialize(text)`. */
    method Deserialize(text: string)
      modifies this
      ensures state == text && !hasStateChanged
    {
      state := text;
      hasStateChanged := false;
    }

    /** msal storing the tokens of an acquisition, when it stores any. */
    method Store(stored: Option<string>)
      modifies this
      ensures Value() == AfterStore(old(Value()), stored)
    {
      if stored.Some? {
        state := stored.value;
        hasStateChanged := true;
      }
    }

    /** `cache.serialize()`. */
    function Serialize(): string
      reads this
    {
      state
    }
  }

  /** `sys.platform.lower().startswith("win")`. */
  predicate IsWindows(platform: string) {
    StartsWith(Lower(platform), "win")
  }

  /** The state a fresh cache has after loading `path`: the file's
      contents if it is a regular file, the empty state otherwise. */
  function LoadedState(fs: FsState, path: string): string {
    if IsFile(fs, path) then fs.entries[path].contents else EmptyState
  }

  /** `__load_cache` / `_get_cache`: a new cache, filled from the file
      when there is one. */
  method LoadCache(host: Host, path: string) returns (cache: TokenCache)
    ensures fresh(cache)
    ensures cache.state == LoadedState(host.fs, path) && !cache.hasStateChanged
  {
    cache := new TokenCache();
    if IsFile(host.fs, path) {
      cache.Deserialize(host.fs.entries[path].contents);
    }
  }

  /** The saving sequence as a function of the file system: set the umask
      to 0o077, create the directory, write the file, restrict both to the
      owner unless on Windows, restore the umask. An exception stops the
      sequence where it happens, so the umask stays at 0o077. */
  function WriteCacheFile(fs: FsState, path: string, contents: string, platform: string): Step {
    var (fs1, oldMask) := Umask(fs, GroupOtherAll);
    var dir := DirName(path);
    var made := MakeDirs(fs1, dir);
    if made.error.Some? then made
    else
      var written := OpenWrite(made.fs, path, contents);
      if written.error.Some? then written
      else
        var secured :=
          if IsWindows(platform) then written
          else
            var fileMode := Chmod(written.fs, path, OwnerReadWrite);
            if fileMode.error.Some? then fileMode else Chmod(fileMode.fs, dir, OwnerAll);
        if secured.error.Some? then secured
        else Step(Umask(secured.fs, oldMask).0, None)
  }

  /** `_write_cache` / `__save_cache` after its `has_state_changed` test. */
  method WriteCache(host: Host, path: string, contents: string) returns (error: Option<PyError>)
    modifies host
    ensures Step(host.fs, error) == WriteCacheFile(old(host.fs), path, contents, host.platform)
    ensures host.exitHooks == old(host.exitHooks) && host.calls == old(host.calls)
  {
    var oldMask := host.SetUmask(GroupOtherAll);
    var dir := DirName(path);
    error := host.MakeDirectories(dir);
    if error.Some? {
      return;
    }
    error := host.WriteFile(path, contents);
    if error.Some? {
      return;
    }
    if !IsWindows(host.platform) {
      error := host.ChangeMode(path, OwnerReadWrite);
      if error.Some? {
        return;
      }
      error := host.ChangeMode(dir, OwnerAll);
      if error.Some? {
        return;
      }
    }
    var _ := host.SetUmask(oldMask);
  }

  /** The umask is the caller's again after a save that completes, and is
      left at 0o077 by one that raises. */
  lemma {:induction false} WriteCacheFileUmask(fs: FsState, path: string, contents: string, platform: string)
    ensures var r := WriteCacheFile(fs, path, contents, platform);
            (r.error.None? ==> r.fs.umask == fs.umask)
            && (r.error.Some? ==> r.fs.umask == GroupOtherAll)
  {
  }

  /** After a save that completes, the file holds the contents; off
      Windows it has mode 0o600 and its directory mode 0o700. */
  lemma {:induction false} WriteCacheFileModes(fs: FsState, path: string, contents: string, platform: string)
    ensures var r := WriteCacheFile(fs, path, contents, platform);
            r.error.None? ==>
              IsFile(r.fs, path) && r.fs.entries[path].contents == contents
              && (!IsWindows(platform) ==>
                    r.fs.entries[path] == File(OwnerReadWrite, contents)
                    && r.fs.entries[DirName(path)] == Dir(OwnerAll))
  {
    var fs1 := Umask(fs, GroupOtherAll).0;
    var dir := DirName(path);
    var made := MakeDirs(fs1, dir);
    MakeDirsEnsures(fs1, dir);
    if made.error.None? {
      var written := OpenWrite(made.fs, path, contents);
      if written.error.None? {
        assert dir != path by {
          assert IsDir(made.fs, dir);
        }
      }
    }
  }

  /** Saving and then loading gives back the saved state. */
  lemma {:induction false} SaveThenLoad(fs: FsState, path: string, contents: string, platform: string)
    ensures var r := WriteCacheFile(fs, path, contents, platform);
            r.error.None? ==> LoadedState(r.fs, path) == contents
  {
    WriteCacheFileModes(fs, path, contents, platform);
  }

  /** Every entry's parent directory is present (or is the current
      directory), as on a real file system. */
  predicate WellFormed(fs: FsState) {
    forall p :: p in fs.entries ==>
      var d := DirName(p);
      d == "" || d == p || IsDir(fs, d)
  }

  /** The save completes whenever the directory already exists and the
      token path is not itself a directory. */
  lemma {:induction false} WriteCacheFileSucceeds(fs: FsState, path: string, contents: string, platform: string)
    requires WellFormed(fs)
    requires path != "" && IsDir(fs, DirName(path)) && !IsDir(fs, path)
    ensures WriteCacheFile(fs, path, contents, platform).error.None?
  {
    var fs1 := Umask(fs, GroupOtherAll).0;
    var dir := DirName(path);
    assert dir != path;
    var head := DirName(dir);
    assert head == "" || head == dir || IsDir(fs1, head);
    assert MakeDirs(fs1, dir) == Step(fs1, None);
  }
}

=== FILE: wrappers.dfy ===
/** Optional values: Python's `None` versus a present value. */
module Wrappers {

  datatype Option<+T> = None | Some(value: T)

  /** Python truthiness of an optional string: present and non-empty. */
  predicate Truthy(s: Option<string>) {
    s.Some? && s.value != ""
  }

  /** Python truthiness of an optional sequence (bytes, lists). */
  predicate NonEmpty<T>(s: Option<seq<T>>) {
    s.Some? && |s.value| > 0
  }
}
